=== FILE: README.md ===
# Recurring-transaction engine of split-money-serverless, in Dafny

split-money-serverless is a personal-finance backend of AWS Lambda handlers
over a Supabase (PostgreSQL) database. Its core is the recurring-transaction
engine, and this project models that engine together with the handlers
around it that change tables.

- **Rule encoder.** A recurring definition stores an RFC 5545 recurrence
  rule (section 3.3.10 of RFC 5545, the RECUR value). The encoder turns
  `{frequency, count}` into `FREQ=…;COUNT=n`.
- **Transaction feed.** `TransactionService.get` merges three things: the
  user's stored transactions, *virtual* records expanded from the user's
  active definitions, and a de-duplication that lets a stored record beat a
  virtual one on the same day. It then sorts (a stable sort, as section
  22.1.3.27 of ECMA-262, 10th edition, requires of `Array.prototype.sort`)
  and paginates.
- **Cron materialiser.** It stores the coming week's occurrences of every
  active definition, keeping a `last_generated_at` watermark and two
  counters.
- **Eager series creation.** `create-transaction` builds `quantity + 1`
  linked payloads.
- **Definition lifecycle over tables.**
  - Ownership-checked update.
  - Detach-then-delete of a definition.
  - The two bulk-delete handlers, including the orphan cleanup.
  - The category and tag deletes, guarded against dependent transactions.
- **Response mapping.** The error-to-response classification of
  `errorMiddleware`, the `ResponseBuilder` builders and `withAuth`.

How the model represents things:

- **Instants** are integers (milliseconds since the epoch). The local zone is
  a fixed offset (`offset`). `DayKey(t, offset)` stands for
  `format(t, "yyyy-MM-dd")`.
- **Tables.** The database is the class `Storage.Store`. It holds the four
  tables as sequences of rows, and a map `faults` that decides which calls
  fail. A call is keyed by table, operation and filter value.
- **Outside code becomes parameters.**
  - The rule library's expansion is the oracle `Env.expand`.
  - `crypto.randomUUID`/`uuidv4` are `Env.mint` and `uuid`.
  - The clock is `Env.now`.
  - `z.coerce.date()` is `coerceDate`.
  - The database's answer to the create insert is `insert`.
- **`RRule.fromString`** is modelled by a parser, `RRuleConverter.ParseRule`.
  It accepts an optional `RRULE:` header in any letter case. It compares keys
  in upper case and reads `FREQ` (its value also in upper case), `COUNT` and
  `INTERVAL`. It accepts the library's other keys and rejects unknown ones. A
  rule without `FREQ` is YEARLY, and an empty rule is the default YEARLY rule.
- **Pure code and mutating code.** Code that only computes is written as
  functions. The loops the source writes (the existing-date `forEach`, the
  dedup `reduce`, the `payloadList` loop, the cron and bulk loops, the
  validation-details fold, the `updateData` build) are methods with loop
  invariants, proved against those functions.

## Model

| member | source | states |
|---|---|---|
| RRuleConverter.FreqFromName | src/utils/rrule-converter.ts:12-17 | a recognised frequency name is exactly the name of the frequency it yields |
| RRuleConverter.FreqNameRoundTrip | src/utils/rrule-converter.ts:12-17 | reading back a frequency's name gives that frequency |
| RRuleConverter.FrequencyMap | src/utils/rrule-converter.ts:12-17 | DAILY, WEEKLY, MONTHLY and YEARLY map to the rule frequency of the same name, and only to it |
| RRuleConverter.IndexOf | src/utils/rrule-converter.ts:24 | the first occurrence of the pattern, or none exactly when it does not occur at all; a prefix is found at 0 |
| RRuleConverter.ReplaceFirst | src/utils/rrule-converter.ts:24 | `replace` with a string pattern: no occurrence leaves the text as it is; otherwise only the first occurrence is replaced |
| RRuleConverter.RuleText | src/utils/rrule-converter.ts:19-24 | the printed rule starts with `RRULE:` and parses back to its frequency and count, with no interval |
| RRuleConverter.ConvertToRRule | src/utils/rrule-converter.ts:4-25 | fails exactly when `count` (default 1) is not positive, with "Interval must be a positive number"; the result no longer starts with `RRULE:` |
| RRuleConverter.StrippedText | src/utils/rrule-converter.ts:19-24 | removing the header from the printed rule leaves exactly `FREQ=<name>;COUNT=<n>` |
| RRuleConverter.EffectiveInterval | src/services/transaction.service.ts:66 | `interval \|\| 1` is at least 1 and is the interval when one ≥ 1 is set |
| RRuleConverter.FirstIndex | src/services/transaction.service.ts:59-61 | the first index of a character, or none exactly when it does not occur |
| RRuleConverter.Split | src/services/transaction.service.ts:59-61 | splitting gives at least one part and no part contains the separator |
| RRuleConverter.SplitTwo | src/services/transaction.service.ts:59-61 | two separator-free parts joined by the separator split back into those two parts |
| RRuleConverter.FirstIndexAt | src/services/transaction.service.ts:59-61 | the first position holding a character is what FirstIndex returns |
| RRuleConverter.KeyValue | src/services/transaction.service.ts:59-61 | a rule part has a key exactly when it holds an `=`; the key ends at the first `=` and the value at the next, and together they start the part |
| RRuleConverter.SplitHead | src/services/transaction.service.ts:59-61 | the first piece of a split is a prefix of the text |
| RRuleConverter.KeyValueOf | src/services/transaction.service.ts:59-61 | `key=value` with an `=`-free key and value reads back as `(key, value)` |
| RRuleConverter.UpperChar | src/services/transaction.service.ts:59-61 | `toUpperCase` on one character: an ASCII lower-case letter moves 32 code points down, every other character is kept |
| RRuleConverter.Upper | src/services/transaction.service.ts:59-61 | upper-casing keeps the length and maps each character by UpperChar |
| RRuleConverter.UpperFixed | src/services/transaction.service.ts:59-61 | text without lower-case letters is its own upper case |
| RRuleConverter.FreqNameUpper | src/services/transaction.service.ts:59-61 | frequency names are upper case and hold no `=` |
| RRuleConverter.ParseRule | src/services/transaction.service.ts:59-61 | an empty rule is the default: YEARLY with no count, interval or other part |
| RRuleConverter.MissingFreqIsYearly | src/services/transaction.service.ts:59-65 | a rule with a count and no FREQ parses as YEARLY |
| RRuleConverter.ReadFreqPartAnyCase | src/services/transaction.service.ts:59-65 | a FREQ part sets the frequency whatever the letter case of its key and value |
| RRuleConverter.ReadFreqPart | src/services/transaction.service.ts:59-65 | a `FREQ=` part sets the frequency and nothing else |
| RRuleConverter.ReadCountPart | src/services/transaction.service.ts:59-65 | a `COUNT=` part sets the count and nothing else |
| RRuleConverter.ParseEncoded | src/services/transaction.service.ts:59-65 | `FREQ=f;COUNT=n` parses to frequency f, count n and no interval |
| RRuleConverter.HeaderOptional | src/functions/cron/process-recurring-transactions.ts:120 | a non-empty stored rule without a header parses the same with `RRULE:` (in any letter case) in front, so the cron job and the feed read the same rule |
| RRuleConverter.ConvertParseRoundTrip | src/utils/rrule-converter.ts:19-24 | for a positive count the encoded rule parses back to the mapped frequency and the same count |
| Calendar.ShiftMonths | src/functions/transaction/create-transaction.ts:69-71 | `setMonth(getMonth() + k)` keeps the local time of day |
| Calendar.ShiftMonthsDay | src/functions/transaction/create-transaction.ts:69-71 | `setMonth(getMonth() + k)` lands on the same day of month in the month k on when that month has the day, and otherwise rolls the excess days into the following month |
| Calendar.ShiftYears | src/functions/transaction/create-transaction.ts:72-74 | `setFullYear(getFullYear() + k)` keeps the local time of day |
| Calendar.ShiftYearsDay | src/functions/transaction/create-transaction.ts:72-74 | `setFullYear(getFullYear() + k)` lands on the same month and day of month k years on when that month has the day (29 February rolls over to 1 March otherwise) |
| Calendar.CivilDayPositive | src/functions/transaction/create-transaction.ts:63-74 | the day of month `getDate` reads is never below 1 |
| Calendar.DayKey | src/services/transaction.service.ts:170-189 | the day key is the local day holding the instant |
| Calendar.StartOfMonth | src/services/transaction.service.ts:84 | `startOfMonth` is local midnight of the first day of the instant's month |
| Calendar.EndOfMonth | src/services/transaction.service.ts:85 | `endOfMonth` is the last millisecond of the day before the first of the next month |
| Calendar.AddMonths | src/services/transaction.service.ts:88 | `addMonths` keeps the local time of day and lands in the target month |
| Calendar.AddMonthsDay | src/services/transaction.service.ts:88 | `addMonths` keeps the day of month, clamped to the length of the target month |
| Calendar.AddDays | src/functions/cron/process-recurring-transactions.ts:110 | `addDays(t, n)` moves the local day by n and keeps the time of day, in every zone |
| Occurrences.UtcPin | src/services/transaction.service.ts:68-71 | the pinned hour, minute and second are in range |
| Storage.Store.constructor | src/libs/supabase.ts:5 | the store holds the given tables and faults |
| Storage.Store.InsertTransactions | src/functions/cron/process-recurring-transactions.ts:183-194 | the batch is appended whole, or nothing changes when the insert fails |
| Storage.Store.DeleteTransaction | src/functions/transaction/bulk-delete-transactions.ts:117-121 | removes exactly the rows with that id and owner, unless the delete fails |
| Storage.Store.DetachTransactions | src/services/recurring-transaction.service.ts:173-177 | clears the link of exactly the owner's rows linked to the definition, unless the update fails |
| Storage.Store.UpdateDefinitions | src/services/recurring-transaction.service.ts:112-118 | changes exactly the definition with that id and owner, unless the update fails |
| Storage.Store.MarkGenerated | src/functions/cron/process-recurring-transactions.ts:233-247 | stamps `last_generated_at` on the definitions with that id, unless the update fails |
| Storage.Store.DeleteDefinition | src/services/recurring-transaction.service.ts:190-194 | removes exactly the definition with that id and owner, unless the delete fails |
| Storage.Store.DeleteNamed | src/functions/category/delete-category.ts:73-77 | removes exactly the category or tag with that id and owner and touches no other table, unless the delete fails |
| Storage.FaultOf | src/libs/supabase.ts:5 | a call fails exactly when the fault map names it |
| Storage.Single | src/services/recurring-transaction.service.ts:91-96 | `.single()` succeeds exactly on one matching row and returns it |
| Storage.Detached | src/services/recurring-transaction.service.ts:173-177 | only the link can change; the owner's rows linked to the definition lose it; every other row is unchanged |
| Storage.Stamped | src/functions/cron/process-recurring-transactions.ts:233-237 | only `last_generated_at` changes, and exactly on the definitions with that id |
| StableSort.KeyLessOrder | src/services/transaction.service.ts:469-471 | the comparator's `<` is irreflexive, transitive and total on distinct keys, strings compared by UTF-16 code units |
| StableSort.Units | src/services/transaction.service.ts:469-470 | one or two UTF-16 code units per character |
| StableSort.Utf16 | src/services/transaction.service.ts:469-470 | a string has at least as many code units as characters |
| StableSort.UnitsDiffer | src/services/transaction.service.ts:469-470 | different characters begin different code unit sequences |
| StableSort.Utf16Injective | src/services/transaction.service.ts:469-470 | different strings have different UTF-16 encodings |
| StableSort.StrLess | src/services/transaction.service.ts:469-470 | JavaScript `<` on strings is irreflexive and, on different strings, decides one way or the other |
| StableSort.Sort | src/services/transaction.service.ts:439-472 | the sort returns a permutation of its input, ordered by the key, ascending or descending |
| StableSort.SortStable | src/services/transaction.service.ts:439-472 | records with equal keys keep their input order |
| TransactionService.FinalEnd | src/services/transaction.service.ts:91-106 | with the end date read as an instant (corrected, see Findings): the `between` bound is after neither the search window's end nor the definition's end date |
| TransactionService.SearchWindow | src/services/transaction.service.ts:80-89 | with a date, local midnight of the month's first day to its last millisecond; without, from now to the same time of day twelve months on |
| TransactionService.RequestAnchor | src/services/transaction.service.ts:110-115 | the re-anchored start has the start's UTC day of month in the request's UTC month, the start's UTC time to the second, and the request's milliseconds |
| TransactionService.CandidateQuery | src/services/transaction.service.ts:63-72 | the rule is rebuilt from frequency, count and interval and pinned to the start; a rule with a count is expanded whole, from the start or the re-anchored start; any other between the start and a bound after neither the window's end nor the end date |
| TransactionService.Eligible | src/services/transaction.service.ts:135-145 | keeps exactly the candidates inside the window, and with no date filter those not before now |
| TransactionService.VirtualRecord | src/services/transaction.service.ts:187-205 | a virtual record copies the definition, is linked to it and is dated at the occurrence |
| TransactionService.VirtualRecords | src/services/transaction.service.ts:187-205 | one record per date, in order |
| TransactionService.FutureTransactions | src/services/transaction.service.ts:40-205 | with the end date read as an instant (the corrected generator, see Findings): fails exactly on an unparsable rule; nothing when the start is after the request date; every record copies the definition |
| TransactionService.UnseenDates | src/services/transaction.service.ts:147-190 | exactly the candidate dates whose local day no stored occurrence has |
| TransactionService.NotStoredDay | src/services/transaction.service.ts:170-189 | a date outside the stored days differs in day from every stored occurrence |
| TransactionService.RecordsOfUnseen | src/services/transaction.service.ts:147-205 | every virtual record copies the definition, is dated at a candidate and falls on a day no stored occurrence has |
| TransactionService.UnseenGetsRecord | src/services/transaction.service.ts:147-205 | every candidate whose day no stored occurrence has gets a virtual record |
| TransactionService.DayKeysOf | src/services/transaction.service.ts:170-176 | the key set is exactly the day keys of the rows |
| TransactionService.FutureTransactionsSound | src/services/transaction.service.ts:57-205 | for the corrected generator: fails exactly on an unparsable rule; nothing when the start is after the request date; every record copies the definition, lies in the window (and not before now without a date), is a rule occurrence, and its day differs from every stored occurrence of the definition |
| TransactionService.CollectDayKeys | src/services/transaction.service.ts:147-176 | the `forEach` fills the set with exactly the stored rows' day keys |
| TransactionService.GenerateFutureTransactions | src/services/transaction.service.ts:40-245 | returns exactly FutureTransactions over the current tables and the lookup's outcome |
| TransactionService.FutureTransactionsComplete | src/services/transaction.service.ts:135-205 | conversely, every eligible occurrence whose day is not stored yet gets a virtual record |
| TransactionService.StoredTransactions | src/services/transaction.service.ts:279-313 | every returned row matches the query's filters and every matching row is returned, at most one per input row; with a status filter a row carries that status or none |
| TransactionService.EmbedStatus | src/services/transaction.service.ts:295-297 | only the embedded status can change; with a status filter it is that status or none, and a matching row is unchanged |
| TransactionService.EmbedKeepsMatch | src/services/transaction.service.ts:279-311 | narrowing the embedding keeps a row matching the query |
| TransactionService.EmbeddedRows | src/services/transaction.service.ts:279-311 | the embedded rows all match, carry the requested status or none, and include every matching row |
| TransactionService.ActiveDefinitions | src/services/transaction.service.ts:330-362 | exactly the user's definitions with no end date or one on or after the request date |
| TransactionService.GenerateAll | src/services/transaction.service.ts:364-371 | every virtual record copies one of the definitions and lies in the search window |
| TransactionService.GenerateAllFailed | src/services/transaction.service.ts:364-371 | once one definition fails, the whole expansion fails with that error |
| TransactionService.GenerateAllFailedStep | src/services/transaction.service.ts:364-371 | a failure of the prefix is kept when one more definition is added |
| TransactionService.GenerateAllNext | src/services/transaction.service.ts:364-371 | the expansion of one more definition appends its records, or fails with its error |
| TransactionService.Flagged | src/services/transaction.service.ts:386-393 | sets `is_virtual` and `is_recurring_generated` and changes nothing else |
| TransactionService.VisibleVirtual | src/services/transaction.service.ts:395-408 | virtual records are filtered by type and by the month window only |
| TransactionService.Unique | src/services/transaction.service.ts:417-436 | the kept records are a subset of the input, no more of them |
| TransactionService.KeptMask | src/services/transaction.service.ts:417-436 | one keep/drop verdict per record |
| TransactionService.Dedup | src/services/transaction.service.ts:417-436 | the `reduce` with its accumulator computes Unique |
| TransactionService.UniqueIsSubsequence | src/services/transaction.service.ts:417-436 | the result is the order-preserving subsequence of kept records |
| TransactionService.UniqueNoTwoInOneSlot | src/services/transaction.service.ts:417-436 | no two kept records share a recurring id and a day key |
| TransactionService.UniqueKeepsUnlinked | src/services/transaction.service.ts:417-436 | stored records without a recurring id are never dropped |
| TransactionService.UniqueCoversSlots | src/services/transaction.service.ts:417-436 | every (recurring id, day) slot present in the input keeps one record |
| TransactionService.FirstInSlotWins | src/services/transaction.service.ts:417-436 | a linked record is kept exactly when no earlier record shares its slot |
| TransactionService.StoredBeatsVirtual | src/services/transaction.service.ts:417-436 | a stored record drops a later virtual record of the same slot |
| TransactionService.SliceIndex | src/services/transaction.service.ts:478 | a `slice` index is clamped into `0..n`; an in-range index is kept |
| TransactionService.JsSlice | src/services/transaction.service.ts:476-478 | a slice is no longer than the range and holds only input records |
| TransactionService.TotalPages | src/services/transaction.service.ts:486 | `Math.ceil(total / limit)` is the least page count covering `total` |
| TransactionService.CeilDivision | src/services/transaction.service.ts:486 | integer ceiling division bounds `total` between pages − 1 and pages full pages |
| TransactionService.PageRunPrefix | src/services/transaction.service.ts:474-478 | pages 1..k together are the first k·limit records |
| TransactionService.PagesCoverAll | src/services/transaction.service.ts:474-487 | pages 1..totalPages together are the whole sorted list |
| TransactionService.Paginate | src/services/transaction.service.ts:474-487 | the page echoes page, limit and total, holds at most `limit` records, and follows the records of the earlier pages |
| TransactionService.SliceKeeps | src/services/transaction.service.ts:476-478 | `slice` keeps the order and one record per slot |
| TransactionService.PermutedOnePerSlot | src/services/transaction.service.ts:439-472 | one record per slot survives any reordering, the sort's in particular |
| TransactionService.PageOfOrdered | src/services/transaction.service.ts:439-487 | a page of a one-per-slot list is in the requested order and one per slot |
| TransactionService.Get | src/services/transaction.service.ts:247-496 | `get` on an already parsed date (with the corrected generator) returns exactly Feed: stored rows, then the visible virtual records, de-duplicated, sorted (date, desc by default) and paginated (page 1 of 10 by default) |
| TransactionService.RequestedDate | src/services/transaction.service.ts:274-275 | an absent or empty `filters.date` sets no month filter; a date `new Date` reads is that instant; one it cannot read fails with "Invalid time value" |
| TransactionService.FeedOfRequest | src/services/transaction.service.ts:247-496 | an unreadable request date fails with "Invalid time value" whatever the tables hold; otherwise the feed of the parsed date; a page echoes the requested page and limit (1 and 10 by default) |
| TransactionService.GetRequest | src/services/transaction.service.ts:247-496 | `get` on the request's text date returns exactly FeedOfRequest |
| TransactionService.Feed | src/services/transaction.service.ts:247-496 | on an already parsed date, with the corrected generator: a failed select of stored rows fails with its error; a page echoes its page and limit and holds at most `limit` of its total records |
| TransactionService.FeedPageOrdered | src/services/transaction.service.ts:417-487 | every page is in the requested order and has at most one record per recurring slot |
| TransactionService.FutureTransactionsAsWritten | src/services/transaction.service.ts:57-101 | as written: fails exactly when the rule does not parse, or when the definition starts no later than the request date and has an end date (`end_date.getTime` on the string the database returns); otherwise it is the corrected generator |
| TransactionService.GenerateAllAsWritten | src/services/transaction.service.ts:364-371 | as written, `Promise.all` fails exactly when one of the definitions throws; a success is the corrected expansion |
| TransactionService.FeedAsWritten | src/services/transaction.service.ts:247-496 | as written: when both selects work, `get` fails exactly when an active definition throws; a success is the corrected feed |
| TransactionService.FeedAsWrittenFailsOnEndDate | src/services/transaction.service.ts:93-101 | one active definition of the user with an end date on or after the request date and a start no later than it makes `get` fail as written, while the corrected feed returns a page whenever every rule parses and both selects work |
| TransactionService.GenerateAllOk | src/services/transaction.service.ts:364-371 | the corrected expansion succeeds whenever every rule parses |
| TransactionService.EndDateBoundsRecords | src/services/transaction.service.ts:93-101 | corrected: for a rule without a count, every record of a definition with an end date lies between its start date and its end date |
| TransactionService.FeedRecordsBelongToUser | src/services/transaction.service.ts:279-414 | every record on a page is the user's: a filtered stored row, or a virtual copy of one of the user's active definitions of the requested type |
| Cron.ExistingRows | src/functions/cron/process-recurring-transactions.ts:208-231 | the lookup returns the definition's rows on the candidate days, or nothing when it fails |
| Cron.WeekQuery | src/functions/cron/process-recurring-transactions.ts:110-123 | the rule starts at now with its milliseconds cleared, unpinned, asked between the definition's start and seven local days from now |
| Cron.Materialised | src/functions/cron/process-recurring-transactions.ts:171-181 | an inserted row copies the definition, is linked to it, and is dated and last updated at the occurrence |
| Cron.ValidDates | src/functions/cron/process-recurring-transactions.ts:123-137 | the dates are exactly the occurrences past the watermark and within 30 days of now |
| Cron.DatesToCreate | src/functions/cron/process-recurring-transactions.ts:153-160 | exactly the valid dates on no day of an existing row |
| Cron.ToCreate | src/functions/cron/process-recurring-transactions.ts:147-160 | the dates to create are the valid dates whose day the lookup did not find |
| Cron.Batch | src/functions/cron/process-recurring-transactions.ts:171-181 | one row per date, in order, copying the definition and linked to it |
| Cron.PassWith | src/functions/cron/process-recurring-transactions.ts:118-205 | no candidate date: nothing happens; every day stored: only the watermark moves; a failed insert fails the pass with nothing inserted or marked; otherwise the whole batch is inserted and the watermark moved, and a successful pass returns the number of rows inserted |
| Cron.PassOf | src/functions/cron/process-recurring-transactions.ts:97-206 | an expired definition returns 0, inserts nothing and keeps its watermark; an unparsable rule fails with nothing inserted; otherwise the pass is PassWith over the parsed rule |
| Cron.ProcessRecurringTransaction | src/functions/cron/process-recurring-transactions.ts:97-206 | the result, the appended rows and the watermark update are those of PassOf |
| Cron.InsertedRows | src/functions/cron/process-recurring-transactions.ts:109-181 | every inserted row is a date to create in `[start, now + 7 days]` and a copy of the definition linked to it |
| Cron.FailedLookupInsertsAll | src/functions/cron/process-recurring-transactions.ts:221-228 | when the existence lookup fails, every valid date is inserted, in order |
| Cron.SweepOf | src/functions/cron/process-recurring-transactions.ts:52-68 | the loop only appends rows, and the counters stay within the definitions and the rows added |
| Cron.SweepStep | src/functions/cron/process-recurring-transactions.ts:56-68 | one more pass only appends rows, and its counters grow by at most one and by at most the rows added |
| Cron.SweepPass | src/functions/cron/process-recurring-transactions.ts:56-68 | the i-th pass appends exactly its inserted rows and is counted, with them, exactly when it succeeds |
| Cron.SweepPrefix | src/functions/cron/process-recurring-transactions.ts:56-68 | the sweep over one more definition is one more pass |
| Cron.GeneratedCountsInserts | src/functions/cron/process-recurring-transactions.ts:52-68 | with working watermark updates, `generatedCount` equals the number of rows added |
| Cron.ProcessNext | src/functions/cron/process-recurring-transactions.ts:57-67 | one pass of the loop leaves the counters and the tables exactly where one more step of the sweep puts them |
| Cron.Handler | src/functions/cron/process-recurring-transactions.ts:7-95 | a failed fetch answers the fault and changes nothing; no active definition changes nothing; otherwise the counters and tables are those of the sweep over the active definitions |
| Cron.ActiveToday | src/functions/cron/process-recurring-transactions.ts:16-22 | a definition that passes the filter is expired only when its end date falls earlier today; west of UTC a definition the filter drops is expired |
| Cron.ActiveDefinitions | src/functions/cron/process-recurring-transactions.ts:19-22 | exactly the definitions that pass the filter |
| Cron.StatusCode | src/functions/cron/process-recurring-transactions.ts:24-93 | 500 exactly when the fetch fails, 200 otherwise |
| Http.ParseBody | src/functions/transaction/bulk-delete-transactions.ts:27-37 | `JSON.parse(body \|\| '{}')`: a missing body is `{}`, and parsing fails exactly on malformed text |
| Http.MessageResponse | src/functions/category/delete-category.ts:89-95 | the status is kept and the body holds the message and every extra key |
| ResponseBuilder.OrDefault | src/presentation/utils/ResponseBuilder.ts:45 | `message \|\| fallback` |
| ResponseBuilder.Ok | src/presentation/utils/ResponseBuilder.ts:19-35 | 200, `success: true`, the data, and `pagination`/`stats` exactly when given |
| ResponseBuilder.Created | src/presentation/utils/ResponseBuilder.ts:40-49 | 201 with the message or "Resource created successfully" |
| ResponseBuilder.NoContent | src/presentation/utils/ResponseBuilder.ts:54-59 | 204 with an empty body |
| ResponseBuilder.BadRequest | src/presentation/utils/ResponseBuilder.ts:64-79 | 400 `BAD_REQUEST`; `details` exactly when errors are given |
| ResponseBuilder.Unauthorized | src/presentation/utils/ResponseBuilder.ts:84-95 | 401 `UNAUTHORIZED`, default "Authentication required" |
| ResponseBuilder.Forbidden | src/presentation/utils/ResponseBuilder.ts:100-111 | 403 `FORBIDDEN`, default "Access denied" |
| ResponseBuilder.NotFoundMessage | src/presentation/utils/ResponseBuilder.ts:123 | "X not found", or "Resource not found" |
| ResponseBuilder.NotFound | src/presentation/utils/ResponseBuilder.ts:116-127 | 404 `NOT_FOUND` with that message |
| ResponseBuilder.Conflict | src/presentation/utils/ResponseBuilder.ts:132-143 | 409 with the code or `CONFLICT` |
| ResponseBuilder.InternalError | src/presentation/utils/ResponseBuilder.ts:148-163 | 500 `INTERNAL_SERVER_ERROR`, default message, `requestId` exactly when given |
| ResponseBuilder.Custom | src/presentation/utils/ResponseBuilder.ts:168-176 | echoes the status and the body |
| ErrorMiddleware.ValidationError | src/presentation/middleware/errorMiddleware.ts:23-28 | 400 `VALIDATION_ERROR` with the message and details |
| ErrorMiddleware.NotFoundError | src/presentation/middleware/errorMiddleware.ts:30-39 | 404 `NOT_FOUND`, "X not found" or "Resource not found" |
| ErrorMiddleware.UnauthorizedError | src/presentation/middleware/errorMiddleware.ts:41-46 | 401 `UNAUTHORIZED`, default "Unauthorized" |
| ErrorMiddleware.ForbiddenError | src/presentation/middleware/errorMiddleware.ts:48-53 | 403 `FORBIDDEN`, default "Forbidden" |
| ErrorMiddleware.ConflictError | src/presentation/middleware/errorMiddleware.ts:55-60 | 409 with the code or `CONFLICT` |
| ErrorMiddleware.ValidationDetails | src/presentation/middleware/errorMiddleware.ts:113-120 | the keys are exactly the issues' dot-joined paths |
| ErrorMiddleware.LastIssueWins | src/presentation/middleware/errorMiddleware.ts:113-120 | a path's entry is the message of its last issue |
| ErrorMiddleware.ValidationErrors | src/presentation/middleware/errorMiddleware.ts:113-120 | the loop writing `acc[field]` builds ValidationDetails |
| ErrorMiddleware.AsJson | src/presentation/middleware/errorMiddleware.ts:129-132 | the details keep their keys and become JSON strings |
| ErrorMiddleware.AppErrorResponse | src/presentation/middleware/errorMiddleware.ts:97-105 | an `AppError` answers its own status, code and message; `details` and `requestId` appear exactly when present |
| ErrorMiddleware.Classify | src/presentation/middleware/errorMiddleware.ts:86-106 | a handler's response passes through unchanged; an `AppError` keeps its status |
| ErrorMiddleware.WithErrorHandling | src/presentation/middleware/errorMiddleware.ts:79-179 | the middleware answers exactly Classify |
| ErrorMiddleware.ClassifyOther | src/presentation/middleware/errorMiddleware.ts:108-176 | issues give 400; `PGRST116` gives 404; `23505` gives 409 `DUPLICATE`; `23503` gives 409 `FOREIGN_KEY_VIOLATION`; anything else gives 500, with the message only in development for an `Error` |
| ErrorMiddleware.ComposeOutermost | src/presentation/middleware/errorMiddleware.ts:195-204 | `compose([m1..mn])(h) = m1(compose([m2..mn])(h))` |
| ErrorMiddleware.ComposeAppend | src/presentation/middleware/errorMiddleware.ts:195-204 | composing a concatenation nests the two compositions |
| AuthMiddleware.TrimStart | src/presentation/middleware/authMiddleware.ts:39 | drops exactly the leading whitespace |
| AuthMiddleware.TrimEnd | src/presentation/middleware/authMiddleware.ts:39 | drops exactly the trailing whitespace |
| AuthMiddleware.Trim | src/presentation/middleware/authMiddleware.ts:39 | `trim()` is the part of the claim between leading and trailing white space, with no white space at either end |
| AuthMiddleware.TrimEmptyIffBlank | src/presentation/middleware/authMiddleware.ts:39 | `trim()` is empty exactly when the claim is all whitespace |
| AuthMiddleware.ExtractUserId | src/presentation/middleware/authMiddleware.ts:67-75 | returns the claim exactly when it is a non-blank string, untrimmed |
| AuthMiddleware.WithAuth | src/presentation/middleware/authMiddleware.ts:30-61 | 401 "Invalid or missing authentication token" on a bad claim; otherwise the handler's response, or 401 "Authentication failed" when it throws |
| AuthMiddleware.ExtractAgreesWithAuth | src/presentation/middleware/authMiddleware.ts:36-75 | `extractUserId` is null exactly where `withAuth` rejects, and otherwise yields the user the handler sees |
| AuthMiddleware.BlankClaimRejected | src/presentation/middleware/authMiddleware.ts:70-72 | a whitespace-only claim is rejected |
| CreateTransaction.FrequencyOf | src/functions/transaction/create-transaction.ts:21 | the four enum names, each exactly to its frequency |
| CreateTransaction.KindOf | src/functions/transaction/create-transaction.ts:17 | accepts exactly "income" and "outcome" |
| CreateTransaction.RecurrenceOf | src/functions/transaction/create-transaction.ts:19-24 | accepted exactly when absent or a conforming object; an accepted one carries the body's positive integer quantity and its frequency |
| CreateTransaction.Validate | src/functions/transaction/create-transaction.ts:13-26 | accepted exactly when the body conforms; an accepted body's description, amount, type, category and coerced date are the body's, and the payment status and recurrence are present exactly when the body has them, with their values |
| CreateTransaction.StepDate | src/functions/transaction/create-transaction.ts:61-75 | stepping by days, weeks, months or years keeps the local time of day |
| CreateTransaction.StepDateDay | src/functions/transaction/create-transaction.ts:61-75 | payload i lies i days (daily) or 7i days (weekly) after the request's local day, or on the request's day of month i months or i years on (monthly, yearly), rolling over when the target month is shorter |
| CreateTransaction.BasePayload | src/functions/transaction/create-transaction.ts:44-55 | the payload carries the request's fields, the user, the id and no parent |
| CreateTransaction.PayloadList | src/functions/transaction/create-transaction.ts:57-83 | q+1 payloads; the first has the base id and no parent; the others have fresh ids and the first as parent; payload i is dated i steps on; all share the content; distinct uuids give distinct ids |
| CreateTransaction.Handler | src/functions/transaction/create-transaction.ts:28-121 | bad JSON or an invalid body gives 400 before any insert; a single request sends one payload, a recurrent one the series; an insert error gives 400, success 200 with the data |
| RecurringService.StartFilter | src/services/recurring-transaction.service.ts:34-39 | an absent or empty `startDate` sets no filter; otherwise the filter is the parsed date, and a date that does not parse fails with the RangeError "Invalid time value" |
| RecurringService.GetRecurringTransactions | src/services/recurring-transaction.service.ts:19-63 | an invalid start date fails with "Invalid time value" before the query; otherwise it fails exactly on a select error, with that error; a success holds exactly the user's rows (with a start date, those without an end or ending on or after it), ordered by `created_at` descending |
| RecurringService.SortKeepsMembers | src/services/recurring-transaction.service.ts:32 | ordering keeps exactly the same rows |
| RecurringService.Patched | src/services/recurring-transaction.service.ts:105-118 | the id, owner, creation time and watermark are kept; `updated_at` becomes now |
| UpdateRecurring.PatchedTakesChanges | src/services/recurring-transaction.service.ts:105-118 | every supplied body field replaces the stored one (an explicit null clears the end date); the fields not supplied are kept |
| RecurringService.EmptyUpdateTouchesOnlyTimestamp | src/services/recurring-transaction.service.ts:105-109 | an empty update moves only `updated_at` |
| RecurringService.Owned | src/services/recurring-transaction.service.ts:91-103 | succeeds exactly when the select works and exactly one row has that id and owner, returning it; otherwise "not found or unauthorized" |
| RecurringService.Matching | src/services/recurring-transaction.service.ts:91-96 | exactly the definitions with that id and owner |
| RecurringService.OwnedIn | src/services/recurring-transaction.service.ts:91-103 | succeeds exactly when the select works and one row matches, returning that row; otherwise "not found or unauthorized" |
| RecurringService.PatchRows | src/services/recurring-transaction.service.ts:112-118 | only the row with that id and owner is patched |
| RecurringService.UpdateRecurringTransaction | src/services/recurring-transaction.service.ts:72-139 | a missing or foreign id fails and changes nothing; an update error changes nothing; otherwise the patched row is returned and stored |
| RecurringService.PatchRowsKeepsOthers | src/services/recurring-transaction.service.ts:112-118 | every other row is unchanged |
| RecurringService.DeleteRecurringTransaction | src/services/recurring-transaction.service.ts:148-215 | a missing or foreign id changes nothing; a failed detach deletes nothing; otherwise the user's linked rows are detached, the definition is deleted and the old row returned |
| RecurringService.DetachKeepsRows | src/services/recurring-transaction.service.ts:173-177 | detaching keeps every transaction and every other field |
| RecurringService.DeleteRemovesOnlyTarget | src/services/recurring-transaction.service.ts:190-194 | the definition is gone and every other one remains |
| UpdateRecurring.OptionalText | src/functions/recurring-transaction/update-recurring-transaction.ts:8 | accepted exactly when absent or a string; present exactly when given, with that value |
| UpdateRecurring.OptionalKind | src/functions/recurring-transaction/update-recurring-transaction.ts:9 | accepted exactly when absent or a type; present exactly when given, with that value |
| UpdateRecurring.OptionalNumber | src/functions/recurring-transaction/update-recurring-transaction.ts:10 | accepted exactly when absent or a number; present exactly when given, with that value |
| UpdateRecurring.OptionalDate | src/functions/recurring-transaction/update-recurring-transaction.ts:12 | accepted exactly when absent or a date that coerces; present exactly when given, with that value |
| UpdateRecurring.NullableDate | src/functions/recurring-transaction/update-recurring-transaction.ts:13 | accepted exactly when absent, null or a date that coerces; null stays distinct from absent |
| UpdateRecurring.ValidateChanges | src/functions/recurring-transaction/update-recurring-transaction.ts:7-15 | accepted exactly when every supplied field conforms; each field is present exactly when the body has its key, with the body's value; `endDate: null` stays null |
| UpdateRecurring.UpdateDataOf | src/functions/recurring-transaction/update-recurring-transaction.ts:54-63 | each column is present exactly when its field is, with its value |
| UpdateRecurring.PartialAdd | src/functions/recurring-transaction/update-recurring-transaction.ts:54-63 | a supplied field adds exactly its column, with its value, to the payload built so far |
| UpdateRecurring.PartialSkip | src/functions/recurring-transaction/update-recurring-transaction.ts:54-63 | a field that was not supplied leaves the payload as it was |
| UpdateRecurring.BuildUpdateData | src/functions/recurring-transaction/update-recurring-transaction.ts:54-63 | the field-by-field build produces UpdateDataOf |
| UpdateRecurring.UpdateDataMirrorsBody | src/functions/recurring-transaction/update-recurring-transaction.ts:54-63 | a column is in `updateData` exactly when the body has the camelCase key |
| UpdateRecurring.DefinitionJson | src/functions/recurring-transaction/update-recurring-transaction.ts:106 | the returned row carries its id |
| UpdateRecurring.UpdateResponse | src/functions/recurring-transaction/update-recurring-transaction.ts:71-108 | 200 exactly on success; 404 exactly for an `Error` mentioning "not found"; 500 otherwise; with the message or the default text |
| UpdateRecurring.NotFoundInOwnershipMessage | src/services/recurring-transaction.service.ts:101 | the ownership error's message contains "not found" |
| UpdateRecurring.OwnershipFailureIsNotFound | src/functions/recurring-transaction/update-recurring-transaction.ts:81-91 | a missing or foreign definition is answered 404 |
| UpdateRecurring.Handler | src/functions/recurring-transaction/update-recurring-transaction.ts:17-124 | missing id 400, bad JSON 500, invalid body 400, each changing nothing; otherwise the response and the table follow the service's outcome |
| UpdateRecurring.UpdateOutcome | src/services/recurring-transaction.service.ts:72-139 | succeeds exactly when the user owns the definition and the update works, with the patched row keeping its id and owner; a missing or foreign id gives "not found or unauthorized" |
| BulkIds.Texts | src/functions/transaction/bulk-delete-transactions.ts:70 | the ids are exactly the strings of the array |
| BulkIds.ReadIds | src/functions/transaction/bulk-delete-transactions.ts:27-77 | each rejection (invalid JSON, null body, no array, empty, more than 50, a non-string) happens exactly on its condition; an accepted list holds 1 to 50 strings, exactly the array's |
| BulkIds.FailedIds | src/functions/transaction/bulk-delete-transactions.ts:102-105 | one id per failure |
| BulkIds.FailedIdsAppend | src/functions/transaction/bulk-delete-transactions.ts:102-105 | a new failure appends its id |
| BulkIds.Negated | src/functions/transaction/bulk-delete-transactions.ts:88-141 | the opposite verdict for every id |
| BulkIds.OrderStep | src/functions/transaction/bulk-delete-transactions.ts:88-141 | pushing the next id onto one list keeps both lists in request order |
| BulkIds.PickSplits | src/functions/transaction/bulk-delete-transactions.ts:88-141 | the picked and the left-out ids make up the request, as a multiset |
| BulkIds.SplitStep | src/functions/transaction/bulk-delete-transactions.ts:88-141 | one more id goes to exactly one side: the lengths and the multisets of the two sides grow by that one id |
| BulkIds.OrderPartitions | src/functions/transaction/bulk-delete-transactions.ts:79-141 | lists in request order put every id in exactly one list, and the counts add up to `ids.length` |
| BulkIds.FirstsStep | src/functions/transaction/bulk-delete-transactions.ts:88-141 | one more verdict extends the first-occurrence decisions |
| BulkIds.AcceptedStep | src/functions/transaction/bulk-delete-transactions.ts:88-141 | one more accepted or refused id keeps the success list exactly the accepted ids |
| BulkIds.Completed | src/functions/transaction/bulk-delete-transactions.ts:168-180 | 200 with the message, the summary counts, `info` exactly when given, and the success ids and failures in order |
| BulkDeleteRecurring.Reason | src/functions/recurring-transaction/bulk-delete-recurring-transactions.ts:96-105 | the error's message for an `Error`, else "Error deleting recurring transaction" |
| BulkDeleteRecurring.RemainingKeepsOthers | src/functions/recurring-transaction/bulk-delete-recurring-transactions.ts:89-133 | other users' definitions and failed ids stay; an id that went through leaves no definition |
| BulkDeleteRecurring.Unhooked | src/services/recurring-transaction.service.ts:173-177 | only the link can change; a row linked to a deleted definition loses it; other rows are unchanged |
| BulkDeleteRecurring.UnhookedAll | src/services/recurring-transaction.service.ts:173-177 | Unhooked on every row, in order |
| BulkDeleteRecurring.LoopStep | src/functions/recurring-transaction/bulk-delete-recurring-transactions.ts:89-133 | the loop invariant holds for one more id |
| BulkDeleteRecurring.DeleteOne | src/functions/recurring-transaction/bulk-delete-recurring-transactions.ts:90-116 | succeeds exactly when the ownership check, the detach and the delete all work; a failure carries the first failing call's reason; the user's rows linked to the definition are detached exactly when ownership and the detach work; the definition is removed exactly on success; nothing else changes |
| BulkDeleteRecurring.DeleteNext | src/functions/recurring-transaction/bulk-delete-recurring-transactions.ts:89-133 | one pass of the loop keeps the invariant: request order; the first occurrence of each id is decided by its outcome; the definitions left are Remaining and the transactions UnhookedAll over the ids so far; every failure carries its expected reason |
| BulkDeleteRecurring.DeleteEach | src/functions/recurring-transaction/bulk-delete-recurring-transactions.ts:82-134 | every id in exactly one list, in request order; an id succeeds exactly when its first occurrence's outcome is clean; the definitions left are exactly Remaining, the transactions exactly UnhookedAll; each failure carries its expected reason |
| BulkDeleteRecurring.ErrorFields | src/functions/recurring-transaction/bulk-delete-recurring-transactions.ts:150-161 | the 500 body carries the error message, and `requestId` exactly when the event has one |
| BulkDeleteRecurring.Handler | src/functions/recurring-transaction/bulk-delete-recurring-transactions.ts:17-163 | a rejected body gives 400 (a null body 500) and changes nothing; otherwise the ids are partitioned exactly by outcome, the tables are Remaining and UnhookedAll, and the summary carries `info` |
| BulkDeleteTransactions.Existing | src/functions/transaction/bulk-delete-transactions.ts:91-101 | found exactly when the select works and exactly one row has that id and owner; the found row is the user's |
| BulkDeleteTransactions.RowsOf | src/functions/transaction/bulk-delete-transactions.ts:91-97 | exactly the rows with that id and owner |
| BulkDeleteTransactions.Expected | src/functions/transaction/bulk-delete-transactions.ts:101-129 | a failure is "delete failed" exactly when the row exists and its delete fails, else "not found or access denied" |
| BulkDeleteTransactions.LinkOf | src/functions/transaction/bulk-delete-transactions.ts:131-133 | the found row's truthy link, which references a definition |
| BulkDeleteTransactions.Links | src/functions/transaction/bulk-delete-transactions.ts:131-133 | every found link, each truthy and referenced |
| BulkDeleteTransactions.RowsLeftKeepsOthers | src/functions/transaction/bulk-delete-transactions.ts:88-141 | other users' rows and failed ids stay; an id that went through leaves no row |
| BulkDeleteTransactions.KeptStep | src/functions/transaction/bulk-delete-transactions.ts:88-141 | removing one more id that went through extends the rows left |
| BulkDeleteTransactions.Remaining | src/functions/transaction/bulk-delete-transactions.ts:146-150 | fails exactly when its select fails; otherwise empty exactly when no transaction of the user is still linked |
| BulkDeleteTransactions.Dropped | src/functions/transaction/bulk-delete-transactions.ts:153-157 | the delete removes only that definition, and all of it unless the delete fails |
| BulkDeleteTransactions.CleanupAsWritten | src/functions/transaction/bulk-delete-transactions.ts:143-166 | the cleanup as written only removes definitions |
| BulkDeleteTransactions.Cleanup | src/functions/transaction/bulk-delete-transactions.ts:143-166 | the corrected cleanup only removes definitions |
| BulkDeleteTransactions.CleanupAsWrittenDropsLinked | src/functions/transaction/bulk-delete-transactions.ts:146-158 | a failed remaining-select deletes a definition that a transaction still references |
| BulkDeleteTransactions.CleanupKeepsLinked | src/functions/transaction/bulk-delete-transactions.ts:143-166 | the corrected cleanup keeps every definition except unlinked checked ones of the user, and deletes those when nothing fails |
| BulkDeleteTransactions.DeleteOne | src/functions/transaction/bulk-delete-transactions.ts:89-131 | succeeds exactly when the row exists for the user and its delete works, removing exactly that row; a failure is "not found or access denied" or the delete error; a truthy link is added to the check set once |
| BulkDeleteTransactions.DeleteNext | src/functions/transaction/bulk-delete-transactions.ts:88-141 | one pass of the loop keeps the invariant |
| BulkDeleteTransactions.LoopStep | src/functions/transaction/bulk-delete-transactions.ts:88-141 | the loop invariant holds for one more id |
| BulkDeleteTransactions.DeleteEach | src/functions/transaction/bulk-delete-transactions.ts:84-141 | every id in exactly one list, in request order; an id succeeds exactly when its first occurrence goes through; the rows left are exactly RowsLeft; every failure carries its expected reason; the check set is exactly the distinct links of the found rows |
| BulkDeleteTransactions.DeleteRow | src/functions/transaction/bulk-delete-transactions.ts:117-129 | the user's row is removed exactly when the delete works, and nothing else changes |
| BulkDeleteTransactions.CleanupOrphans | src/functions/transaction/bulk-delete-transactions.ts:143-166 | the loop over the check set leaves the definitions as Cleanup says |
| BulkDeleteTransactions.Handler | src/functions/transaction/bulk-delete-transactions.ts:20-190 | a rejected body gives 400 (a null body 500) and changes nothing; otherwise the ids are partitioned exactly by outcome, the rows left are RowsLeft, the link of every found row is checked, the definitions are Cleanup's, no still-linked definition is deleted, and the summary |
| DeleteNamed.TableOf | src/functions/tag/delete-tag.ts:77-81 | a category or tag lives in the categories or the tags table, the only tables the named delete accepts |
| DeleteNamed.Dependents | src/functions/category/delete-category.ts:45-50 | the dependency query is empty exactly when none of the user's transactions uses the row |
| DeleteNamed.Decide | src/functions/category/delete-category.ts:27-95 | 404 exactly when not found; 500 exactly on a failed dependency check; 409 exactly while a dependent exists; 400 exactly on a delete error; 200 otherwise, with the exact 200 and 409 bodies |
| DeleteNamed.DeleteResource | src/functions/tag/delete-tag.ts:5-111 | missing id 400; missing user 401; otherwise Decide's answer; the table loses the row exactly on 200 and no other table changes |
| DeleteNamed.DeletedOnlyWhenUnused | src/functions/category/delete-category.ts:62-95 | after a 200 the row had existed, no transaction of the user used it, and it alone is gone |
| DeleteNamed.DeleteCategory | src/functions/category/delete-category.ts:4-108 | the category handler, with the same contract on `categories` |
| DeleteNamed.DeleteTag | src/functions/tag/delete-tag.ts:5-111 | the tag handler, with the same contract on `tags` |

## Left out

- **The RRule library.**
  - `all()` and `between()` are the oracle `Env.expand`.
  - `HonoursBetween` states the library's promise that `between` stays within its bounds. It is assumed only where a property depends on it (Cron.InsertedRows).
  - The printed form of a rule (`RuleText`) is the RFC 5545 text `RRULE:FREQ=…;COUNT=n`.
  - `UNTIL` and the library's other keys are accepted by `ParseRule` but their values are not read. In `generateFutureTransactions` the branch on `rule.options.until` (transaction.service.ts:91-106) never applies, because the rule it reads is rebuilt from frequency, count and interval only; TransactionService.FinalEnd bounds by the window and the definition's end date alone.
- **Time zones.**
  - The local zone is a fixed offset with no daylight-saving changes.
  - The calendar helpers follow ECMAScript `MakeDay` and date-fns clamping; no calendar round trip is proved.
- **Cron day lookup.**
  - Cron.ExistingRows: `getExistingTransactions` compares a timestamp column with `yyyy-MM-dd` strings. This is modelled as "the row's date is UTC midnight of a candidate day".
  - Cron.ActiveToday: the `end_date.gte.<today>` filter likewise reads today's key as UTC midnight.
  - Neither is claimed as a finding, because the column type is not part of this model.
- **Cron rule start.** `RRule.fromString` without `DTSTART` lets the library pick its start. Only the span `[start_date, now + 7 days]` passed to `between` is modelled.
- **`Promise.all`** in `get` is a sequential expansion in definition order. The first failure fails the whole, as the rejected `Promise.all` does.
- **Watermark update in the feed.** The `last_generated_at` update inside `generateFutureTransactions` (transaction.service.ts:207-231) is not modelled. Its errors are swallowed and it does not change the feed.
- **Logging.** `console` calls, `errorLogger` and every other logging call are left out.
- **Amounts.** Amounts are integers, not floating point.
- **Row order.** The database returns rows in table order. The tie order of `.order('created_at')` is taken to be stable.
- **Enum values.** `TransactionFrequencyEnum` lives in a file that is not part of this model. Its values are taken to be the strings "DAILY", "WEEKLY", "MONTHLY" and "YEARLY".
- **Errors.**
  - Supabase errors are reduced to `Fault(isError, message)`.
  - Which calls fail is the store's `faults` map, keyed by table, operation and filter value. Ids of different tables therefore share one key space per table and operation.
  - Zod's error objects in the 400 bodies of create and update are not modelled: CreateTransaction.Handler and UpdateRecurring.Handler answer `{message}` without the `error` field.
- **JSON.** Numbers are integers. Object key order is not modelled. UpdateRecurring.DefinitionJson writes instants as numbers of milliseconds, where the response body the source serialises carries ISO 8601 date strings.
- **Listing dates.** RecurringService.StartFilter: `new Date(startDate)` is the parameter `parseDate`; which strings it accepts is not modelled.
- TransactionService.RequestedDate: `new Date(date)` of the feed request is the parameter `parseDate`; which strings it accepts is not modelled.
- **Create dates.** CreateTransaction.Validate: `z.coerce.date()` is the parameter `coerceDate`. An "Invalid Date" is a rejection.
- **Claims.**
  - AuthMiddleware.WithAuth takes the wrapped handler as a function of the user id, so the rest of the event is not modelled.
  - The bulk and update handlers take the `sub` claim as given, because the source casts it without a check.
  - A missing authorizer, which makes the source throw before its `try`, is not modelled.
- **Bulk handlers.**
  - BulkDeleteRecurring.Handler and BulkDeleteTransactions.Handler: destructuring a `null` body throws a `TypeError`. Its message is the parameter `typeError`.
  - The per-item `catch` branches ("Unexpected error during deletion") cannot be reached in the model, because store calls report errors as values and never throw.
- **Category and tag handlers.**
  - The outer `catch` returning 400 "Error deleting category/tag" cannot be reached in the model, for the same reason.
  - DeleteNamed.Decide: the 404 body's `error` is `null` when the row is simply missing. The PostgREST error object that `.single()` returns for zero rows is not modelled.
- **Request time.** `Env.now` is one instant that stands for every `new Date()` a request or a cron run makes. The source reads the clock several times per request; the model does not see the milliseconds between those reads.
- **Inserted rows.** Cron.Materialised: the cron insert sends no `created_at`. The model takes the database default to be the run's `now`.
- BulkDeleteTransactions.CleanupOrphans: deletes a definition only after a successful, empty select (`Cleanup`). The source also deletes it when that select fails; `CleanupAsWritten` is that behaviour (see Findings).
- BulkDeleteTransactions.Handler: runs the corrected cleanup (`Cleanup`). As written, the source also deletes a definition whose remaining-select failed; `CleanupAsWritten` models that, and the Findings table shows the input.
- TransactionService.FinalEnd: reads the definition's end date as an instant, the corrected behaviour. As written, `end_date.getTime()` throws on the string the database returns; `FutureTransactionsAsWritten` models that (see Findings).
- TransactionService.FutureTransactions: models the corrected end-date handling; the as-written generator, which fails on every definition with an end date that starts no later than the request date, is `FutureTransactionsAsWritten`.
- TransactionService.FutureTransactionsSound: states the properties of the corrected generator; as written, a definition with an end date makes the generator fail instead (`FutureTransactionsAsWritten`).
- TransactionService.Feed: uses the corrected generator; `FeedAsWritten` is `get` as written, and `FeedAsWrittenFailsOnEndDate` shows where the two differ.
- TransactionService.Get: returns the corrected Feed, not `FeedAsWritten`.
- RRuleConverter.ParseRule: models the library's case folding (header, keys and the FREQ value), its YEARLY default and its `split('=')`, but not these: `BYEASTER` forcing YEARLY; signed or non-numeric `COUNT` and `INTERVAL` values, which the library keeps as negative numbers or text and the model rejects; comma lists in them; a known key without `=` (`DTSTART`, `TZID`, `WKST`, `BYEASTER` pass the library, the model rejects all); an unknown `FREQ` value, rejected by both but at different points; newline-separated lines and `DTSTART`/`EXRULE` lines; trimming of surrounding white space; letters outside ASCII in `toUpperCase`; and the exact wording of error messages.
- **`getFuture`.** `TransactionService.getFuture` is a stub returning `[]` and is not modelled.
- **Unused request fields.** The feed's `categoryId`/`tagId` filters apply to stored rows only, as in the source. Virtual records carry no category or tag.
- **Unrelated handlers.** Handlers and services outside the recurring-transaction engine are not part of this model: authentication, single-row CRUD, investments and payment statuses.

## Findings

| source | as written | input that shows it | evidently intended | confidence | as-written member | corrected member |
|---|---|---|---|---|---|---|
| src/services/transaction.service.ts:93-101 | `generateFutureTransactions` calls `recurringTransaction.end_date.getTime()`, but the row comes from the database as JSON, so `end_date` is an ISO string and the call throws a TypeError; the surrounding `catch` rethrows and the `Promise.all` in `get` rejects | a user with one recurring definition that has an end date, starts before today and ends after today requests the feed: `get` fails | read the end date as an instant (`new Date(end_date)`) and bound the expansion by it | not executed | TransactionService.FeedAsWrittenFailsOnEndDate | TransactionService.EndDateBoundsRecords |
| src/functions/transaction/bulk-delete-transactions.ts:146-158 | the orphan cleanup deletes the recurring definition when `remainingTransactions` is null, which is also what a *failed* select returns (its error is not read) | the user deletes transaction t1 linked to definition D, keeps t2 linked to D, and the select of D's remaining transactions fails: D is deleted while t2 still references it | delete the definition only when the select succeeded and returned no rows | not executed | BulkDeleteTransactions.CleanupAsWrittenDropsLinked | BulkDeleteTransactions.CleanupKeepsLinked |

- **End date, as written.** `TransactionService.FutureTransactionsAsWritten`, `GenerateAllAsWritten` and `FeedAsWritten` are the feed with the throwing `getTime` call. `TransactionService.FeedAsWrittenFailsOnEndDate` exhibits the input of the first row.
- **End date, corrected.** `TransactionService.FutureTransactions`, `Feed` and `Get` read the end date as an instant (`FinalEnd`). `TransactionService.EndDateBoundsRecords` proves that no record then falls outside the definition's start and end dates, and `GenerateAllOk` that the feed fails only on a rule that does not parse.
- **As written.** `BulkDeleteTransactions.CleanupAsWritten` is the cleanup exactly as the code does it. `BulkDeleteTransactions.CleanupAsWrittenDropsLinked` exhibits the input above.
- **Corrected.** `BulkDeleteTransactions.Cleanup` deletes only on a successful empty select. `BulkDeleteTransactions.CleanupKeepsLinked` proves two things about it:
  - it never deletes a definition that a transaction of the user still references;
  - when no call fails, it deletes every unreferenced definition it checks.
- **Where it is used.** `BulkDeleteTransactions.Handler` uses the corrected cleanup.

=== FILE: auth_middleware.dfy ===
/** The authentication middleware: the user id comes from the `sub` claim
    that the gateway's JWT authorizer put on the request. */
module AuthMiddleware {
  import opened Common
  import opened Http
  import RB = ResponseBuilder

  /** The characters `String.prototype.trim` removes: ECMAScript
      WhiteSpace and LineTerminator code points. */
  predicate IsJsSpace(c: char) {
    c in {'\t', '\n', '\U{000B}', '\U{000C}', '\r', ' ', '\U{00A0}', '\U{1680}',
          '\U{2000}', '\U{2001}', '\U{2002}', '\U{2003}', '\U{2004}', '\U{2005}',
          '\U{2006}', '\U{2007}', '\U{2008}', '\U{2009}', '\U{200A}',
          '\U{2028}', '\U{2029}', '\U{202F}', '\U{205F}', '\U{3000}', '\U{FEFF}'}
  }

  function TrimStart(s: string): (r: string)
    ensures |r| <= |s| && r == s[|s| - |r|..]
    ensures forall i :: 0 <= i < |s| - |r| ==> IsJsSpace(s[i])
    ensures r != [] ==> !IsJsSpace(r[0])
    decreases |s|
  {
    if s == [] then s
    else if IsJsSpace(s[0]) then TrimStart(s[1..])
    else s
  }

  function TrimEnd(s: string): (r: string)
    ensures |r| <= |s| && r == s[..|r|]
    ensures forall i :: |r| <= i < |s| ==> IsJsSpace(s[i])
    ensures r != [] ==> !IsJsSpace(r[|r| - 1])
    decreases |s|
  {
    if s == [] then s
    else if IsJsSpace(s[|s| - 1]) then TrimEnd(s[..|s| - 1])
    else s
  }

  /** `s.trim()` */
  function Trim(s: string): (r: string)
    ensures r != [] ==> !IsJsSpace(r[0]) && !IsJsSpace(r[|r| - 1])
    ensures exists a :: TrimmedAt(s, r, a)
  {
    TrimBoth(s);
    TrimEnd(TrimStart(s))
  }

  lemma TrimBoth(s: string)
    ensures TrimmedAt(s, TrimEnd(TrimStart(s)), |s| - |TrimStart(s)|)
  {
    var mid := TrimStart(s);
    var r := TrimEnd(mid);
    var a := |s| - |mid|;
    assert r == mid[..|r|];
    assert r == s[a..a + |r|];
    forall i | a + |r| <= i < |s| ensures IsJsSpace(s[i]) {
      assert s[i] == mid[i - a];
    }
  }

  /** `r` is the part of `s` at index `a`, with only white space around it. */
  predicate TrimmedAt(s: string, r: string, a: int) {
    0 <= a <= |s| - |r| && r == s[a..a + |r|]
    && (forall i :: 0 <= i < a ==> IsJsSpace(s[i]))
    && (forall i :: a + |r| <= i < |s| ==> IsJsSpace(s[i]))
  }

  /** A string trims to nothing exactly when every character is white
      space. */
  lemma TrimEmptyIffBlank(s: string)
    ensures Trim(s) == [] <==> forall i :: 0 <= i < |s| ==> IsJsSpace(s[i])
  {
  }

  /** The `sub` claim is a string with a non-blank character. */
  predicate ValidSub(sub: Option<Json>) {
    sub.Some? && sub.value.Text? && Trim(sub.value.s) != []
  }

  const InvalidToken := "Invalid or missing authentication token"
  const AuthenticationFailed := "Authentication failed"

  /** `extractUserId`: the claim, untrimmed, or nothing. */
  function ExtractUserId(sub: Option<Json>): (r: Option<string>)
    ensures r.Some? <==> ValidSub(sub)
    ensures r.Some? ==> sub == Some(Text(r.value))
  {
    if ValidSub(sub) then Some(sub.value.s) else None
  }

  /** `withAuth(handler)` on a request whose `sub` claim is `sub`: the
      handler sees the untrimmed claim as its user id, and whatever it
      throws becomes a 401. */
  function WithAuth<E>(handler: string -> Result<Response, E>, sub: Option<Json>): (r: Response)
    ensures !ValidSub(sub) ==> RB.IsError(r, 401, "UNAUTHORIZED", InvalidToken)
    ensures ValidSub(sub) && handler(sub.value.s).Ok? ==> r == handler(sub.value.s).value
    ensures ValidSub(sub) && handler(sub.value.s).Err? ==> RB.IsError(r, 401, "UNAUTHORIZED", AuthenticationFailed)
  {
    if !ValidSub(sub) then RB.Unauthorized(Some(InvalidToken))
    else
      match handler(sub.value.s)
      case Ok(response) => response
      case Err(_) => RB.Unauthorized(Some(AuthenticationFailed))
  }

  /** `extractUserId` and `withAuth` agree: the request is rejected exactly
      when no user id can be extracted, and otherwise the handler runs with
      the extracted id. */
  lemma ExtractAgreesWithAuth<E>(handler: string -> Result<Response, E>, sub: Option<Json>)
    ensures ExtractUserId(sub).None? ==> WithAuth(handler, sub) == RB.Unauthorized(Some(InvalidToken))
    ensures ExtractUserId(sub).Some? && handler(ExtractUserId(sub).value).Ok? ==>
              WithAuth(handler, sub) == handler(ExtractUserId(sub).value).value
  {
  }

  /** A claim made only of white space is rejected, and so is any claim
      that is not a string. */
  lemma BlankClaimRejected(sub: Option<Json>)
    requires sub.Some? ==> (sub.value.Text? ==> forall i :: 0 <= i < |sub.value.s| ==> IsJsSpace(sub.value.s[i]))
    ensures ExtractUserId(sub).None?
  {
    if sub.Some? && sub.value.Text? {
      TrimEmptyIffBlank(sub.value.s);
    }
  }
}

=== FILE: bulk_delete_recurring.dfy ===
/** The bulk delete of recurring definitions: each id goes through the
    single delete of the recurring service (unlink the user's transactions,
    then delete the definition), one after the other, and the answer lists
    which ids were deleted and why the others were not. */
module BulkDeleteRecurring {
  import opened Common
  import opened Http
  import opened Records
  import opened Storage
  import opened RecurringService
  import opened BulkIds

  const DeleteFailed := "Error deleting recurring transaction"
  const Info := "Existing real transactions remain intact. Virtual transactions will no longer be generated."

  /** The reason recorded for a failed id: the error's message when it is
      an `Error`, a fixed text otherwise. */
  function Reason(f: Fault): (r: string)
    ensures f.isError ==> r == f.message
    ensures !f.isError ==> r == DeleteFailed
  {
    if f.isError then f.message else DeleteFailed
  }

  /** Where deleting `id` on its own ends, given the definitions before
      it: `None` when the definition goes, else the error of the first call
      that fails (the ownership check, the unlinking, the delete). */
  function Outcome(defs: seq<Definition>, faults: map<Call, Fault>, id: Id, userId: Id): Option<Fault> {
    if OwnedIn(defs, faults, id, userId).Err? then Some(NotFoundOrUnauthorized)
    else if FaultOf(faults, Transactions, Update, id).Some? then FaultOf(faults, Transactions, Update, id)
    else FaultOf(faults, RecurringTransactions, Delete, id)
  }

  /** Whether deleting `id` gets as far as unlinking the user's transactions. */
  predicate Unlinks(defs: seq<Definition>, faults: map<Call, Fault>, id: Id, userId: Id) {
    OwnedIn(defs, faults, id, userId).Ok? && FaultOf(faults, Transactions, Update, id).None?
  }

  /** What one pass of the loop body leaves, from the tables before it
      (`midDefs`, `midRows`) to the tables after it: it succeeds exactly
      when no call fails, a failure carries the reason of the call that
      failed, the transactions are unlinked once the ownership check and
      the unlinking pass, and the definition goes only on success. */
  predicate DeletedOne(midDefs: seq<Definition>, nowDefs: seq<Definition>, midRows: seq<Txn>, nowRows: seq<Txn>,
                       faults: map<Call, Fault>, id: Id, userId: Id, ok: bool, reason: string) {
    && (ok <==> Outcome(midDefs, faults, id, userId).None?)
    && (!ok ==> reason == Reason(Outcome(midDefs, faults, id, userId).value))
    && nowRows == (if Unlinks(midDefs, faults, id, userId) then Map(midRows, (t: Txn) => Detached(t, id, userId))
                   else midRows)
    && nowDefs == (if ok then Filter(midDefs, (d: Definition) => !(d.id == id && d.userId == userId)) else midDefs)
  }

  /** One pass of the loop body: the single delete, seen from the bulk
      handler. */
  method DeleteOne(db: Store, id: Id, userId: Id) returns (ok: bool, reason: string)
    modifies db
    ensures DeletedOne(old(db.recurring), db.recurring, old(db.transactions), db.transactions, db.faults, id, userId, ok, reason)
    ensures db.categories == old(db.categories) && db.tags == old(db.tags)
  {
    var result := DeleteRecurringTransaction(db, id, userId);
    ok := result.Ok?;
    reason := if result.Err? then Reason(result.error) else "";
  }

  /** The definitions left after deleting `ids` one by one. */
  function Remaining(defs: seq<Definition>, faults: map<Call, Fault>, ids: seq<Id>, userId: Id): seq<Definition> {
    Filter(defs, (d: Definition) => !(d.userId == userId && d.id in ids && Outcome(defs, faults, d.id, userId).None?))
  }

  /** Deleting `ids` one by one removes only definitions: every id whose
      delete goes through has none left, and every other definition stays. */
  lemma RemainingKeepsOthers(defs: seq<Definition>, faults: map<Call, Fault>, ids: seq<Id>, userId: Id)
    ensures var r := Remaining(defs, faults, ids, userId);
            && (forall d :: d in r ==> d in defs)
            && (forall d :: d in defs && (d.userId != userId || d.id !in ids) ==> d in r)
            && (forall d :: d in defs && Outcome(defs, faults, d.id, userId).Some? ==> d in r)
            && (forall id :: id in ids && Outcome(defs, faults, id, userId).None? ==> !HasDefinition(r, id, userId))
  {
  }

  /** A transaction after deleting `ids` one by one. */
  function Unhooked(defs: seq<Definition>, faults: map<Call, Fault>, ids: seq<Id>, userId: Id, t: Txn): (r: Txn)
    ensures r == t.(recurrentId := r.recurrentId)
    ensures r.recurrentId == t.recurrentId || r.recurrentId.None?
    ensures (t.userId == userId && t.recurrentId.Some? && t.recurrentId.value in ids
             && Outcome(defs, faults, t.recurrentId.value, userId).None?) ==> r.recurrentId.None?
    ensures (t.userId != userId || t.recurrentId.None? || t.recurrentId.value !in ids) ==> r == t
  {
    if t.userId == userId && t.recurrentId.Some? && t.recurrentId.value in ids
       && Unlinks(defs, faults, t.recurrentId.value, userId)
    then t.(recurrentId := None) else t
  }

  /** The transactions after deleting `ids` one by one. */
  function UnhookedAll(defs: seq<Definition>, faults: map<Call, Fault>, ids: seq<Id>, userId: Id, rows: seq<Txn>): (r: seq<Txn>)
    ensures |r| == |rows| && forall k :: 0 <= k < |rows| ==> r[k] == Unhooked(defs, faults, ids, userId, rows[k])
  {
    Map(rows, (t: Txn) => Unhooked(defs, faults, ids, userId, t))
  }

  /** The reason a failed id carries: its own delete's, or "not found" for
      a repeat of an id already deleted. */
  function Expected(defs: seq<Definition>, faults: map<Call, Fault>, id: Id, userId: Id): string {
    match Outcome(defs, faults, id, userId)
    case Some(f) => Reason(f)
    case None => NotFoundOrUnauthorized.message
  }

  /** The verdict on each id: deleted exactly when its delete goes through
      and it is the first copy of that id. */
  predicate Decided(defs: seq<Definition>, faults: map<Call, Fault>, ids: seq<Id>, verdicts: seq<bool>, userId: Id) {
    FirstsOf(ids, verdicts, (x: Id) => Outcome(defs, faults, x, userId).None?)
  }

  /** The deleted ids: exactly those of the list whose delete goes through. */
  ghost predicate DeletedIds(defs: seq<Definition>, faults: map<Call, Fault>, ids: seq<Id>, success: seq<Id>, userId: Id) {
    Accepted(ids, success, (x: Id) => Outcome(defs, faults, x, userId).None?)
  }

  predicate Explained(defs: seq<Definition>, faults: map<Call, Fault>, failed: seq<Failure>, userId: Id) {
    forall j :: 0 <= j < |failed| ==> failed[j].reason == Expected(defs, faults, failed[j].id, userId)
  }

  /** What the loop keeps after the first `i` ids, from the tables before
      the loop to the tables now. */
  ghost predicate Loop(beforeDefs: seq<Definition>, nowDefs: seq<Definition>, beforeRows: seq<Txn>, nowRows: seq<Txn>,
                 faults: map<Call, Fault>, ids: seq<Id>, i: nat, success: seq<Id>, failed: seq<Failure>,
                 verdicts: seq<bool>, userId: Id) {
    && i <= |ids|
    && InOrder(ids[..i], success, failed, verdicts)
    && Decided(beforeDefs, faults, ids[..i], verdicts, userId)
    && DeletedIds(beforeDefs, faults, ids[..i], success, userId)
    && Explained(beforeDefs, faults, failed, userId)
    && nowDefs == Remaining(beforeDefs, faults, ids[..i], userId)
    && nowRows == UnhookedAll(beforeDefs, faults, ids[..i], userId, beforeRows)
  }

  /** Before the next id, the user's definitions under it are those before
      the loop, or none once an earlier copy of it was deleted. */
  lemma MatchingSoFar(defs: seq<Definition>, faults: map<Call, Fault>, done: seq<Id>, x: Id, userId: Id)
    ensures Matching(Remaining(defs, faults, done, userId), x, userId)
         == if x in done && Outcome(defs, faults, x, userId).None? then [] else Matching(defs, x, userId)
  {
    var keep := (d: Definition) => !(d.userId == userId && d.id in done && Outcome(defs, faults, d.id, userId).None?);
    var m := (d: Definition) => d.id == x && d.userId == userId;
    if x in done && Outcome(defs, faults, x, userId).None? {
      FilterFilter(defs, keep, m, (d: Definition) => false);
      FilterNone(defs, (d: Definition) => false);
    } else {
      FilterFilter(defs, keep, m, m);
    }
  }

  /** So the next id's delete ends as it would have before the loop, or
      as "not found" once an earlier copy of it was deleted. */
  lemma OutcomeSoFar(defs: seq<Definition>, faults: map<Call, Fault>, done: seq<Id>, x: Id, userId: Id)
    ensures var deleted := x in done && Outcome(defs, faults, x, userId).None?;
            var mid := Remaining(defs, faults, done, userId);
            && Outcome(mid, faults, x, userId) == (if deleted then Some(NotFoundOrUnauthorized) else Outcome(defs, faults, x, userId))
            && Unlinks(mid, faults, x, userId) == (!deleted && Unlinks(defs, faults, x, userId))
  {
    MatchingSoFar(defs, faults, done, x, userId);
  }

  lemma DecidedStep(defs: seq<Definition>, faults: map<Call, Fault>, ids: seq<Id>, i: nat, verdicts: seq<bool>,
                    ok: bool, userId: Id)
    requires i < |ids| && Decided(defs, faults, ids[..i], verdicts, userId)
    requires ok <==> Outcome(Remaining(defs, faults, ids[..i], userId), faults, ids[i], userId).None?
    ensures Decided(defs, faults, ids[..i + 1], verdicts + [ok], userId)
  {
    OutcomeSoFar(defs, faults, ids[..i], ids[i], userId);
    FirstsStep(ids, i, verdicts, ok, (x: Id) => Outcome(defs, faults, x, userId).None?);
  }

  lemma ExplainedStep(defs: seq<Definition>, faults: map<Call, Fault>, done: seq<Id>, x: Id,
                      failed: seq<Failure>, reason: string, userId: Id)
    requires Explained(defs, faults, failed, userId)
    requires var o := Outcome(Remaining(defs, faults, done, userId), faults, x, userId);
             o.Some? && reason == Reason(o.value)
    ensures Explained(defs, faults, failed + [Failure(x, reason)], userId)
  {
    OutcomeSoFar(defs, faults, done, x, userId);
  }

  lemma RemainingStep(defs: seq<Definition>, faults: map<Call, Fault>, done: seq<Id>, x: Id, ok: bool, userId: Id)
    requires ok <==> Outcome(Remaining(defs, faults, done, userId), faults, x, userId).None?
    ensures var mid := Remaining(defs, faults, done, userId);
            (if ok then Filter(mid, (d: Definition) => !(d.id == x && d.userId == userId)) else mid)
            == Remaining(defs, faults, done + [x], userId)
  {
    OutcomeSoFar(defs, faults, done, x, userId);
    var keep := (d: Definition) => !(d.userId == userId && d.id in done && Outcome(defs, faults, d.id, userId).None?);
    var keep' := (d: Definition) => !(d.userId == userId && d.id in done + [x] && Outcome(defs, faults, d.id, userId).None?);
    if ok {
      FilterFilter(defs, keep, (d: Definition) => !(d.id == x && d.userId == userId), keep');
    } else {
      FilterSame(defs, keep, keep');
    }
  }

  lemma RowsStep(defs: seq<Definition>, faults: map<Call, Fault>, done: seq<Id>, x: Id, rows: seq<Txn>, userId: Id)
    ensures var mid := UnhookedAll(defs, faults, done, userId, rows);
            (if Unlinks(Remaining(defs, faults, done, userId), faults, x, userId)
             then Map(mid, (t: Txn) => Detached(t, x, userId)) else mid)
            == UnhookedAll(defs, faults, done + [x], userId, rows)
  {
    var mid := UnhookedAll(defs, faults, done, userId, rows);
    var unlinks := Unlinks(Remaining(defs, faults, done, userId), faults, x, userId);
    var now := if unlinks then Map(mid, (t: Txn) => Detached(t, x, userId)) else mid;
    var after := UnhookedAll(defs, faults, done + [x], userId, rows);
    forall k | 0 <= k < |rows| ensures now[k] == after[k] {
      UnhookedStep(defs, faults, done, x, userId, rows[k]);
    }
  }

  /** The same for one transaction. */
  lemma UnhookedStep(defs: seq<Definition>, faults: map<Call, Fault>, done: seq<Id>, x: Id, userId: Id, t: Txn)
    ensures var mid := Unhooked(defs, faults, done, userId, t);
            (if Unlinks(Remaining(defs, faults, done, userId), faults, x, userId) then Detached(mid, x, userId) else mid)
            == Unhooked(defs, faults, done + [x], userId, t)
  {
    OutcomeSoFar(defs, faults, done, x, userId);
    assert t.recurrentId.Some? ==> (t.recurrentId.value in done + [x] <==> t.recurrentId.value in done || t.recurrentId.value == x);
  }

  lemma SuccessStep(defs: seq<Definition>, faults: map<Call, Fault>, done: seq<Id>, x: Id, success: seq<Id>, ok: bool, userId: Id)
    requires DeletedIds(defs, faults, done, success, userId)
    requires ok <==> Outcome(Remaining(defs, faults, done, userId), faults, x, userId).None?
    ensures DeletedIds(defs, faults, done + [x], if ok then success + [x] else success, userId)
  {
    OutcomeSoFar(defs, faults, done, x, userId);
    AcceptedStep(done, x, success, ok, (x: Id) => Outcome(defs, faults, x, userId).None?);
  }

  /** Before the first id nothing is deleted. */
  lemma RemainingNothing(defs: seq<Definition>, faults: map<Call, Fault>, userId: Id)
    ensures Remaining(defs, faults, [], userId) == defs
  {
    FilterKeepsAll(defs, (d: Definition) => !(d.userId == userId && d.id in [] && Outcome(defs, faults, d.id, userId).None?));
  }

  /** One pass of the loop body keeps the loop's invariant. */
  lemma LoopStep(beforeDefs: seq<Definition>, midDefs: seq<Definition>, nowDefs: seq<Definition>,
                 beforeRows: seq<Txn>, midRows: seq<Txn>, nowRows: seq<Txn>, faults: map<Call, Fault>,
                 ids: seq<Id>, i: nat, success: seq<Id>, failed: seq<Failure>, verdicts: seq<bool>,
                 ok: bool, reason: string, userId: Id,
                 success': seq<Id>, failed': seq<Failure>, verdicts': seq<bool>)
    requires i < |ids| && Loop(beforeDefs, midDefs, beforeRows, midRows, faults, ids, i, success, failed, verdicts, userId)
    requires DeletedOne(midDefs, nowDefs, midRows, nowRows, faults, ids[i], userId, ok, reason)
    requires success' == (if ok then success + [ids[i]] else success)
    requires failed' == (if ok then failed else failed + [Failure(ids[i], reason)])
    requires verdicts' == verdicts + [ok]
    ensures Loop(beforeDefs, nowDefs, beforeRows, nowRows, faults, ids, i + 1, success', failed', verdicts', userId)
  {
    var done, x := ids[..i], ids[i];
    PrefixNext(ids, i);
    OrderStep(ids, i, success, failed, verdicts, ok, reason);
    SuccessStep(beforeDefs, faults, done, x, success, ok, userId);
    DecidedStep(beforeDefs, faults, ids, i, verdicts, ok, userId);
    if !ok {
      ExplainedStep(beforeDefs, faults, done, x, failed, reason, userId);
    }
    RemainingStep(beforeDefs, faults, done, x, ok, userId);
    RowsStep(beforeDefs, faults, done, x, beforeRows, userId);
  }

  /** One pass of the loop: delete `ids[i]` and record where it went. */
  method DeleteNext(db: Store, ids: seq<Id>, i: nat, userId: Id, ghost beforeDefs: seq<Definition>, ghost beforeRows: seq<Txn>,
                    success: seq<Id>, failed: seq<Failure>, ghost verdicts: seq<bool>)
    returns (success': seq<Id>, failed': seq<Failure>, ghost verdicts': seq<bool>)
    modifies db
    requires i < |ids| && Loop(beforeDefs, db.recurring, beforeRows, db.transactions, db.faults, ids, i, success, failed, verdicts, userId)
    ensures Loop(beforeDefs, db.recurring, beforeRows, db.transactions, db.faults, ids, i + 1, success', failed', verdicts', userId)
    ensures db.categories == old(db.categories) && db.tags == old(db.tags)
  {
    var ok, reason := DeleteOne(db, ids[i], userId);
    success' := if ok then success + [ids[i]] else success;
    failed' := if ok then failed else failed + [Failure(ids[i], reason)];
    verdicts' := verdicts + [ok];
    LoopStep(beforeDefs, old(db.recurring), db.recurring, beforeRows, old(db.transactions), db.transactions, db.faults,
             ids, i, success, failed, verdicts, ok, reason, userId, success', failed', verdicts');
  }

  /** The `for (const id of ids)` loop. */
  method DeleteEach(db: Store, ids: seq<Id>, userId: Id) returns (success: seq<Id>, failed: seq<Failure>, ghost verdicts: seq<bool>)
    modifies db
    ensures Partitions(ids, success, failed)
    ensures InOrder(ids, success, failed, verdicts)
    ensures Decided(old(db.recurring), db.faults, ids, verdicts, userId)
    ensures DeletedIds(old(db.recurring), db.faults, ids, success, userId)
    ensures Explained(old(db.recurring), db.faults, failed, userId)
    ensures db.recurring == Remaining(old(db.recurring), db.faults, ids, userId)
    ensures db.transactions == UnhookedAll(old(db.recurring), db.faults, ids, userId, old(db.transactions))
    ensures db.categories == old(db.categories) && db.tags == old(db.tags)
  {
    success, failed, verdicts := [], [], [];
    var i := 0;
    assert ids[..0] == [] && FailedIds([]) == [];
    RemainingNothing(db.recurring, db.faults, userId);
    var rows := db.transactions;
    assert rows == UnhookedAll(db.recurring, db.faults, ids[..0], userId, rows);
    while i < |ids|
      invariant Loop(old(db.recurring), db.recurring, old(db.transactions), db.transactions, db.faults,
                     ids, i, success, failed, verdicts, userId)
      invariant db.categories == old(db.categories) && db.tags == old(db.tags)
    {
      success, failed, verdicts := DeleteNext(db, ids, i, userId, old(db.recurring), old(db.transactions), success, failed, verdicts);
      i := i + 1;
    }
    assert ids[..|ids|] == ids;
    OrderPartitions(ids, success, failed, verdicts);
  }

  /** The extra keys of the 500 answer: the error message, and the request id
      when the event has one (`JSON.stringify` drops an undefined value). */
  function ErrorFields(message: string, requestId: Option<string>): (m: map<string, Json>)
    ensures "error" in m && m["error"] == Text(message)
    ensures "requestId" in m <==> requestId.Some?
    ensures requestId.Some? ==> m["requestId"] == Text(requestId.value)
    ensures m.Keys <= {"error", "requestId"}
  {
    if requestId.Some? then map["error" := Text(message), "requestId" := Text(requestId.value)]
    else map["error" := Text(message)]
  }

  /** The handler. `userId` is the `sub` claim, taken as it is;
      `typeError` is the message of the `TypeError` that destructuring a
      `null` body throws. */
  method Handler(db: Store, body: RequestBody, userId: Id, requestId: Option<string>, typeError: string)
    returns (r: Response, outcome: Option<(seq<Id>, seq<Failure>)>)
    modifies db
    ensures ReadIds(body).Err? ==>
              outcome.None? && db.transactions == old(db.transactions) && db.recurring == old(db.recurring)
    ensures ReadIds(body).Err? && ReadIds(body).error != NullBody ==>
              r == MessageResponse(400, RejectionMessage(ReadIds(body).error), map[])
    ensures ReadIds(body) == Err(NullBody) ==>
              r == MessageResponse(500, "Internal server error",
                                   ErrorFields(typeError, requestId))
    ensures ReadIds(body).Ok? ==>
              var ids := ReadIds(body).value;
              && outcome.Some?
              && Partitions(ids, outcome.value.0, outcome.value.1)
              && DeletedIds(old(db.recurring), db.faults, ids, outcome.value.0, userId)
              && Explained(old(db.recurring), db.faults, outcome.value.1, userId)
              && db.recurring == Remaining(old(db.recurring), db.faults, ids, userId)
              && db.transactions == UnhookedAll(old(db.recurring), db.faults, ids, userId, old(db.transactions))
              && r == Completed(|ids|, outcome.value.0, outcome.value.1, Some(Info))
    ensures db.categories == old(db.categories) && db.tags == old(db.tags)
  {
    var read := ReadIds(body);
    if read.Err? {
      if read.error == NullBody {
        r := MessageResponse(500, "Internal server error",
                             ErrorFields(typeError, requestId));
      } else {
        r := MessageResponse(400, RejectionMessage(read.error), map[]);
      }
      return r, None;
    }
    var success, failed, _ := DeleteEach(db, read.value, userId);
    outcome := Some((success, failed));
    r := Completed(|read.value|, success, failed, Some(Info));
  }
}

=== FILE: bulk_delete_transactions.dfy ===
/** The bulk delete of transactions: each id is checked to be one of the
    user's transactions and deleted; afterwards every definition one of the
    deleted rows was linked to is removed when none of the user's
    transactions is linked to it any more. */
module BulkDeleteTransactions {
  import opened Common
  import opened Http
  import opened Records
  import opened Storage
  import opened BulkIds

  const NotFoundOrDenied := "Transaction not found or access denied"
  const DeleteFailed := "Error deleting transaction"

  /** The user's rows with this id: what `.eq("id", id).eq("user_id", sub)` selects. */
  function RowsOf(rows: seq<Txn>, id: Id, sub: Id): (r: seq<Txn>)
    ensures forall t :: t in r <==> t in rows && t.id == id && t.userId == sub
  {
    Filter(rows, (t: Txn) => t.id == id && t.userId == sub)
  }

  /** The existence check: the one row with this id and owner, or nothing
      when the query fails or does not find exactly one. */
  function Existing(rows: seq<Txn>, faults: map<Call, Fault>, id: Id, sub: Id): (r: Option<Txn>)
    ensures r.Some? <==> FaultOf(faults, Transactions, Select, id).None? && |RowsOf(rows, id, sub)| == 1
    ensures r.Some? ==> r.value in rows && r.value.id == id && r.value.userId == sub
    ensures !Owns(rows, id, sub) ==> r.None?
  {
    if FaultOf(faults, Transactions, Select, id).Some? then None
    else
      var found := RowsOf(rows, id, sub);
      assert |found| > 0 ==> Owns(rows, id, sub) by {
        if |found| > 0 {
          assert found[0] in found;
        }
      }
      Single(found)
  }

  predicate Owns(rows: seq<Txn>, id: Id, sub: Id) {
    exists t :: t in rows && t.id == id && t.userId == sub
  }

  /** One of the user's transactions is still linked to definition `rid`. */
  predicate Linked(rows: seq<Txn>, rid: Id, sub: Id) {
    exists t :: t in rows && t.userId == sub && t.recurrentId == Some(rid)
  }

  /** The cleanup's select of the user's transactions linked to `rid`;
      nothing when the query fails. */
  function Remaining(rows: seq<Txn>, faults: map<Call, Fault>, rid: Id, sub: Id): (r: Option<seq<Txn>>)
    ensures r.None? <==> Call(Transactions, Select, rid) in faults
    ensures r.Some? ==> (|r.value| == 0 <==> !Linked(rows, rid, sub))
  {
    if FaultOf(faults, Transactions, Select, rid).Some? then None
    else
      var linked := Filter(rows, (t: Txn) => t.userId == sub && t.recurrentId == Some(rid));
      assert Linked(rows, rid, sub) ==> |linked| > 0 by {
        if Linked(rows, rid, sub) {
          var t :| t in rows && t.userId == sub && t.recurrentId == Some(rid);
          assert t in linked;
        }
      }
      assert |linked| > 0 ==> Linked(rows, rid, sub) by {
        if |linked| > 0 {
          assert linked[0] in linked;
        }
      }
      Some(linked)
  }

  /** The delete of definition `rid` of the user; its error is ignored, so
      a failed delete leaves the table as it was. */
  function Dropped(defs: seq<Definition>, faults: map<Call, Fault>, rid: Id, sub: Id): (r: seq<Definition>)
    ensures forall d :: d in r ==> d in defs
    ensures forall d :: d in defs && !(d.id == rid && d.userId == sub) ==> d in r
    ensures FaultOf(faults, RecurringTransactions, Delete, rid).None? ==> !HasDefinition(r, rid, sub)
  {
    if FaultOf(faults, RecurringTransactions, Delete, rid).Some? then defs
    else Filter(defs, (d: Definition) => !(d.id == rid && d.userId == sub))
  }

  /** The cleanup loop as written: the definition is deleted when the
      select returned no rows OR failed (`!remaining || remaining.length
      === 0`). */
  function CleanupAsWritten(rows: seq<Txn>, defs: seq<Definition>, faults: map<Call, Fault>, toCheck: seq<Id>, sub: Id)
    : (r: seq<Definition>)
    ensures forall d :: d in r ==> d in defs
    decreases |toCheck|
  {
    if toCheck == [] then defs
    else
      var rest := CleanupAsWritten(rows, defs, faults, toCheck[..|toCheck| - 1], sub);
      var rid := toCheck[|toCheck| - 1];
      var remaining := Remaining(rows, faults, rid, sub);
      if remaining.None? || |remaining.value| == 0 then Dropped(rest, faults, rid, sub) else rest
  }

  /** The cleanup as intended: the definition is deleted only when the
      select succeeded and found none of the user's transactions. */
  function Cleanup(rows: seq<Txn>, defs: seq<Definition>, faults: map<Call, Fault>, toCheck: seq<Id>, sub: Id)
    : (r: seq<Definition>)
    ensures forall d :: d in r ==> d in defs
    decreases |toCheck|
  {
    if toCheck == [] then defs
    else
      var rest := Cleanup(rows, defs, faults, toCheck[..|toCheck| - 1], sub);
      var rid := toCheck[|toCheck| - 1];
      if Remaining(rows, faults, rid, sub) == Some([]) then Dropped(rest, faults, rid, sub) else rest
  }

  /** The cleanup as written deletes a definition that one of the user's
      transactions still references: the user deletes `t1`, `t2` stays
      linked to `D`, and the select of `D`'s remaining transactions fails.
      The intended cleanup keeps `D`. */
  lemma CleanupAsWrittenDropsLinked()
    ensures var t2 := Txn("t2", "rent", Outcome, 100, 0, None, "u", Some("D"), None, None, None,
                          None, None, None, 0, 0, false, false);
            var d := Definition("D", "u", "rent", Outcome, 100, None, "FREQ=MONTHLY", 0, None, None, 0, 0);
            var faults := map[Call(Transactions, Select, "D") := Fault(true, "fetch failed")];
            && Linked([t2], "D", "u")
            && !HasDefinition(CleanupAsWritten([t2], [d], faults, ["D"], "u"), "D", "u")
            && Cleanup([t2], [d], faults, ["D"], "u") == [d]
  {
    var t2 := Txn("t2", "rent", Outcome, 100, 0, None, "u", Some("D"), None, None, None,
                  None, None, None, 0, 0, false, false);
    var d := Definition("D", "u", "rent", Outcome, 100, None, "FREQ=MONTHLY", 0, None, None, 0, 0);
    var faults := map[Call(Transactions, Select, "D") := Fault(true, "fetch failed")];
    assert t2 in [t2];
    assert ["D"][..0] == [];
    assert Remaining([t2], faults, "D", "u").None?;
    assert FaultOf(faults, RecurringTransactions, Delete, "D").None?;
  }

  /** The intended cleanup never deletes a definition that one of its
      owner's transactions still references, touches only the user's
      definitions named in `toCheck`, and deletes every such definition
      whose select found no linked transaction and whose delete did not
      fail. */
  lemma {:induction false} CleanupKeepsLinked(rows: seq<Txn>, defs: seq<Definition>, faults: map<Call, Fault>,
                                               toCheck: seq<Id>, sub: Id)
    ensures forall d :: d in defs && !(d.userId == sub && d.id in toCheck && !Linked(rows, d.id, sub)) ==>
              d in Cleanup(rows, defs, faults, toCheck, sub)
    ensures forall rid :: rid in toCheck && Call(Transactions, Select, rid) !in faults && !Linked(rows, rid, sub)
                          && Call(RecurringTransactions, Delete, rid) !in faults ==>
              !HasDefinition(Cleanup(rows, defs, faults, toCheck, sub), rid, sub)
    decreases |toCheck|
  {
    if toCheck != [] {
      var init := toCheck[..|toCheck| - 1];
      var rid := toCheck[|toCheck| - 1];
      CleanupKeepsLinked(rows, defs, faults, init, sub);
      assert toCheck == init + [rid];
      forall d | d in defs && !(d.userId == sub && d.id in toCheck && !Linked(rows, d.id, sub))
        ensures d in Cleanup(rows, defs, faults, toCheck, sub)
      {
        assert d in Cleanup(rows, defs, faults, init, sub);
      }
      forall x | x in toCheck && Call(Transactions, Select, x) !in faults && !Linked(rows, x, sub)
                 && Call(RecurringTransactions, Delete, x) !in faults
        ensures !HasDefinition(Cleanup(rows, defs, faults, toCheck, sub), x, sub)
      {
        if x != rid {
          assert x in init;
        }
      }
    }
  }

  /** Whether deleting `id` on its own goes through: the existence check
      finds the row and the delete does not fail. */
  predicate Goes(rows: seq<Txn>, faults: map<Call, Fault>, id: Id, sub: Id) {
    Existing(rows, faults, id, sub).Some? && FaultOf(faults, Transactions, Delete, id).None?
  }

  /** The reason a failed id carries: "Error deleting transaction" when the
      row was found but its delete failed, else "not found", which is also
      what a repeat of a deleted id gets. */
  function Expected(rows: seq<Txn>, faults: map<Call, Fault>, id: Id, sub: Id): (r: string)
    ensures r == DeleteFailed <==> Existing(rows, faults, id, sub).Some? && FaultOf(faults, Transactions, Delete, id).Some?
    ensures r == NotFoundOrDenied || r == DeleteFailed
  {
    if Existing(rows, faults, id, sub).Some? && FaultOf(faults, Transactions, Delete, id).Some? then DeleteFailed
    else NotFoundOrDenied
  }

  ghost predicate Explained(rows: seq<Txn>, faults: map<Call, Fault>, failed: seq<Failure>, sub: Id) {
    forall k :: 0 <= k < |failed| ==> failed[k].reason == Expected(rows, faults, failed[k].id, sub)
  }

  /** The definition the row found by the existence check is linked to,
      when that link is set. */
  function LinkOf(rows: seq<Txn>, faults: map<Call, Fault>, id: Id, sub: Id): (r: Option<Id>)
    ensures r.Some? ==> r.value != "" && Linked(rows, r.value, sub)
  {
    match Existing(rows, faults, id, sub)
    case None => None
    case Some(t) => if Truthy(t.recurrentId) then t.recurrentId else None
  }

  /** The links the existence checks of `ids` find, in order and with repeats. */
  function Links(rows: seq<Txn>, faults: map<Call, Fault>, ids: seq<Id>, sub: Id): (r: seq<Id>)
    ensures forall x :: x in ids && LinkOf(rows, faults, x, sub).Some? ==> LinkOf(rows, faults, x, sub).value in r
    ensures forall rid :: rid in r ==> rid != "" && Linked(rows, rid, sub)
    decreases |ids|
  {
    if ids == [] then []
    else
      var init := ids[..|ids| - 1];
      assert ids == init + [ids[|ids| - 1]];
      Links(rows, faults, init, sub) + (match LinkOf(rows, faults, ids[|ids| - 1], sub) case Some(rid) => [rid] case None => [])
  }

  /** The rows left after deleting `ids` one by one. */
  function RowsLeft(rows: seq<Txn>, faults: map<Call, Fault>, ids: seq<Id>, sub: Id): seq<Txn> {
    Kept(rows, ids, sub, (x: Id) => Goes(rows, faults, x, sub))
  }

  /** The rows left when the user's rows under the ids of `ids` that `goes`
      accepts are removed. */
  function Kept(rows: seq<Txn>, ids: seq<Id>, sub: Id, goes: Id -> bool): seq<Txn> {
    Filter(rows, (t: Txn) => !(t.userId == sub && t.id in ids && goes(t.id)))
  }

  /** Removing one more id's rows. */
  lemma KeptStep(rows: seq<Txn>, done: seq<Id>, x: Id, sub: Id, goes: Id -> bool, ok: bool)
    requires ok ==> goes(x)
    requires !ok && goes(x) ==> x in done
    ensures var mid := Kept(rows, done, sub, goes);
            (if ok then Filter(mid, (t: Txn) => !(t.id == x && t.userId == sub)) else mid) == Kept(rows, done + [x], sub, goes)
  {
    var keep := (t: Txn) => !(t.userId == sub && t.id in done && goes(t.id));
    var keep' := (t: Txn) => !(t.userId == sub && t.id in done + [x] && goes(t.id));
    if ok {
      FilterFilter(rows, keep, (t: Txn) => !(t.id == x && t.userId == sub), keep');
    } else {
      FilterSame(rows, keep, keep');
    }
  }

  /** Deleting `ids` one by one removes only rows: only the user's rows under
      one of the ids, and every one of those whose delete goes through. */
  lemma RowsLeftKeepsOthers(rows: seq<Txn>, faults: map<Call, Fault>, ids: seq<Id>, sub: Id)
    ensures var r := RowsLeft(rows, faults, ids, sub);
            && (forall t :: t in r ==> t in rows)
            && (forall t :: t in rows && (t.userId != sub || t.id !in ids) ==> t in r)
            && (forall t :: t in r && t.userId == sub && t.id in ids ==> !Goes(rows, faults, t.id, sub))
  {
  }

  /** The ids deleted: exactly those of the list whose delete goes through. */
  ghost predicate DeletedIds(rows: seq<Txn>, faults: map<Call, Fault>, ids: seq<Id>, success: seq<Id>, sub: Id) {
    Accepted(ids, success, (x: Id) => Goes(rows, faults, x, sub))
  }

  /** What one pass of the loop body leaves, from the rows `mid` before it
      to the rows `now` after it: the id succeeds exactly when the row is
      found and its delete does not fail, a failure carries the reason of
      the step that failed, the rows lose the user's row with that id only
      on success, and the definition the found row is linked to joins the
      ones to check, once. */
  predicate DeletedOne(mid: seq<Txn>, now: seq<Txn>, faults: map<Call, Fault>, id: Id, sub: Id,
                       checked: seq<Id>, checked': seq<Id>, ok: bool, reason: string) {
    && (ok <==> Goes(mid, faults, id, sub))
    && (!ok ==> reason == Expected(mid, faults, id, sub))
    && now == (if ok then Filter(mid, (t: Txn) => !(t.id == id && t.userId == sub)) else mid)
    && checked' == (match LinkOf(mid, faults, id, sub)
                    case Some(rid) => if rid in checked then checked else checked + [rid]
                    case None => checked)
  }

  /** The body of the loop for one id: the existence check, the note of
      the definition the row is linked to, and the delete. `ok` says the id
      goes to `success`, `reason` why it does not. */
  method DeleteOne(db: Store, id: Id, sub: Id, checked: seq<Id>) returns (ok: bool, reason: string, checked': seq<Id>)
    modifies db
    ensures DeletedOne(old(db.transactions), db.transactions, db.faults, id, sub, checked, checked', ok, reason)
    ensures db.recurring == old(db.recurring) && db.categories == old(db.categories) && db.tags == old(db.tags)
  {
    checked' := checked;
    var existing := Existing(db.transactions, db.faults, id, sub);
    if existing.None? {
      return false, NotFoundOrDenied, checked';
    }
    if Truthy(existing.value.recurrentId) && existing.value.recurrentId.value !in checked {
      checked' := checked + [existing.value.recurrentId.value];
    }
    var err := DeleteRow(db, id, sub);
    if err.Some? {
      return false, DeleteFailed, checked';
    }
    ok, reason := true, "";
  }

  /** What the loop keeps after the first `i` ids, from the rows `before`
      the loop to the rows `now`. */
  ghost predicate Loop(before: seq<Txn>, now: seq<Txn>, faults: map<Call, Fault>, ids: seq<Id>, i: nat,
                       success: seq<Id>, failed: seq<Failure>, checked: seq<Id>, verdicts: seq<bool>, sub: Id) {
    && i <= |ids|
    && InOrder(ids[..i], success, failed, verdicts)
    && FirstsOf(ids[..i], verdicts, (x: Id) => Goes(before, faults, x, sub))
    && DeletedIds(before, faults, ids[..i], success, sub)
    && Explained(before, faults, failed, sub)
    && now == RowsLeft(before, faults, ids[..i], sub)
    && checked == Distinct(Links(before, faults, ids[..i], sub))
  }

  /** Before the next id, the user's rows under it are those before the
      loop, or none once an earlier copy of it was deleted. */
  lemma RowsSoFar(rows: seq<Txn>, faults: map<Call, Fault>, done: seq<Id>, x: Id, sub: Id)
    ensures RowsOf(RowsLeft(rows, faults, done, sub), x, sub)
         == if x in done && Goes(rows, faults, x, sub) then [] else RowsOf(rows, x, sub)
  {
    var goes := (x: Id) => Goes(rows, faults, x, sub);
    var keep := (t: Txn) => !(t.userId == sub && t.id in done && goes(t.id));
    var m := (t: Txn) => t.id == x && t.userId == sub;
    if x in done && Goes(rows, faults, x, sub) {
      FilterFilter(rows, keep, m, (t: Txn) => false);
      FilterNone(rows, (t: Txn) => false);
    } else {
      FilterFilter(rows, keep, m, m);
    }
  }

  /** So the next id's existence check finds what it would have before the
      loop, or nothing once an earlier copy of it was deleted. */
  lemma ExistingSoFar(rows: seq<Txn>, faults: map<Call, Fault>, done: seq<Id>, x: Id, sub: Id)
    ensures var deleted := x in done && Goes(rows, faults, x, sub);
            var mid := RowsLeft(rows, faults, done, sub);
            && Existing(mid, faults, x, sub) == (if deleted then None else Existing(rows, faults, x, sub))
            && Goes(mid, faults, x, sub) == (!deleted && Goes(rows, faults, x, sub))
            && (!Goes(mid, faults, x, sub) ==> Expected(mid, faults, x, sub) == Expected(rows, faults, x, sub))
            && LinkOf(mid, faults, x, sub) == (if deleted then None else LinkOf(rows, faults, x, sub))
  {
    ExistingMid(rows, faults, done, x, sub);
  }

  /** The existence check itself, before and after the earlier deletions. */
  lemma ExistingMid(rows: seq<Txn>, faults: map<Call, Fault>, done: seq<Id>, x: Id, sub: Id)
    ensures Existing(RowsLeft(rows, faults, done, sub), faults, x, sub)
         == if x in done && Goes(rows, faults, x, sub) then None else Existing(rows, faults, x, sub)
  {
    RowsSoFar(rows, faults, done, x, sub);
  }

  lemma RowsLeftStep(rows: seq<Txn>, faults: map<Call, Fault>, done: seq<Id>, x: Id, ok: bool, sub: Id)
    requires ok <==> Goes(RowsLeft(rows, faults, done, sub), faults, x, sub)
    ensures var mid := RowsLeft(rows, faults, done, sub);
            (if ok then Filter(mid, (t: Txn) => !(t.id == x && t.userId == sub)) else mid)
            == RowsLeft(rows, faults, done + [x], sub)
  {
    ExistingSoFar(rows, faults, done, x, sub);
    KeptStep(rows, done, x, sub, (x: Id) => Goes(rows, faults, x, sub), ok);
  }

  lemma LinksStep(rows: seq<Txn>, faults: map<Call, Fault>, done: seq<Id>, x: Id, checked: seq<Id>, sub: Id)
    requires checked == Distinct(Links(rows, faults, done, sub))
    ensures var checked' := match LinkOf(RowsLeft(rows, faults, done, sub), faults, x, sub)
                            case Some(rid) => if rid in checked then checked else checked + [rid]
                            case None => checked;
            checked' == Distinct(Links(rows, faults, done + [x], sub))
  {
    ExistingSoFar(rows, faults, done, x, sub);
    LinksAppend(rows, faults, done, x, sub);
    var links := Links(rows, faults, done, sub);
    var link := LinkOf(rows, faults, x, sub);
    var found := LinkOf(RowsLeft(rows, faults, done, sub), faults, x, sub);
    if link.Some? {
      DistinctAppend(links, link.value);
      if x in done && Goes(rows, faults, x, sub) {
        assert found.None? && link.value in links;
      } else {
        assert found == link;
      }
    } else {
      assert found.None? && links + [] == links;
    }
  }

  lemma LinksAppend(rows: seq<Txn>, faults: map<Call, Fault>, done: seq<Id>, x: Id, sub: Id)
    ensures Links(rows, faults, done + [x], sub)
         == Links(rows, faults, done, sub) + (match LinkOf(rows, faults, x, sub) case Some(rid) => [rid] case None => [])
  {
    var next := done + [x];
    assert next[..|next| - 1] == done;
  }

  lemma ExplainedStep(rows: seq<Txn>, faults: map<Call, Fault>, done: seq<Id>, x: Id, failed: seq<Failure>, reason: string, sub: Id)
    requires Explained(rows, faults, failed, sub)
    requires var mid := RowsLeft(rows, faults, done, sub);
             !Goes(mid, faults, x, sub) && reason == Expected(mid, faults, x, sub)
    ensures Explained(rows, faults, failed + [Failure(x, reason)], sub)
  {
    ExistingSoFar(rows, faults, done, x, sub);
  }

  /** One pass of the loop body keeps the loop's invariant. */
  lemma LoopStep(before: seq<Txn>, mid: seq<Txn>, now: seq<Txn>, faults: map<Call, Fault>, ids: seq<Id>, i: nat,
                 success: seq<Id>, failed: seq<Failure>, checked: seq<Id>, checked': seq<Id>, verdicts: seq<bool>,
                 ok: bool, reason: string, sub: Id, success': seq<Id>, failed': seq<Failure>)
    requires i < |ids| && Loop(before, mid, faults, ids, i, success, failed, checked, verdicts, sub)
    requires DeletedOne(mid, now, faults, ids[i], sub, checked, checked', ok, reason)
    requires success' == (if ok then success + [ids[i]] else success)
    requires failed' == (if ok then failed else failed + [Failure(ids[i], reason)])
    ensures Loop(before, now, faults, ids, i + 1, success', failed', checked', verdicts + [ok], sub)
  {
    var done, x := ids[..i], ids[i];
    var goes := (x: Id) => Goes(before, faults, x, sub);
    PrefixNext(ids, i);
    ExistingSoFar(before, faults, done, x, sub);
    OrderStep(ids, i, success, failed, verdicts, ok, reason);
    FirstsStep(ids, i, verdicts, ok, goes);
    AcceptedStep(done, x, success, ok, goes);
    if !ok {
      ExplainedStep(before, faults, done, x, failed, reason, sub);
    }
    RowsLeftStep(before, faults, done, x, ok, sub);
    LinksStep(before, faults, done, x, checked, sub);
  }

  /** One pass of the loop: delete `ids[i]` and record where it went. */
  method DeleteNext(db: Store, ids: seq<Id>, i: nat, sub: Id, ghost before: seq<Txn>,
                    success: seq<Id>, failed: seq<Failure>, checked: seq<Id>, ghost verdicts: seq<bool>)
    returns (success': seq<Id>, failed': seq<Failure>, checked': seq<Id>, ghost verdicts': seq<bool>)
    modifies db
    requires i < |ids| && Loop(before, db.transactions, db.faults, ids, i, success, failed, checked, verdicts, sub)
    ensures Loop(before, db.transactions, db.faults, ids, i + 1, success', failed', checked', verdicts', sub)
    ensures db.recurring == old(db.recurring) && db.categories == old(db.categories) && db.tags == old(db.tags)
  {
    var ok, reason;
    ok, reason, checked' := DeleteOne(db, ids[i], sub, checked);
    success' := if ok then success + [ids[i]] else success;
    failed' := if ok then failed else failed + [Failure(ids[i], reason)];
    verdicts' := verdicts + [ok];
    LoopStep(before, old(db.transactions), db.transactions, db.faults, ids, i, success, failed, checked, checked',
             verdicts, ok, reason, sub, success', failed');
  }

  /** Before the first id nothing is deleted. */
  lemma RowsLeftNothing(rows: seq<Txn>, faults: map<Call, Fault>, sub: Id)
    ensures RowsLeft(rows, faults, [], sub) == rows
  {
    var goes := (x: Id) => Goes(rows, faults, x, sub);
    FilterKeepsAll(rows, (t: Txn) => !(t.userId == sub && t.id in [] && goes(t.id)));
  }

  /** The `for (const id of ids)` loop. `checked` is the insertion-ordered
      set of the definitions the found rows were linked to. */
  method DeleteEach(db: Store, ids: seq<Id>, sub: Id) returns (success: seq<Id>, failed: seq<Failure>, checked: seq<Id>, ghost verdicts: seq<bool>)
    modifies db
    ensures Partitions(ids, success, failed)
    ensures InOrder(ids, success, failed, verdicts)
    ensures FirstsOf(ids, verdicts, (x: Id) => Goes(old(db.transactions), db.faults, x, sub))
    ensures DeletedIds(old(db.transactions), db.faults, ids, success, sub)
    ensures Explained(old(db.transactions), db.faults, failed, sub)
    ensures db.transactions == RowsLeft(old(db.transactions), db.faults, ids, sub)
    ensures checked == Distinct(Links(old(db.transactions), db.faults, ids, sub))
    ensures db.recurring == old(db.recurring) && db.categories == old(db.categories) && db.tags == old(db.tags)
  {
    success, failed, checked, verdicts := [], [], [], [];
    var i := 0;
    assert ids[..0] == [] && FailedIds([]) == [];
    RowsLeftNothing(db.transactions, db.faults, sub);
    while i < |ids|
      invariant Loop(old(db.transactions), db.transactions, db.faults, ids, i, success, failed, checked, verdicts, sub)
      invariant db.recurring == old(db.recurring) && db.categories == old(db.categories) && db.tags == old(db.tags)
    {
      success, failed, checked, verdicts := DeleteNext(db, ids, i, sub, old(db.transactions), success, failed, checked, verdicts);
      i := i + 1;
    }
    assert ids[..|ids|] == ids;
    OrderPartitions(ids, success, failed, verdicts);
  }

  /** The delete of the user's row `id`: it removes the rows with that id
      and owner and no other. */
  method DeleteRow(db: Store, id: Id, sub: Id) returns (err: Option<Fault>)
    modifies db
    ensures err == db.FaultAt(Transactions, Delete, id)
    ensures db.transactions == if err.None? then Filter(old(db.transactions), (t: Txn) => !(t.id == id && t.userId == sub))
                               else old(db.transactions)
    ensures err.None? ==> forall t :: t in db.transactions && t.userId == sub ==> t.id != id
    ensures db.recurring == old(db.recurring) && db.categories == old(db.categories) && db.tags == old(db.tags)
  {
    err := db.DeleteTransaction(id, sub);
  }

  /** The cleanup loop, as intended (see `Cleanup`); the delete's error is
      ignored. */
  method CleanupOrphans(db: Store, checked: seq<Id>, sub: Id)
    modifies db
    ensures db.recurring == Cleanup(db.transactions, old(db.recurring), db.faults, checked, sub)
    ensures db.transactions == old(db.transactions) && db.categories == old(db.categories) && db.tags == old(db.tags)
  {
    var i := 0;
    while i < |checked|
      invariant 0 <= i <= |checked|
      invariant db.recurring == Cleanup(db.transactions, old(db.recurring), db.faults, checked[..i], sub)
      invariant db.transactions == old(db.transactions) && db.categories == old(db.categories) && db.tags == old(db.tags)
    {
      var rid := checked[i];
      assert checked[..i + 1][..i] == checked[..i];
      var remaining := Remaining(db.transactions, db.faults, rid, sub);
      if remaining == Some([]) {
        var _ := db.DeleteDefinition(rid, sub);
      }
      i := i + 1;
    }
    assert checked[..|checked|] == checked;
  }

  /** The per-id lists and the definitions considered for cleanup. */
  datatype BulkOutcome = BulkOutcome(success: seq<Id>, failed: seq<Failure>, checked: seq<Id>)

  /** The handler. `sub` is the claim, taken as it is; `typeError` is the
      message of the `TypeError` that destructuring a `null` body throws. */
  method Handler(db: Store, body: RequestBody, sub: Id, typeError: string) returns (r: Response, outcome: Option<BulkOutcome>)
    modifies db
    ensures ReadIds(body).Err? ==>
              outcome.None? && db.transactions == old(db.transactions) && db.recurring == old(db.recurring)
    ensures ReadIds(body).Err? && ReadIds(body).error != NullBody ==>
              r == MessageResponse(400, RejectionMessage(ReadIds(body).error), map[])
    ensures ReadIds(body) == Err(NullBody) ==>
              r == MessageResponse(500, "Internal server error", map["error" := Text(typeError)])
    ensures ReadIds(body).Ok? ==>
              var ids := ReadIds(body).value;
              && outcome.Some?
              && Partitions(ids, outcome.value.success, outcome.value.failed)
              && DeletedIds(old(db.transactions), db.faults, ids, outcome.value.success, sub)
              && Explained(old(db.transactions), db.faults, outcome.value.failed, sub)
              && db.transactions == RowsLeft(old(db.transactions), db.faults, ids, sub)
              && outcome.value.checked == Distinct(Links(old(db.transactions), db.faults, ids, sub))
              && (forall x :: x in ids && LinkOf(old(db.transactions), db.faults, x, sub).Some? ==>
                    LinkOf(old(db.transactions), db.faults, x, sub).value in outcome.value.checked)
              && db.recurring == Cleanup(db.transactions, old(db.recurring), db.faults, outcome.value.checked, sub)
              && (forall d :: d in old(db.recurring) && Linked(db.transactions, d.id, d.userId) ==> d in db.recurring)
              && r == Completed(|ids|, outcome.value.success, outcome.value.failed, None)
    ensures db.categories == old(db.categories) && db.tags == old(db.tags)
  {
    var read := ReadIds(body);
    if read.Err? {
      if read.error == NullBody {
        r := MessageResponse(500, "Internal server error", map["error" := Text(typeError)]);
      } else {
        r := MessageResponse(400, RejectionMessage(read.error), map[]);
      }
      return r, None;
    }
    var success, failed, checked, _ := DeleteEach(db, read.value, sub);
    ghost var defs := db.recurring;
    CleanupOrphans(db, checked, sub);
    CleanupKeepsLinked(db.transactions, defs, db.faults, checked, sub);
    outcome := Some(BulkOutcome(success, failed, checked));
    r := Completed(|read.value|, success, failed, None);
  }
}

=== FILE: bulk_ids.dfy ===
/** What the two bulk-delete handlers share: reading and checking the `ids`
    list, the per-id result lists and the summary they answer with. */
module BulkIds {
  import opened Common
  import opened Http

  const MaxIds := 50

  /** Why a request is refused before anything is deleted. `NullBody` is a
      body that is the JSON `null`: destructuring it throws a `TypeError`. */
  datatype Rejection = InvalidJson | NotAnArray | EmptyIds | TooManyIds | NonStringId | NullBody

  function RejectionMessage(r: Rejection): string
    requires !r.NullBody?
  {
    match r
    case InvalidJson => "Invalid JSON in request body"
    case NotAnArray => "Request body must contain an array of IDs"
    case EmptyIds => "IDs array cannot be empty"
    case TooManyIds => "Maximum 50 IDs allowed per request"
    case NonStringId => "All IDs must be strings"
  }

  predicate AllText(elems: seq<Json>) {
    forall i :: 0 <= i < |elems| ==> elems[i].Text?
  }

  function Texts(elems: seq<Json>): (r: seq<string>)
    requires AllText(elems)
    ensures |r| == |elems|
    ensures forall i :: 0 <= i < |elems| ==> elems[i] == Text(r[i])
    decreases |elems|
  {
    if elems == [] then [] else Texts(elems[..|elems| - 1]) + [elems[|elems| - 1].s]
  }

  /** The elements of the body's `ids` member, when the body parses and
      that member is an array. */
  function IdsArray(body: RequestBody): Option<seq<Json>> {
    if ParseBody(body).Ok? && Member(ParseBody(body).value, "ids").Some?
       && Member(ParseBody(body).value, "ids").value.Array?
    then Some(Member(ParseBody(body).value, "ids").value.elems)
    else None
  }

  /** The body parse and the four checks, in the handlers' order. */
  function ReadIds(body: RequestBody): (r: Result<seq<Id>, Rejection>)
    ensures r == Err(InvalidJson) <==> body.Malformed?
    ensures r == Err(NullBody) <==> body == Body(Null)
    ensures r == Err(NotAnArray) <==> ParseBody(body).Ok? && ParseBody(body).value != Null && IdsArray(body).None?
    ensures r == Err(EmptyIds) <==> IdsArray(body) == Some([])
    ensures r == Err(TooManyIds) <==> IdsArray(body).Some? && |IdsArray(body).value| > MaxIds
    ensures r == Err(NonStringId) <==>
              IdsArray(body).Some? && 1 <= |IdsArray(body).value| <= MaxIds && !AllText(IdsArray(body).value)
    ensures r.Ok? <==> IdsArray(body).Some? && 1 <= |IdsArray(body).value| <= MaxIds && AllText(IdsArray(body).value)
    ensures r.Ok? ==> 1 <= |r.value| <= MaxIds && IdsArray(body).value == Map(r.value, (s: string) => Text(s))
  {
    match ParseBody(body)
    case Err(_) => Err(InvalidJson)
    case Ok(json) =>
      if json == Null then Err(NullBody)
      else match Member(json, "ids")
        case Some(Array(elems)) =>
          if |elems| == 0 then Err(EmptyIds)
          else if |elems| > MaxIds then Err(TooManyIds)
          else if !AllText(elems) then Err(NonStringId)
          else
            var ids := Texts(elems);
            assert Map(ids, (s: string) => Text(s)) == elems;
            Ok(ids)
        case _ => Err(NotAnArray)
  }

  /** An id that was not deleted, and why. */
  datatype Failure = Failure(id: Id, reason: string)

  function FailedIds(failed: seq<Failure>): (r: seq<Id>)
    ensures |r| == |failed|
  {
    Map(failed, (f: Failure) => f.id)
  }

  lemma FailedIdsAppend(failed: seq<Failure>, f: Failure)
    ensures FailedIds(failed + [f]) == FailedIds(failed) + [f.id]
  {
    assert (failed + [f])[..|failed|] == failed;
  }

  /** Every id ends up in exactly one of the two lists, as often as it
      occurs in the request. */
  predicate Partitions(ids: seq<Id>, success: seq<Id>, failed: seq<Failure>) {
    |success| + |failed| == |ids| && multiset(success) + multiset(FailedIds(failed)) == multiset(ids)
  }

  function Negated(v: seq<bool>): (r: seq<bool>)
    ensures |r| == |v| && forall i :: 0 <= i < |v| ==> r[i] == !v[i]
  {
    Map(v, (b: bool) => !b)
  }

  /** `verdicts[i]` says whether `ids[i]` went to `success`: each list
      keeps the order of the request. */
  predicate InOrder(ids: seq<Id>, success: seq<Id>, failed: seq<Failure>, verdicts: seq<bool>) {
    |verdicts| == |ids| && success == Pick(ids, verdicts) && FailedIds(failed) == Pick(ids, Negated(verdicts))
  }

  /** Appending the next id to one list keeps both lists in request order. */
  lemma OrderStep(ids: seq<Id>, i: nat, success: seq<Id>, failed: seq<Failure>, verdicts: seq<bool>, ok: bool, reason: string)
    requires i < |ids| && InOrder(ids[..i], success, failed, verdicts)
    ensures ok ==> InOrder(ids[..i + 1], success + [ids[i]], failed, verdicts + [ok])
    ensures !ok ==> InOrder(ids[..i + 1], success, failed + [Failure(ids[i], reason)], verdicts + [ok])
  {
    var next := ids[..i + 1];
    assert next[..i] == ids[..i];
    assert (verdicts + [ok])[..i] == verdicts;
    assert Negated(verdicts + [ok])[..i] == Negated(verdicts);
    FailedIdsAppend(failed, Failure(ids[i], reason));
  }

  /** `verdicts` marks the first copy of each id that `goes` accepts. */
  predicate FirstsOf(ids: seq<Id>, verdicts: seq<bool>, goes: Id -> bool) {
    |verdicts| == |ids| && forall k :: 0 <= k < |ids| ==> (verdicts[k] <==> goes(ids[k]) && ids[k] !in ids[..k])
  }

  lemma FirstsStep(ids: seq<Id>, i: nat, verdicts: seq<bool>, ok: bool, goes: Id -> bool)
    requires i < |ids| && FirstsOf(ids[..i], verdicts, goes)
    requires ok <==> goes(ids[i]) && ids[i] !in ids[..i]
    ensures FirstsOf(ids[..i + 1], verdicts + [ok], goes)
  {
    var done, ids', v' := ids[..i], ids[..i + 1], verdicts + [ok];
    forall k | 0 <= k < |ids'|
      ensures v'[k] <==> goes(ids'[k]) && ids'[k] !in ids'[..k]
    {
      assert ids'[..k] == done[..k];
      if k < i {
        assert ids'[k] == done[k] && v'[k] == verdicts[k];
      }
    }
  }

  /** `success` holds exactly the ids of the list that `goes` accepts. */
  ghost predicate Accepted(ids: seq<Id>, success: seq<Id>, goes: Id -> bool) {
    forall s :: s in success <==> s in ids && goes(s)
  }

  lemma AcceptedStep(done: seq<Id>, x: Id, success: seq<Id>, ok: bool, goes: Id -> bool)
    requires Accepted(done, success, goes)
    requires ok <==> goes(x) && x !in done
    ensures Accepted(done + [x], if ok then success + [x] else success, goes)
  {
  }

  /** The elements picked and the ones left out make up the sequence. */
  lemma {:induction false} PickSplits<T>(s: seq<T>, v: seq<bool>)
    requires |v| == |s|
    ensures |Pick(s, v)| + |Pick(s, Negated(v))| == |s|
    ensures multiset(Pick(s, v)) + multiset(Pick(s, Negated(v))) == multiset(s)
    decreases |s|
  {
    if s != [] {
      var n := |s| - 1;
      NegatedInit(v);
      PickSplits(s[..n], v[..n]);
      PickSplitsStep(s, v, Negated(v));
    }
  }

  lemma NegatedInit(v: seq<bool>)
    requires v != []
    ensures Negated(v)[..|v| - 1] == Negated(v[..|v| - 1])
    ensures Negated(v)[|v| - 1] == !v[|v| - 1]
  {
  }

  /** The inductive step of PickSplits: the last element goes to the side
      its verdict names. */
  lemma PickSplitsStep<T>(s: seq<T>, v: seq<bool>, w: seq<bool>)
    requires |v| == |s| && |w| == |s| && s != []
    requires w[|s| - 1] == !v[|s| - 1]
    requires |Pick(s[..|s| - 1], v[..|s| - 1])| + |Pick(s[..|s| - 1], w[..|s| - 1])| == |s| - 1
    requires multiset(Pick(s[..|s| - 1], v[..|s| - 1])) + multiset(Pick(s[..|s| - 1], w[..|s| - 1])) == multiset(s[..|s| - 1])
    ensures |Pick(s, v)| + |Pick(s, w)| == |s|
    ensures multiset(Pick(s, v)) + multiset(Pick(s, w)) == multiset(s)
  {
    var n := |s| - 1;
    PickLast(s, v);
    PickLast(s, w);
    MultisetLast(s);
    SplitStep(Pick(s[..n], v[..n]), Pick(s[..n], w[..n]), s[n], v[n], Pick(s, v), Pick(s, w));
  }

  lemma MultisetLast<T>(s: seq<T>)
    requires s != []
    ensures multiset(s) == multiset(s[..|s| - 1]) + multiset{s[|s| - 1]}
  {
    assert s == s[..|s| - 1] + [s[|s| - 1]];
  }

  /** One more element goes to exactly one of the two sides of a split. */
  lemma SplitStep<T>(a: seq<T>, b: seq<T>, x: T, keep: bool, a': seq<T>, b': seq<T>)
    requires a' == a + (if keep then [x] else []) && b' == b + (if !keep then [x] else [])
    ensures |a'| + |b'| == |a| + |b| + 1
    ensures multiset(a') + multiset(b') == multiset(a) + multiset(b) + multiset{x}
  {
  }

  /** Lists in request order are a partition of the request. */
  lemma OrderPartitions(ids: seq<Id>, success: seq<Id>, failed: seq<Failure>, verdicts: seq<bool>)
    requires InOrder(ids, success, failed, verdicts)
    ensures Partitions(ids, success, failed)
  {
    PickSplits(ids, verdicts);
  }

  function FailureJson(f: Failure): Json {
    Object(map["id" := Text(f.id), "reason" := Text(f.reason)])
  }

  /** `{message, ...info, summary: {total, succeeded, failed}, results:
      {success, failed}}`. */
  function Completed(total: nat, success: seq<Id>, failed: seq<Failure>, info: Option<string>): (r: Response)
    ensures r.statusCode == 200 && r.body.Some? && r.body.value.Object?
    ensures var body := r.body.value.fields;
            && body.Keys == {"message", "summary", "results"} + (if info.Some? then {"info"} else {})
            && body["message"] == Text("Bulk delete operation completed")
            && (info.Some? ==> body["info"] == Text(info.value))
    ensures var body := r.body.value.fields;
            body["summary"] == Object(map["total" := Number(total), "succeeded" := Number(|success|),
                                          "failed" := Number(|failed|)])
    ensures var results := r.body.value.fields["results"];
            && results.Object? && results.fields.Keys == {"success", "failed"}
            && results.fields["success"].Array? && results.fields["failed"].Array?
            && |results.fields["success"].elems| == |success|
            && (forall i :: 0 <= i < |success| ==> results.fields["success"].elems[i] == Text(success[i]))
            && |results.fields["failed"].elems| == |failed|
            && (forall i :: 0 <= i < |failed| ==>
                  results.fields["failed"].elems[i] == Object(map["id" := Text(failed[i].id), "reason" := Text(failed[i].reason)]))
  {
    var summary := Object(map["total" := Number(total), "succeeded" := Number(|success|), "failed" := Number(|failed|)]);
    var results := Object(map["success" := Array(Map(success, (s: string) => Text(s))),
                              "failed" := Array(Map(failed, FailureJson))]);
    var extra := map["summary" := summary, "results" := results];
    MessageResponse(200, "Bulk delete operation completed",
                    if info.Some? then extra["info" := Text(info.value)] else extra)
  }
}

=== FILE: calendar.dfy ===
/** Instants and the calendar arithmetic the services take from date-fns and
    from JavaScript `Date`. An instant is a count of milliseconds since the
    epoch; the process's local zone is a fixed offset (milliseconds east of
    UTC) passed explicitly, so UTC arithmetic is the case `offset == 0`. */
module Calendar {

  type Timestamp = int

  const MsPerSecond: int := 1000
  const MsPerDay: int := 86_400_000

  /** Local day number of `t`: two instants get the same `format(_, "yyyy-MM-dd")`
      key exactly when they have the same day number. */
  function DayKey(t: Timestamp, offset: int): (day: int)
    ensures day * MsPerDay <= t + offset < day * MsPerDay + MsPerDay
  {
    (t + offset) / MsPerDay
  }

  /** Milliseconds elapsed since local midnight. */
  function TimeInDay(t: Timestamp, offset: int): (r: int)
    ensures 0 <= r < MsPerDay
  {
    (t + offset) % MsPerDay
  }

  /** Instant of local midnight of day number `day` plus `time` milliseconds. */
  function LocalInstant(day: int, time: int, offset: int): (t: Timestamp)
    ensures 0 <= time < MsPerDay ==> DayKey(t, offset) == day && TimeInDay(t, offset) == time
  {
    day * MsPerDay + time - offset
  }

  /** Day number of the proleptic Gregorian date `y`-`m`-`d`, with `m` in 1..12
      (day 0 is 1970-01-01). */
  function DaysFromCivil(y: int, m: int, d: int): int
    requires 1 <= m <= 12
  {
    var y' := if m <= 2 then y - 1 else y;
    var era := y' / 400;
    var yoe := y' - era * 400;
    var mp := if m > 2 then m - 3 else m + 9;
    var doy := (153 * mp + 2) / 5 + d - 1;
    var doe := yoe * 365 + yoe / 4 - yoe / 100 + doy;
    era * 146097 + doe - 719468
  }

  datatype Civil = Civil(year: int, month: int, day: int)

  /** Calendar date (month in 1..12) of day number `z`. */
  function CivilFromDays(z: int): Civil {
    var z' := z + 719468;
    var era := z' / 146097;
    var doe := z' - era * 146097;
    var yoe := (doe - doe / 1460 + doe / 36524 - doe / 146096) / 365;
    var doy := doe - (365 * yoe + yoe / 4 - yoe / 100);
    var mp := (5 * doy + 2) / 153;
    var d := doy - (153 * mp + 2) / 5 + 1;
    var m := if mp < 10 then mp + 3 else mp - 9;
    Civil(yoe + era * 400 + (if m <= 2 then 1 else 0), m, d)
  }

  /** ECMAScript MakeDay: the month index `m0` (0-based) may lie outside 0..11
      and the day outside the month; both roll over into the following or
      preceding months, as `setMonth` and `setDate` do. */
  function MakeDay(y: int, m0: int, d: int): int {
    DaysFromCivil(y + m0 / 12, m0 % 12 + 1, 1) + d - 1
  }

  function DaysInMonth(y: int, m0: int): int {
    MakeDay(y, m0 + 1, 1) - MakeDay(y, m0, 1)
  }

  function LocalDate(t: Timestamp, offset: int): Civil {
    CivilFromDays(DayKey(t, offset))
  }

  /** date-fns `startOfMonth`: local midnight of the first day of the month. */
  function StartOfMonth(t: Timestamp, offset: int): (r: Timestamp)
    ensures TimeInDay(r, offset) == 0
    ensures var c := LocalDate(t, offset); DayKey(r, offset) == MakeDay(c.year, c.month - 1, 1)
  {
    var c := LocalDate(t, offset);
    LocalInstant(MakeDay(c.year, c.month - 1, 1), 0, offset)
  }

  /** date-fns `endOfMonth`: the last millisecond of the month. */
  function EndOfMonth(t: Timestamp, offset: int): (r: Timestamp)
    ensures TimeInDay(r, offset) == MsPerDay - 1
    ensures var c := LocalDate(t, offset); DayKey(r, offset) + 1 == MakeDay(c.year, c.month, 1)
  {
    var c := LocalDate(t, offset);
    LocalInstant(MakeDay(c.year, c.month, 1) - 1, MsPerDay - 1, offset)
  }

  /** Day number `day` falls in month `m0` of year `y`. */
  predicate WithinMonth(day: int, y: int, m0: int) {
    MakeDay(y, m0, 1) <= day < MakeDay(y, m0 + 1, 1)
  }

  /** date-fns `addMonths`: same local time, the day of month clamped to the
      length of the target month. */
  function AddMonths(t: Timestamp, k: int, offset: int): (r: Timestamp)
    ensures TimeInDay(r, offset) == TimeInDay(t, offset)
    ensures var c := LocalDate(t, offset);
            c.day >= 1 && DaysInMonth(c.year, c.month - 1 + k) >= 1 ==> WithinMonth(DayKey(r, offset), c.year, c.month - 1 + k)
  {
    var c := LocalDate(t, offset);
    MonthInstant(c.year, c.month - 1 + k, c.day, TimeInDay(t, offset), offset)
  }

  /** `addMonths` keeps the day of month, clamped to the length of the target
      month. */
  lemma AddMonthsDay(t: Timestamp, k: int, offset: int)
    ensures var c := LocalDate(t, offset); var m0 := c.month - 1 + k;
            DaysInMonth(c.year, m0) >= 1 ==>
              DayKey(AddMonths(t, k, offset), offset) - MakeDay(c.year, m0, 1) + 1
              == (if c.day < DaysInMonth(c.year, m0) then c.day else DaysInMonth(c.year, m0))
  {
    CivilDayPositive(DayKey(t, offset));
  }

  /** Local time `time` on day `day` of month `m0` of year `y`, the day
      clamped to the month's length. */
  function MonthInstant(y: int, m0: int, day: int, time: int, offset: int): (r: Timestamp)
    requires 0 <= time < MsPerDay
    ensures TimeInDay(r, offset) == time
    ensures day >= 1 && DaysInMonth(y, m0) >= 1 ==> WithinMonth(DayKey(r, offset), y, m0)
    ensures day >= 1 && DaysInMonth(y, m0) >= 1 ==>
              DayKey(r, offset) - MakeDay(y, m0, 1) + 1 == (if day < DaysInMonth(y, m0) then day else DaysInMonth(y, m0))
  {
    LocalInstant(ClampedDay(y, m0, day), time, offset)
  }

  /** Day `day` of month `m0` of year `y`, clamped to the month's length. */
  function ClampedDay(y: int, m0: int, day: int): (r: int)
    ensures day >= 1 && DaysInMonth(y, m0) >= 1 ==> WithinMonth(r, y, m0)
    ensures r - MakeDay(y, m0, 1) + 1 == (if day < DaysInMonth(y, m0) then day else DaysInMonth(y, m0))
  {
    var dim := DaysInMonth(y, m0);
    var d := if day < dim then day else dim;
    if 1 <= d then
      InMonth(y, m0, d);
      MakeDay(y, m0, d)
    else MakeDay(y, m0, d)
  }

  /** Day `d` of a month, for `d` within the month's length, lies in that
      month. */
  lemma InMonth(y: int, m0: int, d: int)
    requires 1 <= d <= DaysInMonth(y, m0)
    ensures WithinMonth(MakeDay(y, m0, d), y, m0)
  {
  }

  /** date-fns `addDays` and `Date.setDate(getDate() + n)`: with a fixed zone
      offset both move the instant by exactly `n` days. */
  function AddDays(t: Timestamp, n: int): (r: Timestamp)
    ensures forall offset :: DayKey(r, offset) == DayKey(t, offset) + n && TimeInDay(r, offset) == TimeInDay(t, offset)
  {
    t + n * MsPerDay
  }

  /** `Date.setMonth(getMonth() + k)`: same local day of month and time; a day
      the target month lacks rolls over into the next month (ShiftMonthsDay). */
  function ShiftMonths(t: Timestamp, k: int, offset: int): (r: Timestamp)
    ensures TimeInDay(r, offset) == TimeInDay(t, offset)
  {
    var c := LocalDate(t, offset);
    LocalInstant(MakeDay(c.year, c.month - 1 + k, c.day), TimeInDay(t, offset), offset)
  }

  /** `Date.setFullYear(getFullYear() + k)`: same local month, day and time;
      29 February rolls over to 1 March in a common year (ShiftYearsDay). */
  function ShiftYears(t: Timestamp, k: int, offset: int): (r: Timestamp)
    ensures TimeInDay(r, offset) == TimeInDay(t, offset)
  {
    var c := LocalDate(t, offset);
    LocalInstant(MakeDay(c.year + k, c.month - 1, c.day), TimeInDay(t, offset), offset)
  }

  /** The local day of `r` is day `day` of month `m0` of year `y` as a `Date`
      setter places it: within the month's length it is that day of that
      month; beyond it, the day rolls over into the next month. */
  predicate SetsDay(r: Timestamp, offset: int, y: int, m0: int, day: int) {
    (day <= DaysInMonth(y, m0) ==>
       WithinMonth(DayKey(r, offset), y, m0) && DayKey(r, offset) - MakeDay(y, m0, 1) + 1 == day) &&
    (day > DaysInMonth(y, m0) ==> DayKey(r, offset) == MakeDay(y, m0 + 1, day - DaysInMonth(y, m0)))
  }

  /** Local time on day `day` of month `m0` of year `y`, for a day of at least
      1, lands where SetsDay says. */
  lemma RolledDay(y: int, m0: int, day: int, time: int, offset: int)
    requires day >= 1 && 0 <= time < MsPerDay
    ensures SetsDay(LocalInstant(MakeDay(y, m0, day), time, offset), offset, y, m0, day)
  {
  }

  /** `setMonth` keeps the day of month when the target month has it, and
      otherwise rolls it over into the month after. */
  lemma ShiftMonthsDay(t: Timestamp, k: int, offset: int)
    ensures var c := LocalDate(t, offset); SetsDay(ShiftMonths(t, k, offset), offset, c.year, c.month - 1 + k, c.day)
  {
    var c := LocalDate(t, offset);
    CivilDayPositive(DayKey(t, offset));
    RolledDay(c.year, c.month - 1 + k, c.day, TimeInDay(t, offset), offset);
  }

  /** `setFullYear` keeps the month and day of month when the target year has
      that day, and otherwise rolls it over into the next month. */
  lemma ShiftYearsDay(t: Timestamp, k: int, offset: int)
    ensures var c := LocalDate(t, offset); SetsDay(ShiftYears(t, k, offset), offset, c.year + k, c.month - 1, c.day)
  {
    var c := LocalDate(t, offset);
    CivilDayPositive(DayKey(t, offset));
    RolledDay(c.year + k, c.month - 1, c.day, TimeInDay(t, offset), offset);
  }

  /** Every calendar date has a day of month of at least 1. */
  lemma CivilDayPositive(z: int)
    ensures CivilFromDays(z).day >= 1
  {
    var z' := z + 719468;
    var era := z' / 146097;
    var doe := z' - era * 146097;
    var yoe := (doe - doe / 1460 + doe / 36524 - doe / 146096) / 365;
    var doy := doe - (365 * yoe + yoe / 4 - yoe / 100);
    MonthStartBelow(doy);
  }

  /** The month of day-of-year `doy` (in the March-based year) starts on or
      before `doy`. */
  lemma MonthStartBelow(doy: int)
    ensures (153 * ((5 * doy + 2) / 153) + 2) / 5 <= doy
  {
    var mp := (5 * doy + 2) / 153;
    assert 153 * mp <= 5 * doy + 2;
  }

  /** Instant of the UTC date-time given by its fields (`Date.UTC`), with the
      month 1-based. */
  function UtcInstant(y: int, m: int, d: int, hh: int, mm: int, ss: int): Timestamp {
    MakeDay(y, m - 1, d) * MsPerDay + hh * 3_600_000 + mm * 60_000 + ss * MsPerSecond
  }
}

=== FILE: common.dfy ===
/** Values shared by every module: optional values, results, identifiers,
    JavaScript truthiness of strings and small sequence utilities. */
module Common {

  datatype Option<T> = None | Some(value: T) {
    function GetOr(default: T): T {
      if Some? then value else default
    }
  }

  datatype Result<T, E> = Ok(value: T) | Err(error: E)

  /** Row identifiers (UUID strings). */
  type Id = string

  /** JavaScript truthiness of a value that is either absent or a string:
      `undefined`, `null` and `""` are falsy. */
  predicate Truthy(s: Option<string>) {
    s.Some? && s.value != ""
  }

  predicate IsPrefix(prefix: string, s: string) {
    |prefix| <= |s| && s[..|prefix|] == prefix
  }

  /** `haystack.includes(needle)` */
  predicate Contains(haystack: string, needle: string)
    decreases |haystack|
  {
    IsPrefix(needle, haystack) || (|haystack| > 0 && Contains(haystack[1..], needle))
  }

  lemma {:induction false} ContainsAt(haystack: string, needle: string, i: nat)
    requires i + |needle| <= |haystack| && haystack[i..i + |needle|] == needle
    ensures Contains(haystack, needle)
    decreases i
  {
    if i > 0 {
      assert haystack[1..][i - 1..i - 1 + |needle|] == needle;
      ContainsAt(haystack[1..], needle, i - 1);
    }
  }

  lemma ContainsMiddle(a: string, b: string, c: string)
    ensures Contains(a + b + c, b)
  {
    assert (a + b + c)[|a|..|a| + |b|] == b;
    ContainsAt(a + b + c, b, |a|);
  }

  /** Elements of `s` that satisfy `p`, in order (`Array.prototype.filter`). */
  function Filter<T(!new)>(s: seq<T>, p: T -> bool): (r: seq<T>)
    ensures |r| <= |s|
    ensures forall x :: x in r <==> x in s && p(x)
    ensures forall i :: 0 <= i < |r| ==> p(r[i])
  {
    if s == [] then []
    else Filter(s[..|s| - 1], p) + (if p(s[|s| - 1]) then [s[|s| - 1]] else [])
  }

  lemma {:induction false} FilterAppend<T(!new)>(a: seq<T>, b: seq<T>, p: T -> bool)
    ensures Filter(a + b, p) == Filter(a, p) + Filter(b, p)
    decreases |b|
  {
    if b == [] {
      assert a + b == a;
    } else {
      var b' := b[..|b| - 1];
      assert (a + b)[..|a + b| - 1] == a + b';
      FilterAppend(a, b', p);
    }
  }

  lemma {:induction false} FilterKeepsAll<T(!new)>(s: seq<T>, p: T -> bool)
    requires forall x :: x in s ==> p(x)
    ensures Filter(s, p) == s
    decreases |s|
  {
    if s != [] {
      var init, last := s[..|s| - 1], s[|s| - 1];
      assert forall x :: x in init ==> x in s;
      FilterKeepsAll(init, p);
      assert p(last);
      InitLast(s);
    }
  }

  /** Filtering twice is filtering once by both tests. */
  lemma {:induction false} FilterFilter<T(!new)>(s: seq<T>, p: T -> bool, q: T -> bool, both: T -> bool)
    requires forall x :: both(x) == (p(x) && q(x))
    ensures Filter(Filter(s, p), q) == Filter(s, both)
    decreases |s|
  {
    if s != [] {
      var init, last := s[..|s| - 1], s[|s| - 1];
      FilterFilter(init, p, q, both);
      var kept := if p(last) then [last] else [];
      FilterAppend(Filter(init, p), kept, q);
      if p(last) {
        assert kept[..0] == [];
      }
    }
  }

  /** Two tests that agree on every element keep the same elements. */
  lemma {:induction false} FilterSame<T(!new)>(s: seq<T>, p: T -> bool, q: T -> bool)
    requires forall x :: x in s ==> p(x) == q(x)
    ensures Filter(s, p) == Filter(s, q)
    decreases |s|
  {
    if s != [] {
      var init := s[..|s| - 1];
      assert forall x :: x in init ==> x in s;
      FilterSame(init, p, q);
    }
  }

  /** A filter that keeps no element yields nothing. */
  lemma FilterNone<T(!new)>(s: seq<T>, p: T -> bool)
    requires forall x :: x in s ==> !p(x)
    ensures Filter(s, p) == []
  {
  }

  /** One more element of a prefix. */
  lemma PrefixNext<T>(s: seq<T>, i: nat)
    requires i < |s|
    ensures s[..i + 1] == s[..i] + [s[i]]
  {
  }

  /** A non-empty sequence is its init followed by its last element. */
  lemma InitLast<T>(s: seq<T>)
    requires s != []
    ensures s[..|s| - 1] + [s[|s| - 1]] == s
  {
  }

  /** `s.map(f)` */
  function Map<A, B>(s: seq<A>, f: A -> B): (r: seq<B>)
    ensures |r| == |s|
    ensures forall i :: 0 <= i < |s| ==> r[i] == f(s[i])
  {
    if s == [] then [] else Map(s[..|s| - 1], f) + [f(s[|s| - 1])]
  }

  /** Elements of `s` at the positions where `keep` is true, in order. */
  function Pick<T>(s: seq<T>, keep: seq<bool>): (r: seq<T>)
    requires |keep| == |s|
    ensures |r| <= |s|
    ensures multiset(r) <= multiset(s)
  {
    if s == [] then []
    else
      var init := s[..|s| - 1];
      assert s == init + [s[|s| - 1]];
      Pick(init, keep[..|s| - 1]) + (if keep[|s| - 1] then [s[|s| - 1]] else [])
  }

  /** `Pick` on a non-empty sequence: the pick of all but the last element,
      then the last one if it is kept. */
  lemma PickLast<T>(s: seq<T>, v: seq<bool>)
    requires |v| == |s| && s != []
    ensures Pick(s, v) == Pick(s[..|s| - 1], v[..|s| - 1]) + (if v[|s| - 1] then [s[|s| - 1]] else [])
  {
  }

  /** The seq counterpart of `new Set(xs)`: first occurrences, insertion order. */
  function Distinct<T(==,!new)>(xs: seq<T>): (r: seq<T>)
    ensures forall x :: x in r <==> x in xs
    ensures forall i, j :: 0 <= i < j < |r| ==> r[i] != r[j]
  {
    if xs == [] then []
    else
      var init := Distinct(xs[..|xs| - 1]);
      if xs[|xs| - 1] in init then init else init + [xs[|xs| - 1]]
  }

  /** One more element: kept when it is new, ignored otherwise. */
  lemma DistinctAppend<T(!new)>(xs: seq<T>, x: T)
    ensures Distinct(xs + [x]) == if x in Distinct(xs) then Distinct(xs) else Distinct(xs) + [x]
  {
    assert (xs + [x])[..|xs|] == xs;
  }

  predicate IsDigit(c: char) {
    '0' <= c <= '9'
  }

  function DigitChar(d: nat): (c: char)
    requires d < 10
    ensures IsDigit(c)
  {
    (48 + d) as char
  }

  function DigitValue(c: char): (d: nat)
    requires IsDigit(c)
    ensures d < 10
  {
    c as int - 48
  }

  /** Decimal rendering of a natural number, as `String(n)` gives it. */
  function NatToString(n: nat): (s: string)
    ensures |s| > 0 && forall i :: 0 <= i < |s| ==> IsDigit(s[i])
    decreases n
  {
    if n < 10 then [DigitChar(n)] else NatToString(n / 10) + [DigitChar(n % 10)]
  }

  /** Value of a string of decimal digits. */
  function DigitsValue(s: string): nat
    requires forall i :: 0 <= i < |s| ==> IsDigit(s[i])
  {
    if s == [] then 0 else DigitsValue(s[..|s| - 1]) * 10 + DigitValue(s[|s| - 1])
  }

  /** Strict decimal parse: a non-empty string of digits. */
  function ParseNat(s: string): (r: Option<nat>)
    ensures r.Some? <==> |s| > 0 && forall i :: 0 <= i < |s| ==> IsDigit(s[i])
  {
    if |s| > 0 && forall i :: 0 <= i < |s| ==> IsDigit(s[i]) then Some(DigitsValue(s)) else None
  }

  lemma {:induction false} NatToStringRoundTrip(n: nat)
    ensures ParseNat(NatToString(n)) == Some(n)
  {
    DigitsOfNat(n);
  }

  lemma {:induction false} DigitsOfNat(n: nat)
    ensures DigitsValue(NatToString(n)) == n
    decreases n
  {
    var s := NatToString(n);
    if n < 10 {
      assert s[..|s| - 1] == [];
    } else {
      DigitsOfNat(n / 10);
      assert s[..|s| - 1] == NatToString(n / 10);
    }
  }
}

=== FILE: create_transaction.dfy ===
/** The create-transaction handler: it validates the body and inserts
    either one transaction or, for a recurrent request, a parent and
    `quantity` children whose dates step by day, week, month or year. */
module CreateTransaction {
  import opened Common
  import opened Calendar
  import opened Http
  import opened Records
  import opened Storage
  import opened RRuleConverter

  /** `recurrent`: the frequency and a positive number of repetitions. */
  datatype Recurrence = Recurrence(frequency: TransactionFrequency, quantity: nat)

  /** A body the schema accepts; keys it does not know are dropped. */
  datatype Request = Request(
    description: string,
    date: Timestamp,
    amount: int,
    kind: Kind,
    category: string,
    recurrent: Option<Recurrence>,
    paymentStatusId: Option<string>)

  /** A row as the handler sends it to `insert`. */
  datatype Payload = Payload(
    id: Id,
    description: string,
    amount: int,
    kind: Kind,
    category: string,
    userId: Option<string>,
    updatedAt: Timestamp,
    date: Timestamp,
    paymentStatusId: Option<string>,
    parentId: Option<Id>)

  /** The values of `TransactionFrequencyEnum`. */
  function FrequencyOf(name: string): (r: Option<TransactionFrequency>)
    ensures r == Some(TransactionFrequency.Daily) <==> name == "DAILY"
    ensures r == Some(TransactionFrequency.Weekly) <==> name == "WEEKLY"
    ensures r == Some(TransactionFrequency.Monthly) <==> name == "MONTHLY"
    ensures r == Some(TransactionFrequency.Yearly) <==> name == "YEARLY"
  {
    if name == "DAILY" then Some(TransactionFrequency.Daily)
    else if name == "WEEKLY" then Some(TransactionFrequency.Weekly)
    else if name == "MONTHLY" then Some(TransactionFrequency.Monthly)
    else if name == "YEARLY" then Some(TransactionFrequency.Yearly)
    else None
  }

  function KindOf(name: string): (r: Option<Kind>)
    ensures r.Some? <==> name == "income" || name == "outcome"
    ensures r.Some? ==> KindName(r.value) == name
  {
    if name == "income" then Some(Income) else if name == "outcome" then Some(Outcome) else None
  }

  /** The schema's field kinds, read on a parsed object. */
  predicate TextField(o: Json, key: string) {
    Member(o, key).Some? && Member(o, key).value.Text?
  }

  predicate NumberField(o: Json, key: string) {
    Member(o, key).Some? && Member(o, key).value.Number?
  }

  predicate EnumField(o: Json, key: string, values: set<string>) {
    TextField(o, key) && Member(o, key).value.s in values
  }

  /** The `recurrent` object the schema accepts: a frequency of the enum
      and a positive integer quantity. */
  predicate RecurrenceConforms(o: Json) {
    EnumField(o, "frequency", {"DAILY", "WEEKLY", "MONTHLY", "YEARLY"})
    && NumberField(o, "quantity") && Member(o, "quantity").value.n >= 1
  }

  /** A body the schema accepts. */
  predicate Conforms(body: Json, coerceDate: Json -> Option<Timestamp>) {
    && TextField(body, "description")
    && Member(body, "date").Some? && coerceDate(Member(body, "date").value).Some?
    && NumberField(body, "amount")
    && EnumField(body, "type", {"income", "outcome"})
    && TextField(body, "category")
    && (Member(body, "recurrent").None? || RecurrenceConforms(Member(body, "recurrent").value))
    && (Member(body, "paymentStatusId").None? || TextField(body, "paymentStatusId"))
  }

  /** The optional `recurrent` object: absent is accepted, anything but an
      object with a known frequency and a positive integer quantity (even
      `null`) is refused. */
  function RecurrenceOf(j: Option<Json>): (r: Result<Option<Recurrence>, string>)
    ensures r.Ok? <==> j.None? || RecurrenceConforms(j.value)
    ensures j.None? ==> r == Ok(None)
    ensures r.Ok? && j.Some? ==>
              && r.value.Some?
              && Member(j.value, "quantity") == Some(Number(r.value.value.quantity))
              && FrequencyOf(Member(j.value, "frequency").value.s) == Some(r.value.value.frequency)
    ensures r.Ok? && r.value.Some? ==> r.value.value.quantity >= 1
  {
    match j
    case None => Ok(None)
    case Some(o) =>
      match (Member(o, "frequency"), Member(o, "quantity"))
      case (Some(Text(name)), Some(Number(q))) =>
        if FrequencyOf(name).Some? && q >= 1 then Ok(Some(Recurrence(FrequencyOf(name).value, q)))
        else Err("recurrent")
      case _ => Err("recurrent")
  }

  /** `schema.safeParse(body)`; `coerceDate` is `z.coerce.date()` on a
      present value (`new Date(v)`, refused when it is an invalid date). */
  function Validate(body: Json, coerceDate: Json -> Option<Timestamp>): (r: Option<Request>)
    ensures r.Some? <==> Conforms(body, coerceDate)
    ensures r.Some? ==> Member(body, "description") == Some(Text(r.value.description))
                        && Member(body, "amount") == Some(Number(r.value.amount))
                        && Member(body, "type") == Some(Text(KindName(r.value.kind)))
                        && Member(body, "category") == Some(Text(r.value.category))
                        && Member(body, "date").Some? && coerceDate(Member(body, "date").value) == Some(r.value.date)
    ensures r.Some? ==> (Member(body, "paymentStatusId").None? <==> r.value.paymentStatusId.None?)
    ensures r.Some? && r.value.paymentStatusId.Some? ==> Member(body, "paymentStatusId") == Some(Text(r.value.paymentStatusId.value))
    ensures r.Some? ==> (Member(body, "recurrent").None? <==> r.value.recurrent.None?)
    ensures r.Some? && r.value.recurrent.Some? ==>
              && Member(Member(body, "recurrent").value, "quantity") == Some(Number(r.value.recurrent.value.quantity))
              && FrequencyOf(Member(Member(body, "recurrent").value, "frequency").value.s) == Some(r.value.recurrent.value.frequency)
              && r.value.recurrent.value.quantity >= 1
  {
    match (Member(body, "description"), Member(body, "date"), Member(body, "amount"),
           Member(body, "type"), Member(body, "category"))
    case (Some(Text(description)), Some(d), Some(Number(amount)), Some(Text(kind)), Some(Text(category))) =>
      var paymentStatusOk := match Member(body, "paymentStatusId")
                             case None => true
                             case Some(Text(_)) => true
                             case Some(_) => false;
      if coerceDate(d).Some? && KindOf(kind).Some? && paymentStatusOk && RecurrenceOf(Member(body, "recurrent")).Ok? then
        Some(Request(description, coerceDate(d).value, amount, KindOf(kind).value, category,
                     RecurrenceOf(Member(body, "recurrent")).value,
                     match Member(body, "paymentStatusId") case Some(Text(s)) => Some(s) case _ => None))
      else None
    case _ => None
  }

  /** The date of payload `i`: the request date moved by `i` days, `7i`
      days, `i` months or `i` years with `setDate`, `setMonth` or
      `setFullYear`. */
  function StepDate(date: Timestamp, frequency: TransactionFrequency, i: nat, offset: int): (r: Timestamp)
    ensures TimeInDay(r, offset) == TimeInDay(date, offset)
  {
    match frequency
    case Daily => AddDays(date, i)
    case Weekly => AddDays(date, i * 7)
    case Monthly => ShiftMonths(date, i, offset)
    case Yearly => ShiftYears(date, i, offset)
  }

  /** Payload `i` lies `i` or `7i` local days after the request date for a
      daily or weekly series, and on the request's day of month `i` months or
      `i` years later for a monthly or yearly one (rolled over into the next
      month when the target month is shorter). */
  lemma StepDateDay(date: Timestamp, frequency: TransactionFrequency, i: nat, offset: int)
    ensures frequency.Daily? ==> DayKey(StepDate(date, frequency, i, offset), offset) == DayKey(date, offset) + i
    ensures frequency.Weekly? ==> DayKey(StepDate(date, frequency, i, offset), offset) == DayKey(date, offset) + 7 * i
    ensures var c := LocalDate(date, offset);
            frequency.Monthly? ==> SetsDay(StepDate(date, frequency, i, offset), offset, c.year, c.month - 1 + i, c.day)
    ensures var c := LocalDate(date, offset);
            frequency.Yearly? ==> SetsDay(StepDate(date, frequency, i, offset), offset, c.year + i, c.month - 1, c.day)
  {
    match frequency
    case Daily =>
    case Weekly =>
    case Monthly => ShiftMonthsDay(date, i, offset);
    case Yearly => ShiftYearsDay(date, i, offset);
  }

  /** The single payload: the fields of the request, the user from the
      token, the first generated id and no parent. */
  function BasePayload(req: Request, id: Id, sub: Option<string>, now: Timestamp): (p: Payload)
    ensures p.id == id && p.parentId.None? && p.date == req.date && p.userId == sub && p.updatedAt == now
    ensures p.description == req.description && p.amount == req.amount && p.kind == req.kind
            && p.category == req.category && p.paymentStatusId == req.paymentStatusId
  {
    Payload(id, req.description, req.amount, req.kind, req.category, sub, now, req.date, req.paymentStatusId, None)
  }

  /** The payload content every row of a series shares with the base. */
  predicate SameContent(p: Payload, base: Payload) {
    p.description == base.description && p.amount == base.amount && p.kind == base.kind
    && p.category == base.category && p.userId == base.userId && p.updatedAt == base.updatedAt
    && p.paymentStatusId == base.paymentStatusId
  }

  /** Payload `k` of a series: the base moved `k` steps on, with the
      `k`-th generated id and the base as parent, except for the base itself. */
  function Entry(base: Payload, frequency: TransactionFrequency, uuid: nat -> Id, offset: int, k: nat): Payload {
    base.(id := if k == 0 then base.id else uuid(k),
          date := StepDate(base.date, frequency, k, offset),
          parentId := if k == 0 then None else Some(base.id))
  }

  predicate IsSeries(list: seq<Payload>, base: Payload, frequency: TransactionFrequency, uuid: nat -> Id, offset: int) {
    forall k :: 0 <= k < |list| ==> list[k] == Entry(base, frequency, uuid, offset, k)
  }

  lemma SeriesAppend(list: seq<Payload>, base: Payload, frequency: TransactionFrequency, uuid: nat -> Id, offset: int)
    requires IsSeries(list, base, frequency, uuid, offset)
    ensures IsSeries(list + [Entry(base, frequency, uuid, offset, |list|)], base, frequency, uuid, offset)
  {
    var next := list + [Entry(base, frequency, uuid, offset, |list|)];
    forall k | 0 <= k < |next| ensures next[k] == Entry(base, frequency, uuid, offset, k) {
      if k < |list| {
        assert next[k] == list[k];
      }
    }
  }

  /** The `payloadList` loop. `uuid(i)` is the id the `i`-th call of
      `uuidv4` returns; the base payload's id is `uuid(0)`. */
  method PayloadList(base: Payload, recurrence: Recurrence, uuid: nat -> Id, offset: int)
    returns (list: seq<Payload>)
    requires base.id == uuid(0)
    ensures |list| == recurrence.quantity + 1
    ensures list[0].id == base.id && list[0].parentId.None?
    ensures forall i :: 1 <= i < |list| ==> list[i].id == uuid(i) && list[i].parentId == Some(base.id)
    ensures forall i :: 0 <= i < |list| ==> list[i].date == StepDate(base.date, recurrence.frequency, i, offset)
    ensures forall i :: 0 <= i < |list| ==> SameContent(list[i], base)
    ensures (forall i, j :: 0 <= i < j <= recurrence.quantity ==> uuid(i) != uuid(j)) ==>
              forall i, j :: 0 <= i < j < |list| ==> list[i].id != list[j].id
  {
    list := [];
    var i := 0;
    while i <= recurrence.quantity
      invariant 0 <= i <= recurrence.quantity + 1
      invariant |list| == i
      invariant IsSeries(list, base, recurrence.frequency, uuid, offset)
    {
      var isParent := i == 0;
      var date := StepDate(base.date, recurrence.frequency, i, offset);
      var id := if isParent then base.id else uuid(i);
      var next := base.(id := id, date := date, parentId := if isParent then None else Some(base.id));
      SeriesAppend(list, base, recurrence.frequency, uuid, offset);
      list := list + [next];
      i := i + 1;
    }
    SeriesFacts(list, base, recurrence.frequency, uuid, offset);
  }

  /** What a series promises about each of its payloads. */
  lemma SeriesFacts(list: seq<Payload>, base: Payload, frequency: TransactionFrequency, uuid: nat -> Id, offset: int)
    requires IsSeries(list, base, frequency, uuid, offset) && base.id == uuid(0)
    ensures forall i :: 0 <= i < |list| ==> list[i].id == uuid(i)
    ensures forall i :: 1 <= i < |list| ==> list[i].parentId == Some(base.id)
    ensures |list| > 0 ==> list[0].parentId.None?
    ensures forall i :: 0 <= i < |list| ==> list[i].date == StepDate(base.date, frequency, i, offset)
    ensures forall i :: 0 <= i < |list| ==> SameContent(list[i], base)
  {
    forall i | 0 <= i < |list|
      ensures list[i].id == uuid(i) && list[i].date == StepDate(base.date, frequency, i, offset)
      ensures SameContent(list[i], base)
    {
      assert list[i] == Entry(base, frequency, uuid, offset, i);
    }
  }

  const InvalidData := "Invalid data"
  const CreateFailed := "Error creating transaction"
  const Created := "Create new Transaction"

  /** The handler. `sent` is what it passes to `insert` (nothing when it
      stops before), `insert` the table's answer to it. A body that is not
      JSON throws a `SyntaxError`, which the handler catches and
      serialises as `{}`. */
  method Handler(body: RequestBody, sub: Option<string>, now: Timestamp, offset: int, uuid: nat -> Id,
                 coerceDate: Json -> Option<Timestamp>, insert: seq<Payload> -> Result<Json, Fault>)
    returns (sent: Option<seq<Payload>>, r: Response)
    ensures body.Malformed? ==> sent.None? && r == MessageResponse(400, CreateFailed, map["error" := Object(map[])])
    ensures ParseBody(body).Ok? && Validate(ParseBody(body).value, coerceDate).None? ==>
              sent.None? && r == MessageResponse(400, InvalidData, map[])
    ensures ParseBody(body).Ok? && Validate(ParseBody(body).value, coerceDate).Some? ==> sent.Some?
    ensures sent.Some? ==>
              var req := Validate(ParseBody(body).value, coerceDate).value;
              && ParseBody(body).Ok? && Validate(ParseBody(body).value, coerceDate).Some?
              && (req.recurrent.None? ==> sent.value == [BasePayload(req, uuid(0), sub, now)])
              && (req.recurrent.Some? ==>
                    && |sent.value| == req.recurrent.value.quantity + 1
                    && sent.value[0].id == uuid(0) && sent.value[0].parentId.None?
                    && (forall i :: 1 <= i < |sent.value| ==> sent.value[i].id == uuid(i) && sent.value[i].parentId == Some(uuid(0)))
                    && (forall i :: 0 <= i < |sent.value| ==>
                          sent.value[i].date == StepDate(req.date, req.recurrent.value.frequency, i, offset))
                    && (forall i :: 0 <= i < |sent.value| ==> SameContent(sent.value[i], BasePayload(req, uuid(0), sub, now))))
              && (insert(sent.value).Err? ==>
                    r == MessageResponse(400, CreateFailed, map["error" := FaultJson(insert(sent.value).error)]))
              && (insert(sent.value).Ok? ==>
                    r == MessageResponse(200, Created, map["data" := insert(sent.value).value]))
  {
    var parsed := ParseBody(body);
    if parsed.Err? {
      return None, MessageResponse(400, CreateFailed, map["error" := Object(map[])]);
    }
    var data := Validate(parsed.value, coerceDate);
    var id := uuid(0);
    if data.None? {
      return None, MessageResponse(400, InvalidData, map[]);
    }
    var req := data.value;
    var payload := BasePayload(req, id, sub, now);
    var rows: seq<Payload>;
    if req.recurrent.Some? {
      rows := PayloadList(payload, req.recurrent.value, uuid, offset);
    } else {
      rows := [payload];
    }
    sent := Some(rows);
    var response := insert(rows);
    if response.Err? {
      r := MessageResponse(400, CreateFailed, map["error" := FaultJson(response.error)]);
    } else {
      r := MessageResponse(200, Created, map["data" := response.value]);
    }
  }
}

=== FILE: cron.dfy ===
/** The scheduled job that stores the occurrences of the coming week: for
    each active definition it asks the rule for the dates up to seven days
    ahead, keeps those past the definition's watermark and within thirty
    days of now, drops the days already stored, inserts the rest as one batch
    and moves the watermark. */
module Cron {
  import opened Common
  import opened Calendar
  import opened RRuleConverter
  import opened Occurrences
  import opened Records
  import opened Storage

  /** Why a pass failed: a storage call, or a rule the parser rejects. */
  datatype PassError = StorageError(fault: Fault) | RuleError(message: string)

  /** The definition has an end date and it is before now. */
  predicate Expired(def: Definition, now: Timestamp) {
    def.endDate.Some? && def.endDate.value < now
  }

  /** `rrule.between(startDate, addDays(now, 7), true)` on
      `RRule.fromString("RRULE:" + rule)`. The parsed rule carries no
      `dtstart` of its own, so the library's default applies: the moment
      the rule is built, with its milliseconds cleared. */
  function WeekQuery(options: RuleOptions, def: Definition, now: Timestamp): (q: RuleQuery)
    ensures q.options == options && q.pin.None?
    ensures q.dtstart % MsPerSecond == 0 && q.dtstart <= now < q.dtstart + MsPerSecond
    ensures q.span.Between? && q.span.after == def.startDate
    ensures forall offset :: DayKey(q.span.before, offset) == DayKey(now, offset) + 7
  {
    RuleQuery(options, now - now % MsPerSecond, None, Between(def.startDate, AddDays(now, 7)))
  }

  /** Strictly after `last_generated_at`, or after the day before the start
      when the definition was never materialised. */
  predicate PastWatermark(def: Definition, d: Timestamp) {
    if def.lastGeneratedAt.Some? then d > def.lastGeneratedAt.value else d > AddDays(def.startDate, -1)
  }

  /** At most thirty days from now, in either direction. */
  predicate NearNow(d: Timestamp, now: Timestamp) {
    (if now >= d then now - d else d - now) <= 30 * MsPerDay
  }

  /** `getExistingTransactions`: rows linked to the definition whose date
      equals one of the candidate days' `yyyy-MM-dd` strings, which the
      database reads as that day's UTC midnight. A failed lookup yields no
      rows. */
  function ExistingRows(rows: seq<Txn>, defId: Id, days: set<int>, lookup: Option<Fault>): (r: seq<Txn>)
    ensures lookup.Some? ==> r == []
    ensures forall t :: t in r <==>
              lookup.None? && t in rows && t.recurrentId == Some(defId)
              && t.date % MsPerDay == 0 && t.date / MsPerDay in days
  {
    if lookup.Some? then []
    else Filter(rows, (t: Txn) => t.recurrentId == Some(defId) && t.date % MsPerDay == 0 && t.date / MsPerDay in days)
  }

  function DaysOf(dates: seq<Timestamp>, offset: int): set<int> {
    set d | d in dates :: DayKey(d, offset)
  }

  /** The row inserted for an occurrence: the definition's fields, linked to
      it, dated and last updated at the occurrence. */
  function Materialised(def: Definition, d: Timestamp, id: Id, now: Timestamp): (t: Txn)
    ensures CopiesDefinition(t, def) && t.id == id && t.date == d
    ensures t.createdAt == now && t.updatedAt == d && !t.isVirtual && !t.isRecurringGenerated
  {
    Txn(id, def.description, def.kind, def.amount, d, def.note, def.userId, Some(def.id),
        None, None, None, None, None, None, now, d, false, false)
  }

  /** What one pass does: its result, the rows it adds to `transactions` and
      whether it moves the definition's watermark to now. */
  datatype Pass = Pass(outcome: Result<nat, PassError>, inserted: seq<Txn>, marked: bool)

  /** The candidate dates of a pass, before the stored days are dropped. */
  function ValidDates(options: RuleOptions, def: Definition, env: Env): (r: seq<Timestamp>)
    ensures forall d :: d in r <==>
              d in env.expand(WeekQuery(options, def, env.now)) && PastWatermark(def, d) && NearNow(d, env.now)
  {
    var dates := env.expand(WeekQuery(options, def, env.now));
    var newDates := Filter(dates, (d: Timestamp) => PastWatermark(def, d));
    Filter(newDates, (d: Timestamp) => NearNow(d, env.now))
  }

  /** The dates whose day is not among the stored rows' days. */
  function DatesToCreate(valid: seq<Timestamp>, existing: seq<Txn>, offset: int): (r: seq<Timestamp>)
    ensures forall d :: d in r <==> d in valid && forall t :: t in existing ==> DayKey(t.date, offset) != DayKey(d, offset)
  {
    var existingDays := set t | t in existing :: DayKey(t.date, offset);
    Filter(valid, (d: Timestamp) => DayKey(d, offset) !in existingDays)
  }

  /** The rows `getExistingTransactions` returns for a pass. */
  function Existing(options: RuleOptions, def: Definition, env: Env, rows: seq<Txn>, faults: map<Call, Fault>): seq<Txn> {
    ExistingRows(rows, def.id, DaysOf(ValidDates(options, def, env), env.offset), FaultOf(faults, Transactions, Select, def.id))
  }

  /** `datesToCreate`: the candidate dates on no day of an existing row. */
  function ToCreate(options: RuleOptions, def: Definition, env: Env, rows: seq<Txn>, faults: map<Call, Fault>)
    : (r: seq<Timestamp>)
    ensures forall d :: d in r <==> (d in ValidDates(options, def, env)
              && forall e :: e in Existing(options, def, env, rows, faults) ==> DayKey(e.date, env.offset) != DayKey(d, env.offset))
  {
    DatesToCreate(ValidDates(options, def, env), Existing(options, def, env, rows, faults), env.offset)
  }

  function Batch(dates: seq<Timestamp>, def: Definition, env: Env): (r: seq<Txn>)
    ensures |r| == |dates|
    ensures forall k :: 0 <= k < |r| ==> r[k].date == dates[k]
    ensures forall t :: t in r ==> (t.userId == def.userId && t.recurrentId == Some(def.id)
              && t.description == def.description && t.kind == def.kind
              && t.amount == def.amount && t.note == def.note && !t.isVirtual)
  {
    var r := Map(dates, (d: Timestamp) => Materialised(def, d, env.mint(def.id, d), env.now));
    assert forall k :: 0 <= k < |r| ==> r[k] == Materialised(def, dates[k], env.mint(def.id, dates[k]), env.now);
    r
  }

  /** A pass over a definition that has not expired and whose rule parses. */
  function PassWith(options: RuleOptions, def: Definition, env: Env, rows: seq<Txn>, faults: map<Call, Fault>): (p: Pass)
    ensures p.outcome.Ok? ==> p.outcome.value == |p.inserted|
    ensures FaultOf(faults, RecurringTransactions, Update, def.id).None? ==> p.outcome.Ok? || p.inserted == []
    ensures p.inserted == [] || p.inserted == Batch(ToCreate(options, def, env, rows, faults), def, env)
    // no candidate date: nothing is looked up, inserted or marked
    ensures ValidDates(options, def, env) == [] ==> p == Pass(Ok(0), [], false)
    // every candidate day is already stored: only the watermark moves
    ensures var mark := FaultOf(faults, RecurringTransactions, Update, def.id);
            ValidDates(options, def, env) != [] && ToCreate(options, def, env, rows, faults) == [] ==>
              p.inserted == [] && p.marked == mark.None? && (mark.Some? ==> p.outcome == Err(StorageError(mark.value)))
    // a failed insert is thrown: the pass fails, and nothing is inserted or marked
    ensures var insert := FaultOf(faults, Transactions, Insert, def.id);
            ValidDates(options, def, env) != [] && ToCreate(options, def, env, rows, faults) != [] && insert.Some? ==>
              p == Pass(Err(StorageError(insert.value)), [], false)
    // otherwise the whole batch is inserted, then the watermark moves
    ensures var mark := FaultOf(faults, RecurringTransactions, Update, def.id);
            var toCreate := ToCreate(options, def, env, rows, faults);
            ValidDates(options, def, env) != [] && toCreate != [] && FaultOf(faults, Transactions, Insert, def.id).None? ==>
              p.inserted == Batch(toCreate, def, env) && p.marked == mark.None?
              && (mark.Some? ==> p.outcome == Err(StorageError(mark.value)))
  {
    if ValidDates(options, def, env) == [] then Pass(Ok(0), [], false)
    else
      var toCreate := ToCreate(options, def, env, rows, faults);
      var mark := FaultOf(faults, RecurringTransactions, Update, def.id);
      if toCreate == [] then
        Pass(if mark.Some? then Err(StorageError(mark.value)) else Ok(0), [], mark.None?)
      else
        var batch := Batch(toCreate, def, env);
        match FaultOf(faults, Transactions, Insert, def.id)
        case Some(e) => Pass(Err(StorageError(e)), [], false)
        case None => Pass(if mark.Some? then Err(StorageError(mark.value)) else Ok(|batch|), batch, mark.None?)
  }

  function PassOf(def: Definition, env: Env, rows: seq<Txn>, faults: map<Call, Fault>): (p: Pass)
    ensures p.outcome.Ok? ==> p.outcome.value == |p.inserted|
    ensures FaultOf(faults, RecurringTransactions, Update, def.id).None? ==> p.outcome.Ok? || p.inserted == []
    ensures Expired(def, env.now) ==> p == Pass(Ok(0), [], false)
    ensures !Expired(def, env.now) && ParseRule(Header + def.recurrenceRule).Err? ==>
              p == Pass(Err(RuleError(ParseRule(Header + def.recurrenceRule).error)), [], false)
    ensures !Expired(def, env.now) && ParseRule(Header + def.recurrenceRule).Ok? ==>
              p == PassWith(ParseRule(Header + def.recurrenceRule).value, def, env, rows, faults)
  {
    if Expired(def, env.now) then Pass(Ok(0), [], false)
    else match ParseRule(Header + def.recurrenceRule)
      case Err(message) => Pass(Err(RuleError(message)), [], false)
      case Ok(options) => PassWith(options, def, env, rows, faults)
  }

  /** `processRecurringTransaction(definition, now)`; a thrown error is an
      `Err`. */
  method ProcessRecurringTransaction(db: Store, def: Definition, env: Env) returns (r: Result<nat, PassError>)
    modifies db
    ensures var p := PassOf(def, env, old(db.transactions), db.faults);
            r == p.outcome
            && db.transactions == old(db.transactions) + p.inserted
            && db.recurring == (if p.marked then Stamped(old(db.recurring), def.id, env.now) else old(db.recurring))
    ensures db.categories == old(db.categories) && db.tags == old(db.tags)
  {
    if Expired(def, env.now) {
      return Ok(0);
    }
    var parsed := ParseRule(Header + def.recurrenceRule);
    if parsed.Err? {
      return Err(RuleError(parsed.error));
    }
    var valid := ValidDates(parsed.value, def, env);
    if valid == [] {
      return Ok(0);
    }
    var toCreate := ToCreate(parsed.value, def, env, db.transactions, db.faults);
    if toCreate == [] {
      var markError := db.MarkGenerated(def.id, env.now);
      if markError.Some? {
        return Err(StorageError(markError.value));
      }
      return Ok(0);
    }
    var batch := Batch(toCreate, def, env);
    var insertError := db.InsertTransactions(batch, def.id);
    if insertError.Some? {
      return Err(StorageError(insertError.value));
    }
    var markError := db.MarkGenerated(def.id, env.now);
    if markError.Some? {
      return Err(StorageError(markError.value));
    }
    r := Ok(|batch|);
  }

  /** Every inserted row is an occurrence of the rule in `[start, now + 7
      days]` (as far as the library keeps to its bounds), one of the dates
      to create (so past the watermark, within thirty days of now and on no
      day of a row the lookup found), and a copy of the definition linked to
      it. */
  lemma InsertedRows(def: Definition, env: Env, rows: seq<Txn>, faults: map<Call, Fault>, t: Txn)
    requires HonoursBetween(env.expand)
    requires t in PassOf(def, env, rows, faults).inserted
    ensures !Expired(def, env.now) && ParseRule(Header + def.recurrenceRule).Ok?
    ensures t.date in ToCreate(ParseRule(Header + def.recurrenceRule).value, def, env, rows, faults)
    ensures def.startDate <= t.date <= AddDays(env.now, 7)
    ensures t.userId == def.userId && t.recurrentId == Some(def.id)
    ensures t.description == def.description && t.kind == def.kind
    ensures t.amount == def.amount && t.note == def.note && !t.isVirtual
  {
    var options := ParseRule(Header + def.recurrenceRule).value;
    var toCreate := ToCreate(options, def, env, rows, faults);
    assert PassOf(def, env, rows, faults) == PassWith(options, def, env, rows, faults);
    BatchDates(toCreate, def, env, t);
    WeekBounds(options, def, env, t.date);
  }

  /** A row of a batch is dated at one of the batch's dates. */
  lemma BatchDates(dates: seq<Timestamp>, def: Definition, env: Env, t: Txn)
    requires t in Batch(dates, def, env)
    ensures t.date in dates
  {
    var batch := Batch(dates, def, env);
    var k :| 0 <= k < |batch| && batch[k] == t;
    assert t.date == dates[k];
  }

  /** A candidate date lies between the definition's start and a week from
      now, when the library keeps to the bounds of `between`. */
  lemma WeekBounds(options: RuleOptions, def: Definition, env: Env, d: Timestamp)
    requires HonoursBetween(env.expand)
    requires d in ValidDates(options, def, env)
    ensures def.startDate <= d <= AddDays(env.now, 7)
  {
    var query := WeekQuery(options, def, env.now);
    var i :| 0 <= i < |env.expand(query)| && env.expand(query)[i] == d;
    assert query.span.Between?;
  }

  /** When the lookup of stored days fails, every candidate date is
      inserted, in order (given that the insert succeeds). */
  lemma FailedLookupInsertsAll(def: Definition, env: Env, rows: seq<Txn>, faults: map<Call, Fault>)
    requires !Expired(def, env.now) && ParseRule(Header + def.recurrenceRule).Ok?
    requires FaultOf(faults, Transactions, Select, def.id).Some?
    requires FaultOf(faults, Transactions, Insert, def.id).None?
    ensures var valid := ValidDates(ParseRule(Header + def.recurrenceRule).value, def, env);
            var p := PassOf(def, env, rows, faults);
            |p.inserted| == |valid| && forall k :: 0 <= k < |valid| ==> p.inserted[k].date == valid[k]
  {
    var options := ParseRule(Header + def.recurrenceRule).value;
    var valid := ValidDates(options, def, env);
    assert Existing(options, def, env, rows, faults) == [];
    var existingDays := set t: Txn | t in [] :: DayKey(t.date, env.offset);
    assert existingDays == {};
    FilterKeepsAll(valid, (d: Timestamp) => DayKey(d, env.offset) !in existingDays);
    assert ToCreate(options, def, env, rows, faults) == valid;
    assert PassOf(def, env, rows, faults) == PassWith(options, def, env, rows, faults);
  }

  /* ---- handler ---- */

  /** The select of active definitions: no end date, or one on or after
      today's `yyyy-MM-dd`, read as that day's UTC midnight. */
  predicate ActiveToday(def: Definition, env: Env): (r: bool)
    ensures r && Expired(def, env.now) ==> DayKey(env.now, env.offset) * MsPerDay <= def.endDate.value < env.now
    ensures !r && env.offset <= 0 ==> Expired(def, env.now)
  {
    def.endDate.None? || def.endDate.value >= DayKey(env.now, env.offset) * MsPerDay
  }

  /** The rows that select returns, in table order. */
  function ActiveDefinitions(defs: seq<Definition>, env: Env): (r: seq<Definition>)
    ensures forall d :: d in r <==> d in defs && ActiveToday(d, env)
  {
    Filter(defs, (d: Definition) => ActiveToday(d, env))
  }

  datatype Sweep = Sweep(processed: nat, generated: nat, rows: seq<Txn>, defs: seq<Definition>)

  /** The passes over `todo` in order, each seeing the rows the earlier ones
      inserted; a failed pass counts nothing. */
  function SweepOf(todo: seq<Definition>, env: Env, rows: seq<Txn>, defs: seq<Definition>, faults: map<Call, Fault>)
    : (s: Sweep)
    ensures s.processed <= |todo|
    ensures |rows| <= |s.rows| && s.rows[..|rows|] == rows
    ensures s.generated <= |s.rows| - |rows|
    decreases |todo|
  {
    if todo == [] then Sweep(0, 0, rows, defs)
    else
      var prev := SweepOf(todo[..|todo| - 1], env, rows, defs, faults);
      var next := SweepStep(prev, todo[|todo| - 1], env, faults);
      assert next.rows[..|rows|] == prev.rows[..|rows|];
      next
  }

  /** One more pass of the sweep, over `def`. */
  function SweepStep(prev: Sweep, def: Definition, env: Env, faults: map<Call, Fault>): (next: Sweep)
    ensures next.processed <= prev.processed + 1
    ensures |prev.rows| <= |next.rows| && next.rows[..|prev.rows|] == prev.rows
    ensures next.generated - prev.generated <= |next.rows| - |prev.rows|
  {
    var p := PassOf(def, env, prev.rows, faults);
    var ok := p.outcome.Ok?;
    Sweep(prev.processed + (if ok then 1 else 0),
          prev.generated + (if ok then p.outcome.value else 0),
          prev.rows + p.inserted,
          if p.marked then Stamped(prev.defs, def.id, env.now) else prev.defs)
  }

  lemma SweepPrefix(todo: seq<Definition>, i: nat, env: Env, rows: seq<Txn>, defs: seq<Definition>, faults: map<Call, Fault>)
    requires i < |todo|
    ensures SweepOf(todo[..i + 1], env, rows, defs, faults) == SweepStep(SweepOf(todo[..i], env, rows, defs, faults), todo[i], env, faults)
  {
    assert todo[..i + 1][..i] == todo[..i];
  }

  /** The `i`-th definition's pass, run on the table as the earlier passes
      left it: its rows are appended, and it is counted, with its rows, exactly
      when it succeeds. With PassOf this says which rows enter the table: the
      whole batch of a pass whose insert works, nothing after a failed insert. */
  lemma SweepPass(todo: seq<Definition>, i: nat, env: Env, rows: seq<Txn>, defs: seq<Definition>, faults: map<Call, Fault>)
    requires i < |todo|
    ensures var before := SweepOf(todo[..i], env, rows, defs, faults);
            var after := SweepOf(todo[..i + 1], env, rows, defs, faults);
            var p := PassOf(todo[i], env, before.rows, faults);
            && after.rows == before.rows + p.inserted
            && after.defs == (if p.marked then Stamped(before.defs, todo[i].id, env.now) else before.defs)
            && (after.processed == before.processed + 1 <==> p.outcome.Ok?)
            && (!p.outcome.Ok? ==> after.processed == before.processed && after.generated == before.generated)
            && (p.outcome.Ok? ==> after.generated == before.generated + |p.inserted|)
  {
    SweepPrefix(todo, i, env, rows, defs, faults);
  }

  /** When every watermark update succeeds, `generatedCount` is exactly the
      number of rows the run added. */
  lemma {:induction false} GeneratedCountsInserts(todo: seq<Definition>, env: Env, rows: seq<Txn>, defs: seq<Definition>, faults: map<Call, Fault>)
    requires forall d :: d in todo ==> FaultOf(faults, RecurringTransactions, Update, d.id).None?
    ensures var s := SweepOf(todo, env, rows, defs, faults);
            s.generated == |s.rows| - |rows|
    decreases |todo|
  {
    if todo != [] {
      var init := todo[..|todo| - 1];
      assert forall d :: d in init ==> d in todo;
      GeneratedCountsInserts(init, env, rows, defs, faults);
      var prev := SweepOf(init, env, rows, defs, faults);
      var p := PassOf(todo[|todo| - 1], env, prev.rows, faults);
      assert p.outcome.Ok? || p.inserted == [];
    }
  }

  datatype CronOutcome = FetchFailed(error: Fault) | NothingToProcess | Completed(processed: nat, generated: nat)

  function StatusCode(o: CronOutcome): (code: int)
    ensures code == 500 <==> o.FetchFailed?
    ensures code == 200 || code == 500
  {
    if o.FetchFailed? then 500 else 200
  }

  /** One pass of the handler's loop: process `def` and add its counts to the
      totals. */
  method ProcessNext(db: Store, def: Definition, env: Env, totalProcessed: nat, totalGenerated: nat, ghost prev: Sweep)
    returns (processed: nat, generated: nat)
    modifies db
    requires totalProcessed == prev.processed && totalGenerated == prev.generated
    requires db.transactions == prev.rows && db.recurring == prev.defs
    ensures var next := SweepStep(prev, def, env, db.faults);
            processed == next.processed && generated == next.generated
            && db.transactions == next.rows && db.recurring == next.defs
    ensures db.categories == old(db.categories) && db.tags == old(db.tags)
  {
    var r := ProcessRecurringTransaction(db, def, env);
    processed, generated := totalProcessed, totalGenerated;
    if r.Ok? {
      generated := generated + r.value;
      processed := processed + 1;
    }
  }

  /** `handler()` */
  method Handler(db: Store, env: Env) returns (r: CronOutcome)
    modifies db
    ensures var fetched := ActiveDefinitions(old(db.recurring), env);
            var s := SweepOf(fetched, env, old(db.transactions), old(db.recurring), db.faults);
            if db.FaultAt(RecurringTransactions, Select, EveryRow).Some? then
              r == FetchFailed(db.FaultAt(RecurringTransactions, Select, EveryRow).value)
              && db.transactions == old(db.transactions) && db.recurring == old(db.recurring)
            else if fetched == [] then
              r == NothingToProcess && db.transactions == old(db.transactions) && db.recurring == old(db.recurring)
            else
              r == Completed(s.processed, s.generated) && db.transactions == s.rows && db.recurring == s.defs
    ensures db.categories == old(db.categories) && db.tags == old(db.tags)
  {
    var fetchError := db.FaultAt(RecurringTransactions, Select, EveryRow);
    if fetchError.Some? {
      return FetchFailed(fetchError.value);
    }
    var fetched := ActiveDefinitions(db.recurring, env);
    if fetched == [] {
      return NothingToProcess;
    }
    var totalProcessed, totalGenerated := 0, 0;
    var i := 0;
    while i < |fetched|
      invariant 0 <= i <= |fetched|
      invariant var s := SweepOf(fetched[..i], env, old(db.transactions), old(db.recurring), db.faults);
                totalProcessed == s.processed && totalGenerated == s.generated
                && db.transactions == s.rows && db.recurring == s.defs
      invariant db.categories == old(db.categories) && db.tags == old(db.tags)
    {
      SweepPrefix(fetched, i, env, old(db.transactions), old(db.recurring), db.faults);
      totalProcessed, totalGenerated := ProcessNext(db, fetched[i], env, totalProcessed, totalGenerated,
                                                    SweepOf(fetched[..i], env, old(db.transactions), old(db.recurring), db.faults));
      i := i + 1;
    }
    assert fetched[..i] == fetched;
    r := Completed(totalProcessed, totalGenerated);
  }
}

=== FILE: delete_named.dfy ===
/** The delete handlers of categories and tags. They are the same
    handler over two tables: check the path id and the user, find the row,
    refuse while one of the user's transactions still uses it, delete it. */
module DeleteNamed {
  import opened Common
  import opened Http
  import opened Records
  import opened Storage

  /** Which of the two tables the handler deletes from. */
  datatype Resource = Category | Tag

  function TableOf(res: Resource): (t: Table)
    ensures t == Categories || t == Tags
  {
    match res
    case Category => Categories
    case Tag => Tags
  }

  function Noun(res: Resource): string {
    match res
    case Category => "category"
    case Tag => "tag"
  }

  function Title(res: Resource): string {
    match res
    case Category => "Category"
    case Tag => "Tag"
  }

  function DependentCode(res: Resource): string {
    match res
    case Category => "CATEGORY_HAS_DEPENDENT_TRANSACTIONS"
    case Tag => "TAG_HAS_DEPENDENT_TRANSACTIONS"
  }

  /** The transaction refers to row `id` of the table (`category_id` or
      `tag_id`). */
  predicate Uses(t: Txn, res: Resource, id: Id) {
    match res
    case Category => t.categoryId == Some(id)
    case Tag => t.tagId == Some(id)
  }

  predicate Dependent(txns: seq<Txn>, res: Resource, id: Id, user: Id) {
    exists t :: t in txns && t.userId == user && Uses(t, res, id)
  }

  /** The dependency query: the user's transactions that use the row. */
  function Dependents(txns: seq<Txn>, res: Resource, id: Id, user: Id): (r: seq<Txn>)
    ensures |r| == 0 <==> !Dependent(txns, res, id, user)
  {
    var using := Filter(txns, (t: Txn) => t.userId == user && Uses(t, res, id));
    assert Dependent(txns, res, id, user) ==> |using| > 0 by {
      if Dependent(txns, res, id, user) {
        var t :| t in txns && t.userId == user && Uses(t, res, id);
        assert t in using;
      }
    }
    assert |using| > 0 ==> Dependent(txns, res, id, user) by {
      if |using| > 0 {
        assert using[0] in using;
      }
    }
    using
  }

  /** The claim is a non-empty string. */
  predicate ValidUser(sub: Option<Json>) {
    sub.Some? && sub.value.Text? && sub.value.s != ""
  }

  /** The row lookup with `.single()`: exactly one row with this id and
      owner, and no error. */
  predicate Found(rows: seq<Named>, faults: map<Call, Fault>, res: Resource, id: Id, user: Id) {
    FaultOf(faults, TableOf(res), Select, id).None?
    && Single(Filter(rows, (n: Named) => n.id == id && n.userId == user)).Some?
  }

  /** The answer for a valid id and user, given the table, the
      transactions and the calls that fail. */
  function Decide(rows: seq<Named>, txns: seq<Txn>, faults: map<Call, Fault>, res: Resource, id: Id, user: Id)
    : (r: Response)
    ensures r.statusCode == 404 <==> !Found(rows, faults, res, id, user)
    ensures r.statusCode == 500 <==> Found(rows, faults, res, id, user) && Call(Transactions, Select, id) in faults
    ensures r.statusCode == 409 <==> Found(rows, faults, res, id, user) && Call(Transactions, Select, id) !in faults
                                     && Dependent(txns, res, id, user)
    ensures r.statusCode == 400 <==> Found(rows, faults, res, id, user) && Call(Transactions, Select, id) !in faults
                                     && !Dependent(txns, res, id, user) && Call(TableOf(res), Delete, id) in faults
    ensures r.statusCode == 200 <==> Found(rows, faults, res, id, user) && Call(Transactions, Select, id) !in faults
                                     && !Dependent(txns, res, id, user) && Call(TableOf(res), Delete, id) !in faults
    ensures r.statusCode == 200 ==> r == MessageResponse(200, Title(res) + " deleted successfully", map["id" := Text(id)])
    ensures r.statusCode == 409 ==>
              r == MessageResponse(409, "Cannot delete " + Noun(res) + " with dependent transactions",
                                   map["code" := Text(DependentCode(res))])
  {
    var fetchError := FaultOf(faults, TableOf(res), Select, id);
    if !Found(rows, faults, res, id, user) then
      MessageResponse(404, Title(res) + " not found or unauthorized",
                      map["error" := if fetchError.Some? then FaultJson(fetchError.value) else Null])
    else match FaultOf(faults, Transactions, Select, id)
      case Some(checkError) =>
        MessageResponse(500, "Error checking " + Noun(res) + " dependencies", map["error" := FaultJson(checkError)])
      case None =>
        if |Dependents(txns, res, id, user)| > 0 then
          MessageResponse(409, "Cannot delete " + Noun(res) + " with dependent transactions",
                          map["code" := Text(DependentCode(res))])
        else match FaultOf(faults, TableOf(res), Delete, id)
          case Some(deleteError) =>
            MessageResponse(400, "Error deleting " + Noun(res), map["error" := FaultJson(deleteError)])
          case None =>
            MessageResponse(200, Title(res) + " deleted successfully", map["id" := Text(id)])
  }

  function Rows(db: Store, res: Resource): seq<Named>
    reads db
  {
    match res
    case Category => db.categories
    case Tag => db.tags
  }

  /** The handler for either table. The row is deleted exactly when the
      answer is 200, and only then does the table change. */
  method DeleteResource(db: Store, res: Resource, pathId: Option<string>, sub: Option<Json>) returns (r: Response)
    modifies db
    ensures !Truthy(pathId) ==> r == MessageResponse(400, "Invalid id", map[])
    ensures Truthy(pathId) && !ValidUser(sub) ==> r == MessageResponse(401, "Unauthorized", map[])
    ensures r.statusCode == 200 ==> Truthy(pathId) && ValidUser(sub)
    ensures Truthy(pathId) && ValidUser(sub) ==>
              r == old(Decide(Rows(db, res), db.transactions, db.faults, res, pathId.value, sub.value.s))
    ensures Rows(db, res) == if r.statusCode == 200
                             then Filter(old(Rows(db, res)), (n: Named) => !(n.id == pathId.value && n.userId == sub.value.s))
                             else old(Rows(db, res))
    ensures res == Category ==> db.tags == old(db.tags)
    ensures res == Tag ==> db.categories == old(db.categories)
    ensures db.transactions == old(db.transactions) && db.recurring == old(db.recurring)
  {
    if !Truthy(pathId) {
      return MessageResponse(400, "Invalid id", map[]);
    }
    if !ValidUser(sub) {
      return MessageResponse(401, "Unauthorized", map[]);
    }
    var id, user := pathId.value, sub.value.s;
    r := Decide(Rows(db, res), db.transactions, db.faults, res, id, user);
    if r.statusCode == 200 {
      var _ := db.DeleteNamed(TableOf(res), id, user);
    }
  }

  /** After a 200 the user's row is gone, it had been there, and none of
      the user's transactions referred to it. */
  lemma DeletedOnlyWhenUnused(rows: seq<Named>, txns: seq<Txn>, faults: map<Call, Fault>, res: Resource, id: Id, user: Id)
    requires Decide(rows, txns, faults, res, id, user).statusCode == 200
    ensures exists n :: n in rows && n.id == id && n.userId == user
    ensures forall t :: t in txns && t.userId == user ==> !Uses(t, res, id)
    ensures var after := Filter(rows, (n: Named) => !(n.id == id && n.userId == user));
            && (forall n :: n in after ==> !(n.id == id && n.userId == user))
            && (forall n :: n in rows && !(n.id == id && n.userId == user) ==> n in after)
  {
    var found := Filter(rows, (n: Named) => n.id == id && n.userId == user);
    assert found[0] in found;
  }

  /** `DELETE /categories/{id}` */
  method DeleteCategory(db: Store, pathId: Option<string>, sub: Option<Json>) returns (r: Response)
    modifies db
    ensures !Truthy(pathId) ==> r == MessageResponse(400, "Invalid id", map[])
    ensures Truthy(pathId) && !ValidUser(sub) ==> r == MessageResponse(401, "Unauthorized", map[])
    ensures Truthy(pathId) && ValidUser(sub) ==>
              r == old(Decide(db.categories, db.transactions, db.faults, Category, pathId.value, sub.value.s))
    ensures db.categories == if r.statusCode == 200
                             then Filter(old(db.categories), (n: Named) => !(n.id == pathId.value && n.userId == sub.value.s))
                             else old(db.categories)
    ensures db.tags == old(db.tags) && db.transactions == old(db.transactions) && db.recurring == old(db.recurring)
  {
    r := DeleteResource(db, Category, pathId, sub);
  }

  /** `DELETE /tags/{id}` */
  method DeleteTag(db: Store, pathId: Option<string>, sub: Option<Json>) returns (r: Response)
    modifies db
    ensures !Truthy(pathId) ==> r == MessageResponse(400, "Invalid id", map[])
    ensures Truthy(pathId) && !ValidUser(sub) ==> r == MessageResponse(401, "Unauthorized", map[])
    ensures Truthy(pathId) && ValidUser(sub) ==>
              r == old(Decide(db.tags, db.transactions, db.faults, Tag, pathId.value, sub.value.s))
    ensures db.tags == if r.statusCode == 200
                       then Filter(old(db.tags), (n: Named) => !(n.id == pathId.value && n.userId == sub.value.s))
                       else old(db.tags)
    ensures db.categories == old(db.categories) && db.transactions == old(db.transactions) && db.recurring == old(db.recurring)
  {
    r := DeleteResource(db, Tag, pathId, sub);
  }
}

=== FILE: error_middleware.dfy ===
/** The error-handling middleware: the application's error classes, the
    translation of whatever a handler throws into a response, and the
    composition of middlewares. */
module ErrorMiddleware {
  import opened Common
  import opened Http
  import RB = ResponseBuilder

  /** An `AppError`: status, code, message and optional details. */
  datatype AppError = AppError(statusCode: int, code: string, message: string, details: Option<map<string, Json>>)

  function ValidationError(message: string, details: Option<map<string, Json>>): (e: AppError)
    ensures e.statusCode == 400 && e.code == "VALIDATION_ERROR" && e.message == message && e.details == details
  {
    AppError(400, "VALIDATION_ERROR", message, details)
  }

  function NotFoundError(resource: Option<string>): (e: AppError)
    ensures e.statusCode == 404 && e.code == "NOT_FOUND" && e.details.None?
    ensures e.message == if Truthy(resource) then resource.value + " not found" else "Resource not found"
  {
    AppError(404, "NOT_FOUND", RB.NotFoundMessage(resource), None)
  }

  /** The message parameter defaults to "Unauthorized" only when omitted. */
  function UnauthorizedError(message: Option<string>): (e: AppError)
    ensures e.statusCode == 401 && e.code == "UNAUTHORIZED" && e.details.None?
    ensures e.message == if message.Some? then message.value else "Unauthorized"
  {
    AppError(401, "UNAUTHORIZED", message.GetOr("Unauthorized"), None)
  }

  function ForbiddenError(message: Option<string>): (e: AppError)
    ensures e.statusCode == 403 && e.code == "FORBIDDEN" && e.details.None?
    ensures e.message == if message.Some? then message.value else "Forbidden"
  {
    AppError(403, "FORBIDDEN", message.GetOr("Forbidden"), None)
  }

  /** The code falls back to "CONFLICT" when it is absent or empty. */
  function ConflictError(message: string, code: Option<string>): (e: AppError)
    ensures e.statusCode == 409 && e.message == message && e.details.None?
    ensures e.code == if Truthy(code) then code.value else "CONFLICT"
  {
    AppError(409, RB.OrDefault(code, "CONFLICT"), message, None)
  }

  /** One zod issue. */
  datatype Issue = Issue(path: seq<string>, message: string)

  /** What a handler throws: an `AppError`, or any other value, seen through
      the properties the middleware tests: whether it is an `Error`, and its
      `message`, `issues` and `code` when it has them. */
  datatype Thrown =
    | App(error: AppError)
    | Other(isError: bool, message: Option<string>, issues: Option<seq<Issue>>, code: Option<string>)

  /** `path.join('.')` */
  function JoinPath(path: seq<string>): string
    decreases |path|
  {
    if path == [] then ""
    else if |path| == 1 then path[0]
    else JoinPath(path[..|path| - 1]) + "." + path[|path| - 1]
  }

  /** The `validationErrors` fold: each issue writes its message under its
      joined path. */
  function ValidationDetails(issues: seq<Issue>): (acc: map<string, string>)
    ensures forall k :: k in acc <==> exists i :: 0 <= i < |issues| && JoinPath(issues[i].path) == k
    decreases |issues|
  {
    if issues == [] then map[]
    else
      var last := issues[|issues| - 1];
      var init := ValidationDetails(issues[..|issues| - 1]);
      assert forall i :: 0 <= i < |issues| - 1 ==> issues[..|issues| - 1][i] == issues[i];
      init[JoinPath(last.path) := last.message]
  }

  /** A later issue with the same path overwrites an earlier one: the value
      under a path is the message of the last issue with that path. */
  lemma {:induction false} LastIssueWins(issues: seq<Issue>, i: nat)
    requires i < |issues|
    requires forall j :: i < j < |issues| ==> JoinPath(issues[j].path) != JoinPath(issues[i].path)
    ensures ValidationDetails(issues)[JoinPath(issues[i].path)] == issues[i].message
    decreases |issues|
  {
    if i < |issues| - 1 {
      var init := issues[..|issues| - 1];
      assert init[i] == issues[i];
      LastIssueWins(init, i);
    }
  }

  /** The fold, writing into its accumulator. */
  method ValidationErrors(issues: seq<Issue>) returns (acc: map<string, string>)
    ensures acc == ValidationDetails(issues)
  {
    acc := map[];
    var i := 0;
    while i < |issues|
      invariant 0 <= i <= |issues|
      invariant acc == ValidationDetails(issues[..i])
    {
      assert issues[..i + 1][..i] == issues[..i];
      var field := JoinPath(issues[i].path);
      acc := acc[field := issues[i].message];
      i := i + 1;
    }
    assert issues[..i] == issues;
  }

  function AsJson(details: map<string, string>): (r: map<string, Json>)
    ensures r.Keys == details.Keys
    ensures forall k :: k in r ==> r[k] == Text(details[k])
  {
    map k | k in details :: Text(details[k])
  }

  /** The response for an `AppError`: its own status and code, with
      `details` and `requestId` only when present. */
  function AppErrorResponse(e: AppError, requestId: Option<string>): (r: Response)
    ensures RB.IsError(r, e.statusCode, e.code, e.message)
    ensures RB.ErrorKeys(r) == {"code", "message"} + (if e.details.Some? then {"details"} else {})
                               + (if Truthy(requestId) then {"requestId"} else {})
  {
    var error := map["code" := Text(e.code), "message" := Text(e.message)];
    var detailed := if e.details.Some? then error["details" := Object(e.details.value)] else error;
    var full := if Truthy(requestId) then detailed["requestId" := Text(requestId.value)] else detailed;
    RB.Custom(e.statusCode, map["success" := Bool(false), "error" := Object(full)])
  }

  /** What `withErrorHandling` answers for what the wrapped handler did. */
  function Classify(outcome: Result<Response, Thrown>, requestId: Option<string>, isDevelopment: bool): (r: Response)
    ensures outcome.Ok? ==> r == outcome.value
    ensures outcome.Err? && outcome.error.App? ==> r.statusCode == outcome.error.error.statusCode
  {
    match outcome
    case Ok(response) => response
    case Err(App(e)) => AppErrorResponse(e, requestId)
    case Err(Other(isError, message, issues, code)) =>
      if issues.Some? then RB.BadRequest("Validation failed", Some(AsJson(ValidationDetails(issues.value))))
      else if code.Some? && message.Some? && code.value == "PGRST116" then RB.NotFound(None)
      else if code.Some? && message.Some? && code.value == "23505" then RB.Conflict("Resource already exists", Some("DUPLICATE"))
      else if code.Some? && message.Some? && code.value == "23503" then
        RB.Conflict("Operation would violate data integrity", Some("FOREIGN_KEY_VIOLATION"))
      else RB.InternalError(if isDevelopment && isError then message else None, requestId)
  }

  /** `withErrorHandling(handler)` applied to the handler's outcome. */
  method WithErrorHandling(outcome: Result<Response, Thrown>, requestId: Option<string>, isDevelopment: bool)
    returns (r: Response)
    ensures r == Classify(outcome, requestId, isDevelopment)
  {
    if outcome.Ok? {
      return outcome.value;
    }
    match outcome.error
    case App(e) =>
      r := AppErrorResponse(e, requestId);
    case Other(isError, message, issues, code) =>
      if issues.Some? {
        var validationErrors := ValidationErrors(issues.value);
        r := RB.BadRequest("Validation failed", Some(AsJson(validationErrors)));
      } else {
        r := Classify(outcome, requestId, isDevelopment);
      }
  }

  /** The classification of thrown values that are not `AppError`s. */
  lemma ClassifyOther(isError: bool, message: Option<string>, issues: Option<seq<Issue>>, code: Option<string>,
                      requestId: Option<string>, isDevelopment: bool)
    ensures var r := Classify(Err(Other(isError, message, issues, code)), requestId, isDevelopment);
            var db := issues.None? && code.Some? && message.Some?;
            (issues.Some? ==> RB.IsError(r, 400, "BAD_REQUEST", "Validation failed"))
            && (db && code.value == "PGRST116" ==> RB.IsError(r, 404, "NOT_FOUND", "Resource not found"))
            && (db && code.value == "23505" ==> RB.IsError(r, 409, "DUPLICATE", "Resource already exists"))
            && (db && code.value == "23503" ==> RB.IsError(r, 409, "FOREIGN_KEY_VIOLATION", "Operation would violate data integrity"))
            && (issues.None? && !(db && code.value in {"PGRST116", "23505", "23503"}) ==>
                  RB.IsError(r, 500, "INTERNAL_SERVER_ERROR",
                             if isDevelopment && isError && Truthy(message) then message.value else "An unexpected error occurred"))
  {
    var r := Classify(Err(Other(isError, message, issues, code)), requestId, isDevelopment);
    var db := issues.None? && code.Some? && message.Some?;
    if issues.Some? {
      assert r == RB.BadRequest("Validation failed", Some(AsJson(ValidationDetails(issues.value))));
    } else if db && code.value == "PGRST116" {
      assert r == RB.NotFound(None);
      assert code.value != "23505" && code.value != "23503";
    } else if db && code.value == "23505" {
      assert r == RB.Conflict("Resource already exists", Some("DUPLICATE"));
      assert code.value != "23503";
    } else if db && code.value == "23503" {
      assert r == RB.Conflict("Operation would violate data integrity", Some("FOREIGN_KEY_VIOLATION"));
    } else {
      assert r == RB.InternalError(if isDevelopment && isError then message else None, requestId);
      assert !(db && code.value in {"PGRST116", "23505", "23503"});
    }
  }

  /** `compose(middlewares)(handler)`: a `reduceRight` applying the last
      middleware first. */
  function Compose<H>(middlewares: seq<H -> H>, handler: H): H
    decreases |middlewares|
  {
    if middlewares == [] then handler
    else Compose(middlewares[..|middlewares| - 1], middlewares[|middlewares| - 1](handler))
  }

  /** The first middleware is the outermost: `compose([m1..mn])(h) =
      m1(compose([m2..mn])(h))`. */
  lemma {:induction false} ComposeOutermost<H>(middlewares: seq<H -> H>, handler: H)
    requires middlewares != []
    ensures Compose(middlewares, handler) == middlewares[0](Compose(middlewares[1..], handler))
    decreases |middlewares|
  {
    if |middlewares| > 1 {
      var init := middlewares[..|middlewares| - 1];
      var last := middlewares[|middlewares| - 1];
      ComposeOutermost(init, last(handler));
      assert init[1..] == middlewares[1..][..|middlewares[1..]| - 1];
    }
  }

  /** Composing a concatenation nests the compositions. */
  lemma {:induction false} ComposeAppend<H>(outer: seq<H -> H>, inner: seq<H -> H>, handler: H)
    ensures Compose(outer + inner, handler) == Compose(outer, Compose(inner, handler))
    decreases |inner|
  {
    if inner == [] {
      assert outer + inner == outer;
    } else {
      var init := inner[..|inner| - 1];
      var last := inner[|inner| - 1];
      assert (outer + inner)[..|outer + inner| - 1] == outer + init;
      ComposeAppend(outer, init, last(handler));
    }
  }
}

=== FILE: http.dfy ===
/** The values handlers exchange with the HTTP gateway: JSON documents,
    request bodies and responses. */
module Http {
  import opened Common
  import opened Storage

  /** A JSON value. Numbers are integers in this model; object key order is
      not kept. */
  datatype Json =
    | Null
    | Bool(b: bool)
    | Number(n: int)
    | Text(s: string)
    | Array(elems: seq<Json>)
    | Object(fields: map<string, Json>)

  /** `if (x)` on a JSON value. */
  predicate JsonTruthy(j: Json) {
    match j
    case Null => false
    case Bool(b) => b
    case Number(n) => n != 0
    case Text(s) => s != []
    case Array(_) => true
    case Object(_) => true
  }

  /** `obj.key` on a parsed body: absent when the body is not an object or
      has no such key. */
  function Member(j: Json, key: string): Option<Json> {
    if j.Object? && key in j.fields then Some(j.fields[key]) else None
  }

  /** The raw request body: none (or empty), text that is not JSON (with
      the parser's error message), or a JSON document. */
  datatype RequestBody = NoBody | Malformed(message: string) | Body(json: Json)

  /** `JSON.parse(event.body || '{}')`: `Err` carries the message of the
      `SyntaxError` it throws. */
  function ParseBody(b: RequestBody): (r: Result<Json, string>)
    ensures b.NoBody? ==> r == Ok(Object(map[]))
    ensures r.Err? <==> b.Malformed?
  {
    match b
    case NoBody => Ok(Object(map[]))
    case Malformed(message) => Err(message)
    case Body(json) => Ok(json)
  }

  /** A gateway response; `body` is the JSON text, `None` for the empty
      body. */
  datatype Response = Response(statusCode: int, body: Option<Json>)

  /** The response `{statusCode, body: JSON.stringify({message, ...extra})}`
      the handlers build by hand. */
  function MessageResponse(statusCode: int, message: string, extra: map<string, Json>): (r: Response)
    ensures r.statusCode == statusCode
    ensures r.body.Some? && r.body.value.Object? && "message" in r.body.value.fields
    ensures r.body.value.fields["message"] == Text(message)
    ensures forall k :: k in extra && k != "message" ==> k in r.body.value.fields && r.body.value.fields[k] == extra[k]
  {
    Response(statusCode, Some(Object(extra[ "message" := Text(message)])))
  }

  /** A storage error as it appears in a response body. */
  function FaultJson(f: Fault): Json {
    Object(map["message" := Text(f.message)])
  }
}

=== FILE: occurrences.dfy ===
/** The rule library's occurrence expansion. Its algorithm is not part of this
    model: an expansion is any function from a query to a list of instants,
    and the only thing assumed of it, where a caller needs it, is that
    `between(after, before, true)` stays inside its bounds. */
module Occurrences {
  import opened Common
  import opened Calendar
  import opened RRuleConverter

  /** `all()` or `between(after, before, inclusive = true)`. */
  datatype Span = All | Between(after: Timestamp, before: Timestamp)

  /** The `bymonthday`, `byhour`, `byminute` and `bysecond` the feed pins a
      rebuilt rule to. */
  datatype Pin = Pin(monthDay: int, hour: int, minute: int, second: int)

  /** A rule built with these options and this `dtstart`, asked for `span`. */
  datatype RuleQuery = RuleQuery(options: RuleOptions, dtstart: Timestamp, pin: Option<Pin>, span: Span)

  type Expander = RuleQuery -> seq<Timestamp>

  /** The library's promise for `between(after, before, true)`. */
  ghost predicate HonoursBetween(expand: Expander) {
    forall q: RuleQuery, i: int :: q.span.Between? && 0 <= i < |expand(q)| ==>
      q.span.after <= expand(q)[i] <= q.span.before
  }

  /** UTC calendar fields of an instant, as `getUTCDate()`, `getUTCHours()`,
      `getUTCMinutes()` and `getUTCSeconds()` give them. */
  function UtcDate(t: Timestamp): Civil {
    CivilFromDays(t / MsPerDay)
  }

  function UtcPin(t: Timestamp): (p: Pin)
    ensures 0 <= p.hour < 24 && 0 <= p.minute < 60 && 0 <= p.second < 60
  {
    var time := t % MsPerDay;
    Pin(UtcDate(t).day, time / 3_600_000, time % 3_600_000 / 60_000, time % 60_000 / MsPerSecond)
  }

  /** What the process supplies: the clock, the local zone's offset, the rule
      library's expansion and the source of fresh ids (`crypto.randomUUID`,
      `uuidv4`), asked for the id of a record of a definition at an instant. */
  datatype Env = Env(now: Timestamp, offset: int, expand: Expander, mint: (Id, Timestamp) -> Id)
}

=== FILE: records.dfy ===
/** The rows of the tables the recurring-transaction engine reads and writes. */
module Records {
  import opened Common
  import opened Calendar

  /** The `type` column: 'income' | 'outcome'. */
  datatype Kind = Income | Outcome

  function KindName(k: Kind): string {
    match k
    case Income => "income"
    case Outcome => "outcome"
  }

  /** A row of `transactions`. The three descriptions are what the feed's
      select joins in (`payment_status(*)`, `categories(*)`, `tags(*)`), absent
      when the row has no such link; `isVirtual` and `isRecurringGenerated` are
      the flags the feed puts on records computed from a definition. */
  datatype Txn = Txn(
    id: Id,
    description: string,
    kind: Kind,
    amount: int,
    date: Timestamp,
    note: Option<string>,
    userId: Id,
    recurrentId: Option<Id>,
    categoryId: Option<Id>,
    tagId: Option<Id>,
    paymentStatusId: Option<Id>,
    paymentStatus: Option<string>,
    category: Option<string>,
    tag: Option<string>,
    createdAt: Timestamp,
    updatedAt: Timestamp,
    isVirtual: bool,
    isRecurringGenerated: bool)

  /** A row of `recurring_transactions`: the definition of a series. */
  datatype Definition = Definition(
    id: Id,
    userId: Id,
    description: string,
    kind: Kind,
    amount: int,
    note: Option<string>,
    recurrenceRule: string,
    startDate: Timestamp,
    endDate: Option<Timestamp>,
    lastGeneratedAt: Option<Timestamp>,
    createdAt: Timestamp,
    updatedAt: Timestamp)

  /** A row of `categories` or of `tags`. */
  datatype Named = Named(id: Id, userId: Id, description: string)

  /** The user owns a definition with this id. */
  predicate HasDefinition(defs: seq<Definition>, id: Id, userId: Id) {
    exists d :: d in defs && d.id == id && d.userId == userId
  }

  /** The transaction is one of `def`'s occurrences, stored for its owner:
      the filter `user_id = def.user_id and recurrent_transaction_id = def.id`. */
  predicate LinkedTo(t: Txn, def: Definition) {
    t.userId == def.userId && t.recurrentId == Some(def.id)
  }

  /** A record `v` carries the definition's fields, points back to it and has no
      payment status, category or tag. */
  predicate CopiesDefinition(v: Txn, def: Definition) {
    v.description == def.description && v.kind == def.kind && v.amount == def.amount
    && v.note == def.note && v.userId == def.userId && v.recurrentId == Some(def.id)
    && v.paymentStatus.None? && v.category.None? && v.tag.None?
  }
}

=== FILE: recurring_service.dfy ===
/** `RecurringTransactionService`: listing, ownership-checked update and
    detach-then-delete of recurring definitions. */
module RecurringService {
  import opened Common
  import opened Calendar
  import opened Records
  import opened Storage
  import opened StableSort

  /** The error the service returns when the ownership check fails. */
  const NotFoundOrUnauthorized := Fault(true, "Recurring transaction not found or unauthorized")

  /** `created_at`, the listing's order key. */
  function CreatedAtKey(d: Definition): SortKey {
    Num(d.createdAt)
  }

  /** The rows the listing query selects: the user's definitions, and with
      a start date only those with no end date or one not before it. */
  predicate Listed(d: Definition, userId: Id, startDate: Option<Timestamp>) {
    d.userId == userId && (startDate.None? || d.endDate.None? || d.endDate.value >= startDate.value)
  }

  /** The RangeError `toISOString` throws on an invalid date. */
  const InvalidTimeValue := Fault(true, "Invalid time value")

  /** The instant the listing filters on: none when `startDate` is absent or
      empty (falsy); otherwise `new Date(startDate)`, given as `parseDate`,
      and a date it cannot read makes `toISOString` throw. */
  function StartFilter(startDate: Option<string>, parseDate: string -> Option<Timestamp>)
    : (r: Result<Option<Timestamp>, Fault>)
    ensures r.Err? <==> startDate.Some? && startDate.value != [] && parseDate(startDate.value).None?
    ensures r.Err? ==> r.error == InvalidTimeValue
    ensures r.Ok? && r.value.None? <==> startDate.None? || startDate.value == []
    ensures r.Ok? && r.value.Some? ==> startDate.Some? && r.value == parseDate(startDate.value)
  {
    match startDate
    case None => Ok(None)
    case Some(text) =>
      if text == [] then Ok(None)
      else match parseDate(text)
        case None => Err(InvalidTimeValue)
        case Some(t) => Ok(Some(t))
  }

  /** `getRecurringTransactions(userId, {startDate})`: an invalid start date
      fails before the query runs; otherwise the query's error, or the
      user's listed rows newest first. */
  function GetRecurringTransactions(db: Store, userId: Id, startDate: Option<string>,
                                    parseDate: string -> Option<Timestamp>)
    : (r: Result<seq<Definition>, Fault>)
    reads db
    ensures StartFilter(startDate, parseDate).Err? ==> r == Err(InvalidTimeValue)
    ensures StartFilter(startDate, parseDate).Ok? ==>
              (r.Err? <==> db.FaultAt(RecurringTransactions, Select, userId).Some?)
    ensures StartFilter(startDate, parseDate).Ok? && r.Err? ==>
              r.error == db.FaultAt(RecurringTransactions, Select, userId).value
    ensures r.Ok? ==> StartFilter(startDate, parseDate).Ok?
    ensures r.Ok? ==> var since := StartFilter(startDate, parseDate).value;
              forall i :: 0 <= i < |r.value| ==> Listed(r.value[i], userId, since)
    ensures r.Ok? ==> var since := StartFilter(startDate, parseDate).value;
              forall d :: d in db.recurring && Listed(d, userId, since) ==> d in r.value
    ensures r.Ok? ==> var since := StartFilter(startDate, parseDate).value;
              multiset(r.value) == multiset(Filter(db.recurring, (d: Definition) => Listed(d, userId, since)))
    ensures r.Ok? ==> Ordered(r.value, CreatedAtKey, true)
  {
    match StartFilter(startDate, parseDate)
    case Err(e) => Err(e)
    case Ok(since) =>
      match db.FaultAt(RecurringTransactions, Select, userId)
      case Some(f) => Err(f)
      case None =>
        var rows := Filter(db.recurring, (d: Definition) => Listed(d, userId, since));
        var sorted := Sort(rows, CreatedAtKey, true);
        SortKeepsMembers(rows, CreatedAtKey, true);
        assert forall i :: 0 <= i < |sorted| ==> sorted[i] in rows;
        Ok(sorted)
  }

  lemma SortKeepsMembers<T>(s: seq<T>, key: T -> SortKey, desc: bool)
    ensures forall x :: x in Sort(s, key, desc) <==> x in s
  {
    forall x ensures x in Sort(s, key, desc) <==> x in s {
      assert x in Sort(s, key, desc) <==> x in multiset(Sort(s, key, desc));
      assert x in s <==> x in multiset(s);
    }
  }

  /** A value of the update payload, typed by its column. */
  datatype Cell = TextCell(s: string) | KindCell(k: Kind) | IntCell(n: int) | TimeCell(t: Timestamp) | NullCell

  /** The columns an update may set. */
  datatype Column =
    | DescriptionColumn | TypeColumn | AmountColumn | RecurrenceRuleColumn
    | StartDateColumn | EndDateColumn | NoteColumn

  /** The column's name in `recurring_transactions`. */
  function ColumnName(c: Column): string {
    match c
    case DescriptionColumn => "description"
    case TypeColumn => "type"
    case AmountColumn => "amount"
    case RecurrenceRuleColumn => "recurrence_rule"
    case StartDateColumn => "start_date"
    case EndDateColumn => "end_date"
    case NoteColumn => "note"
  }

  /** The partial update: columns to their new values. */
  type UpdateData = map<Column, Cell>

  /** The value has the column's type; only `end_date` takes `null`. */
  predicate Fits(c: Column, v: Cell) {
    match c
    case DescriptionColumn => v.TextCell?
    case TypeColumn => v.KindCell?
    case AmountColumn => v.IntCell?
    case RecurrenceRuleColumn => v.TextCell?
    case StartDateColumn => v.TimeCell?
    case EndDateColumn => v.TimeCell? || v.NullCell?
    case NoteColumn => v.TextCell?
  }

  predicate WellTyped(data: UpdateData) {
    forall c :: c in data ==> Fits(c, data[c])
  }

  /** The row after `update({...updateData, updated_at: now})`. */
  function Patched(d: Definition, data: UpdateData, now: Timestamp): (r: Definition)
    requires WellTyped(data)
    ensures r.id == d.id && r.userId == d.userId && r.createdAt == d.createdAt
    ensures r.lastGeneratedAt == d.lastGeneratedAt && r.updatedAt == now
  {
    d.(description := if DescriptionColumn in data then data[DescriptionColumn].s else d.description,
       kind := if TypeColumn in data then data[TypeColumn].k else d.kind,
       amount := if AmountColumn in data then data[AmountColumn].n else d.amount,
       recurrenceRule := if RecurrenceRuleColumn in data then data[RecurrenceRuleColumn].s else d.recurrenceRule,
       startDate := if StartDateColumn in data then data[StartDateColumn].t else d.startDate,
       endDate := if EndDateColumn !in data then d.endDate
                  else if data[EndDateColumn].NullCell? then None else Some(data[EndDateColumn].t),
       note := if NoteColumn in data then Some(data[NoteColumn].s) else d.note,
       updatedAt := now)
  }

  /** An empty update only moves `updated_at`. */
  lemma EmptyUpdateTouchesOnlyTimestamp(d: Definition, now: Timestamp)
    ensures Patched(d, map[], now) == d.(updatedAt := now)
  {
  }

  /** The user's definitions under `id`: what `.eq("id", id).eq("user_id", userId)` selects. */
  function Matching(defs: seq<Definition>, id: Id, userId: Id): (r: seq<Definition>)
    ensures forall d :: d in r <==> d in defs && d.id == id && d.userId == userId
  {
    Filter(defs, (d: Definition) => d.id == id && d.userId == userId)
  }

  /** The ownership check, `select().eq("id", id).eq("user_id", userId).single()`,
      on a table and the calls that fail. */
  function OwnedIn(defs: seq<Definition>, faults: map<Call, Fault>, id: Id, userId: Id): (r: Result<Definition, Fault>)
    ensures r.Ok? <==> FaultOf(faults, RecurringTransactions, Select, id).None? && |Matching(defs, id, userId)| == 1
    ensures r.Ok? ==> r.value in defs && r.value.id == id && r.value.userId == userId
    ensures r.Err? ==> r.error == NotFoundOrUnauthorized
  {
    if FaultOf(faults, RecurringTransactions, Select, id).Some? then Err(NotFoundOrUnauthorized)
    else match Single(Matching(defs, id, userId))
      case None => Err(NotFoundOrUnauthorized)
      case Some(d) => Ok(d)
  }

  /** The ownership check on the store. */
  function Owned(db: Store, id: Id, userId: Id): (r: Result<Definition, Fault>)
    reads db
    ensures r.Ok? ==> r.value in db.recurring && r.value.id == id && r.value.userId == userId
    ensures r.Ok? ==> db.FaultAt(RecurringTransactions, Select, id).None?
    ensures r.Err? ==> r.error == NotFoundOrUnauthorized
  {
    OwnedIn(db.recurring, db.faults, id, userId)
  }

  /** The table after patching the row with this id and owner. */
  function PatchRows(rows: seq<Definition>, id: Id, userId: Id, data: UpdateData, now: Timestamp): (r: seq<Definition>)
    requires WellTyped(data)
    ensures |r| == |rows|
    ensures forall i :: 0 <= i < |rows| ==>
              r[i] == if rows[i].id == id && rows[i].userId == userId then Patched(rows[i], data, now) else rows[i]
  {
    Map(rows, (d: Definition) => if d.id == id && d.userId == userId then Patched(d, data, now) else d)
  }

  /** `updateRecurringTransaction(id, userId, updateData)`. */
  method UpdateRecurringTransaction(db: Store, id: Id, userId: Id, data: UpdateData, now: Timestamp)
    returns (r: Result<Definition, Fault>)
    requires WellTyped(data)
    modifies db
    ensures old(Owned(db, id, userId)).Err? ==> r == Err(NotFoundOrUnauthorized) && db.recurring == old(db.recurring)
    ensures old(Owned(db, id, userId)).Ok? && db.FaultAt(RecurringTransactions, Update, id).Some? ==>
              r == Err(db.FaultAt(RecurringTransactions, Update, id).value) && db.recurring == old(db.recurring)
    ensures old(Owned(db, id, userId)).Ok? && db.FaultAt(RecurringTransactions, Update, id).None? ==>
              r == Ok(Patched(old(Owned(db, id, userId)).value, data, now))
              && db.recurring == PatchRows(old(db.recurring), id, userId, data, now)
    ensures db.transactions == old(db.transactions) && db.categories == old(db.categories) && db.tags == old(db.tags)
  {
    var existing := Owned(db, id, userId);
    if existing.Err? {
      return Err(NotFoundOrUnauthorized);
    }
    var change := (d: Definition) => Patched(d, data, now);
    var err := db.UpdateDefinitions(id, userId, change);
    if err.Some? {
      return Err(err.value);
    }
    assert db.recurring == PatchRows(old(db.recurring), id, userId, data, now);
    r := Ok(Patched(existing.value, data, now));
  }

  /** An update changes only the row with that id and owner. */
  lemma PatchRowsKeepsOthers(rows: seq<Definition>, id: Id, userId: Id, data: UpdateData, now: Timestamp, i: nat)
    requires WellTyped(data) && i < |rows|
    requires rows[i].id != id || rows[i].userId != userId
    ensures PatchRows(rows, id, userId, data, now)[i] == rows[i]
  {
  }

  /** `deleteRecurringTransaction(id, userId)`: unlink the user's
      transactions from the definition, then delete the definition. */
  method DeleteRecurringTransaction(db: Store, id: Id, userId: Id) returns (r: Result<Definition, Fault>)
    modifies db
    ensures old(Owned(db, id, userId)).Err? ==>
              r == Err(NotFoundOrUnauthorized)
              && db.transactions == old(db.transactions) && db.recurring == old(db.recurring)
    ensures old(Owned(db, id, userId)).Ok? && db.FaultAt(Transactions, Update, id).Some? ==>
              r == Err(db.FaultAt(Transactions, Update, id).value)
              && db.transactions == old(db.transactions) && db.recurring == old(db.recurring)
    ensures old(Owned(db, id, userId)).Ok? && db.FaultAt(Transactions, Update, id).None? ==>
              db.transactions == Map(old(db.transactions), (t: Txn) => Detached(t, id, userId))
    ensures old(Owned(db, id, userId)).Ok? && db.FaultAt(Transactions, Update, id).None?
            && db.FaultAt(RecurringTransactions, Delete, id).Some? ==>
              r == Err(db.FaultAt(RecurringTransactions, Delete, id).value) && db.recurring == old(db.recurring)
    ensures old(Owned(db, id, userId)).Ok? && db.FaultAt(Transactions, Update, id).None?
            && db.FaultAt(RecurringTransactions, Delete, id).None? ==>
              r == Ok(old(Owned(db, id, userId)).value)
              && db.recurring == Filter(old(db.recurring), (d: Definition) => !(d.id == id && d.userId == userId))
    ensures db.categories == old(db.categories) && db.tags == old(db.tags)
  {
    var existing := Owned(db, id, userId);
    if existing.Err? {
      return Err(NotFoundOrUnauthorized);
    }
    var err := db.DetachTransactions(id, userId);
    if err.Some? {
      return Err(err.value);
    }
    err := db.DeleteDefinition(id, userId);
    if err.Some? {
      return Err(err.value);
    }
    r := Ok(existing.value);
  }

  /** Detaching keeps every transaction, with all its other fields, and
      leaves none of the user's transactions linked to the definition. */
  lemma DetachKeepsRows(rows: seq<Txn>, id: Id, userId: Id)
    ensures var after := Map(rows, (t: Txn) => Detached(t, id, userId));
            && |after| == |rows|
            && (forall i :: 0 <= i < |rows| ==> after[i] == rows[i].(recurrentId := after[i].recurrentId))
            && (forall i :: 0 <= i < |rows| ==> !(after[i].userId == userId && after[i].recurrentId == Some(id)))
            && (forall i :: 0 <= i < |rows| && !(rows[i].userId == userId && rows[i].recurrentId == Some(id)) ==>
                  after[i] == rows[i])
  {
  }

  /** After a successful delete no definition with that id and owner is
      left, and every other definition is. */
  lemma DeleteRemovesOnlyTarget(rows: seq<Definition>, id: Id, userId: Id)
    ensures var after := Filter(rows, (d: Definition) => !(d.id == id && d.userId == userId));
            && (forall d :: d in after ==> !(d.id == id && d.userId == userId))
            && (forall d :: d in rows && !(d.id == id && d.userId == userId) ==> d in after)
  {
  }
}

=== FILE: response_builder.dfy ===
/** The standard responses of the presentation layer: a success envelope
    `{success: true, ...}` and an error envelope
    `{success: false, error: {code, message, ...}}`. */
module ResponseBuilder {
  import opened Common
  import opened Http

  /** The error envelope with this code and message, and `extra` keys
      beside them in `error`. */
  function ErrorEnvelope(statusCode: int, code: string, message: string, extra: map<string, Json>): Response {
    var error := extra["code" := Text(code)]["message" := Text(message)];
    Response(statusCode, Some(Object(map["success" := Bool(false), "error" := Object(error)])))
  }

  /** The response is an error envelope with this status, code and message. */
  predicate IsError(r: Response, statusCode: int, code: string, message: string) {
    r.statusCode == statusCode
    && r.body.Some? && r.body.value.Object?
    && "success" in r.body.value.fields && r.body.value.fields["success"] == Bool(false)
    && "error" in r.body.value.fields && r.body.value.fields["error"].Object?
    && var e := r.body.value.fields["error"].fields;
       "code" in e && e["code"] == Text(code) && "message" in e && e["message"] == Text(message)
  }

  /** The keys of the `error` object of an error envelope. */
  function ErrorKeys(r: Response): set<string>
    requires r.body.Some? && r.body.value.Object? && "error" in r.body.value.fields
    requires r.body.value.fields["error"].Object?
  {
    r.body.value.fields["error"].fields.Keys
  }

  /** `message || fallback` */
  function OrDefault(message: Option<string>, fallback: string): (r: string)
    ensures Truthy(message) ==> r == message.value
    ensures !Truthy(message) ==> r == fallback
  {
    if Truthy(message) then message.value else fallback
  }

  /** `ResponseBuilder.ok(data, metadata)`: `pagination` and `stats` appear
      exactly when supplied. */
  function Ok(data: Json, pagination: Option<Json>, stats: Option<Json>): (r: Response)
    ensures r.statusCode == 200 && r.body.Some? && r.body.value.Object?
    ensures var m := r.body.value.fields;
            "success" in m && m["success"] == Bool(true) && "data" in m && m["data"] == data
            && ("pagination" in m <==> pagination.Some?) && ("stats" in m <==> stats.Some?)
            && (pagination.Some? ==> m["pagination"] == pagination.value)
            && (stats.Some? ==> m["stats"] == stats.value)
            && m.Keys <= {"success", "data", "pagination", "stats"}
  {
    var base := map["success" := Bool(true), "data" := data];
    var paged := if pagination.Some? then base["pagination" := pagination.value] else base;
    Response(200, Some(Object(if stats.Some? then paged["stats" := stats.value] else paged)))
  }

  /** `ResponseBuilder.created(data, message)` */
  function Created(data: Json, message: Option<string>): (r: Response)
    ensures r.statusCode == 201 && r.body.Some? && r.body.value.Object?
    ensures var m := r.body.value.fields;
            "success" in m && m["success"] == Bool(true) && "data" in m && m["data"] == data
            && "message" in m
            && m["message"] == Text(if Truthy(message) then message.value else "Resource created successfully")
  {
    Response(201, Some(Object(map["success" := Bool(true),
                                  "message" := Text(OrDefault(message, "Resource created successfully")),
                                  "data" := data])))
  }

  /** `ResponseBuilder.noContent()` */
  function NoContent(): (r: Response)
    ensures r.statusCode == 204 && r.body.None?
  {
    Response(204, None)
  }

  /** `ResponseBuilder.badRequest(message, errors)`: `details` appears
      exactly when errors are given. */
  function BadRequest(message: string, errors: Option<map<string, Json>>): (r: Response)
    ensures IsError(r, 400, "BAD_REQUEST", message)
    ensures ErrorKeys(r) == {"code", "message"} + (if errors.Some? then {"details"} else {})
    ensures errors.Some? ==> r.body.value.fields["error"].fields["details"] == Object(errors.value)
  {
    ErrorEnvelope(400, "BAD_REQUEST", message, if errors.Some? then map["details" := Object(errors.value)] else map[])
  }

  /** `ResponseBuilder.unauthorized(message)` */
  function Unauthorized(message: Option<string>): (r: Response)
    ensures IsError(r, 401, "UNAUTHORIZED", if Truthy(message) then message.value else "Authentication required")
    ensures ErrorKeys(r) == {"code", "message"}
  {
    ErrorEnvelope(401, "UNAUTHORIZED", OrDefault(message, "Authentication required"), map[])
  }

  /** `ResponseBuilder.forbidden(message)` */
  function Forbidden(message: Option<string>): (r: Response)
    ensures IsError(r, 403, "FORBIDDEN", if Truthy(message) then message.value else "Access denied")
    ensures ErrorKeys(r) == {"code", "message"}
  {
    ErrorEnvelope(403, "FORBIDDEN", OrDefault(message, "Access denied"), map[])
  }

  /** "X not found", or "Resource not found" without a resource name. */
  function NotFoundMessage(resource: Option<string>): (m: string)
    ensures Truthy(resource) ==> m == resource.value + " not found"
    ensures !Truthy(resource) ==> m == "Resource not found"
  {
    if Truthy(resource) then resource.value + " not found" else "Resource not found"
  }

  /** `ResponseBuilder.notFound(resource)` */
  function NotFound(resource: Option<string>): (r: Response)
    ensures IsError(r, 404, "NOT_FOUND", NotFoundMessage(resource))
    ensures ErrorKeys(r) == {"code", "message"}
  {
    ErrorEnvelope(404, "NOT_FOUND", NotFoundMessage(resource), map[])
  }

  /** `ResponseBuilder.conflict(message, code)` */
  function Conflict(message: string, code: Option<string>): (r: Response)
    ensures IsError(r, 409, if Truthy(code) then code.value else "CONFLICT", message)
    ensures ErrorKeys(r) == {"code", "message"}
  {
    ErrorEnvelope(409, OrDefault(code, "CONFLICT"), message, map[])
  }

  /** `ResponseBuilder.internalError(message, requestId)`: `requestId`
      appears exactly when it is a non-empty string. */
  function InternalError(message: Option<string>, requestId: Option<string>): (r: Response)
    ensures IsError(r, 500, "INTERNAL_SERVER_ERROR",
                    if Truthy(message) then message.value else "An unexpected error occurred")
    ensures ErrorKeys(r) == {"code", "message"} + (if Truthy(requestId) then {"requestId"} else {})
    ensures Truthy(requestId) ==> r.body.value.fields["error"].fields["requestId"] == Text(requestId.value)
  {
    ErrorEnvelope(500, "INTERNAL_SERVER_ERROR", OrDefault(message, "An unexpected error occurred"),
                  if Truthy(requestId) then map["requestId" := Text(requestId.value)] else map[])
  }

  /** `ResponseBuilder.custom(statusCode, body)` */
  function Custom(statusCode: int, body: map<string, Json>): (r: Response)
    ensures r.statusCode == statusCode && r.body == Some(Object(body))
  {
    Response(statusCode, Some(Object(body)))
  }
}

=== FILE: rrule_converter.dfy ===
/** Recurrence rules as the services store them: the encoder used when a
    recurring transaction is created, and the reading of a stored rule back
    into rule options. A stored rule is the value part of an iCalendar RECUR
    property (section 3.3.10 of RFC 5545): `;`-separated `KEY=VALUE` parts,
    for example `FREQ=MONTHLY;COUNT=12`. */
module RRuleConverter {
  import opened Common

  /** The frequencies a client may request (TransactionFrequencyEnum). */
  datatype TransactionFrequency = Daily | Weekly | Monthly | Yearly

  /** The frequencies of the rule library (the FREQ values of RFC 5545). */
  datatype RuleFrequency = Yearly | Monthly | Weekly | Daily | Hourly | Minutely | Secondly

  function FreqName(f: RuleFrequency): string {
    match f
    case Yearly => "YEARLY"
    case Monthly => "MONTHLY"
    case Weekly => "WEEKLY"
    case Daily => "DAILY"
    case Hourly => "HOURLY"
    case Minutely => "MINUTELY"
    case Secondly => "SECONDLY"
  }

  function FreqFromName(name: string): (r: Option<RuleFrequency>)
    ensures r.Some? ==> FreqName(r.value) == name
  {
    if name == "YEARLY" then Some(RuleFrequency.Yearly)
    else if name == "MONTHLY" then Some(RuleFrequency.Monthly)
    else if name == "WEEKLY" then Some(RuleFrequency.Weekly)
    else if name == "DAILY" then Some(RuleFrequency.Daily)
    else if name == "HOURLY" then Some(Hourly)
    else if name == "MINUTELY" then Some(Minutely)
    else if name == "SECONDLY" then Some(Secondly)
    else None
  }

  lemma FreqNameRoundTrip(f: RuleFrequency)
    ensures FreqFromName(FreqName(f)) == Some(f)
  {
  }

  /** The lookup table of the encoder: each client frequency maps to the rule
      frequency of the same name. */
  function FrequencyMap(f: TransactionFrequency): (r: RuleFrequency)
    ensures f.Daily? <==> r.Daily?
    ensures f.Weekly? <==> r.Weekly?
    ensures f.Monthly? <==> r.Monthly?
    ensures f.Yearly? <==> r.Yearly?
  {
    match f
    case Daily => RuleFrequency.Daily
    case Weekly => RuleFrequency.Weekly
    case Monthly => RuleFrequency.Monthly
    case Yearly => RuleFrequency.Yearly
  }

  const Header: string := "RRULE:"
  const CountError: string := "Interval must be a positive number"

  /** The text the rule library prints for a rule built from a frequency and a
      count only. */
  function RuleText(f: RuleFrequency, count: nat): (r: string)
    ensures IsPrefix(Header, r)
    ensures ParseRule(r) == Ok(RuleOptions(f, Some(count), None, []))
  {
    var body := "FREQ=" + FreqName(f) + ";COUNT=" + NatToString(count);
    ParseEncoded(f, count);
    EncodedParts(f, count);
    UpperFixed(Header);
    HeaderOptional(Header, body);
    assert (Header + body)[..|Header|] == Header;
    Header + RuleBody(f, count)
  }

  function RuleBody(f: RuleFrequency, count: nat): string {
    "FREQ=" + FreqName(f) + ";COUNT=" + NatToString(count)
  }

  /** `pattern` occurs in `s` at index `j`. */
  predicate OccursAt(s: string, pattern: string, j: nat) {
    j + |pattern| <= |s| && s[j..j + |pattern|] == pattern
  }

  /** Index of the first occurrence of `pattern` in `s`. */
  function IndexOf(s: string, pattern: string): (r: Option<nat>)
    ensures r.Some? ==> OccursAt(s, pattern, r.value)
    ensures r.Some? ==> forall j: nat :: j < r.value ==> !OccursAt(s, pattern, j)
    ensures r.None? ==> forall j: nat :: !OccursAt(s, pattern, j)
    ensures IsPrefix(pattern, s) ==> r == Some(0)
    decreases |s|
  {
    if IsPrefix(pattern, s) then Some(0)
    else if s == [] then None
    else
      var rest := IndexOf(s[1..], pattern);
      ShiftedWindows(s, pattern);
      match rest
      case None => None
      case Some(i) => Some(i + 1)
  }

  /** The occurrences in `s[1..]` are those in `s` one place further on, and
      the occurrence at 0 is the prefix test. */
  lemma ShiftedWindows(s: string, pattern: string)
    requires s != []
    ensures forall j: nat :: 1 <= j ==> (OccursAt(s, pattern, j) <==> OccursAt(s[1..], pattern, j - 1))
    ensures OccursAt(s, pattern, 0) <==> IsPrefix(pattern, s)
  {
    forall j: nat | 1 <= j
      ensures OccursAt(s, pattern, j) <==> OccursAt(s[1..], pattern, j - 1)
    {
      if j + |pattern| <= |s| {
        var a, b := s[1..][j - 1..j - 1 + |pattern|], s[j..j + |pattern|];
        assert forall k :: 0 <= k < |pattern| ==> a[k] == b[k];
        assert a == b;
      }
    }
  }

  /** `s.replace(pattern, replacement)` with a string pattern: only the first
      occurrence is replaced. */
  function ReplaceFirst(s: string, pattern: string, replacement: string): (r: string)
    ensures (forall j: nat :: !OccursAt(s, pattern, j)) ==> r == s
    ensures forall i: nat :: OccursAt(s, pattern, i) && (forall j: nat :: j < i ==> !OccursAt(s, pattern, j)) ==>
              r == s[..i] + replacement + s[i + |pattern|..]
  {
    match IndexOf(s, pattern)
    case None => s
    case Some(i) => s[..i] + replacement + s[i + |pattern|..]
  }

  /** `convertToRRule(frequency, count = 1)`. */
  function ConvertToRRule(frequency: TransactionFrequency, count: Option<int>): (r: Result<string, string>)
    ensures r.Err? <==> count.GetOr(1) <= 0
    ensures r.Err? ==> r.error == CountError
    ensures r.Ok? ==> !IsPrefix(Header, r.value)
  {
    var n := count.GetOr(1);
    if n <= 0 then Err(CountError)
    else
      StrippedText(FrequencyMap(frequency), n);
      Ok(ReplaceFirst(RuleText(FrequencyMap(frequency), n), Header, ""))
  }

  lemma StrippedText(f: RuleFrequency, n: nat)
    ensures ReplaceFirst(RuleText(f, n), Header, "") == "FREQ=" + FreqName(f) + ";COUNT=" + NatToString(n)
    ensures !IsPrefix(Header, "FREQ=" + FreqName(f) + ";COUNT=" + NatToString(n))
  {
    ReplacePrefix(Header, RuleBody(f, n));
    EncodedParts(f, n);
  }

  /** Replacing a leading pattern by nothing drops it. */
  lemma ReplacePrefix(p: string, body: string)
    ensures ReplaceFirst(p + body, p, "") == body
  {
    assert IsPrefix(p, p + body);
    assert (p + body)[|p|..] == body;
  }

  /* ---- reading a stored rule back (RRule.fromString) ---- */

  /** What the services read from a parsed rule: the frequency, the count and
      the interval; every other rule part the library knows is kept verbatim
      for the occurrence expansion. */
  datatype RuleOptions = RuleOptions(
    freq: RuleFrequency,
    count: Option<nat>,
    interval: Option<nat>,
    rest: seq<(string, string)>)

  /** `options.interval || 1` */
  function EffectiveInterval(o: RuleOptions): (r: nat)
    ensures r >= 1
    ensures o.interval.Some? && o.interval.value >= 1 ==> r == o.interval.value
  {
    if o.interval.Some? && o.interval.value != 0 then o.interval.value else 1
  }

  /** `options.count` as a JavaScript condition: absent and zero are falsy. */
  predicate HasCount(o: RuleOptions) {
    o.count.Some? && o.count.value != 0
  }

  /** Index of the first occurrence of the character `c` in `s`. */
  function FirstIndex(s: string, c: char): (r: Option<nat>)
    ensures r.None? <==> c !in s
    ensures r.Some? ==> r.value < |s| && s[r.value] == c && c !in s[..r.value]
    decreases |s|
  {
    if s == [] then None
    else if s[0] == c then Some(0)
    else match FirstIndex(s[1..], c)
      case None => None
      case Some(i) =>
        assert s[..i + 1] == [s[0]] + s[1..][..i];
        Some(i + 1)
  }

  /** `s.split(sep)` */
  function Split(s: string, sep: char): (r: seq<string>)
    ensures |r| >= 1
    ensures forall k :: 0 <= k < |r| ==> sep !in r[k]
    decreases |s|
  {
    match FirstIndex(s, sep)
    case None => [s]
    case Some(i) => [s[..i]] + Split(s[i + 1..], sep)
  }

  lemma SplitTwo(a: string, b: string, sep: char)
    requires sep !in a && sep !in b
    ensures Split(a + [sep] + b, sep) == [a, b]
  {
    var s := a + [sep] + b;
    assert s[..|a|] == a;
    FirstIndexAt(s, sep, |a|);
    assert s[|a| + 1..] == b;
  }

  lemma {:induction false} FirstIndexAt(s: string, c: char, i: nat)
    requires i < |s| && s[i] == c && c !in s[..i]
    ensures FirstIndex(s, c) == Some(i)
    decreases i
  {
    if i > 0 {
      assert s[0] == s[..i][0];
      assert s[1..][..i - 1] == s[..i][1..];
      FirstIndexAt(s[1..], c, i - 1);
    }
  }

  /** A rule part `KEY=VALUE` as `attr.split('=')` destructures it: the key
      ends at the first `=` and the value at the next one. */
  function KeyValue(part: string): (r: Option<(string, string)>)
    ensures r.None? <==> '=' !in part
    ensures r.Some? ==> '=' !in r.value.0 && '=' !in r.value.1
    ensures r.Some? ==> IsPrefix(r.value.0 + "=" + r.value.1, part)
  {
    match FirstIndex(part, '=')
    case None => None
    case Some(i) =>
      var value := Split(part[i + 1..], '=')[0];
      SplitHead(part[i + 1..], '=');
      assert (part[..i] + "=" + value) == part[..i + 1 + |value|];
      Some((part[..i], value))
  }

  /** The first piece of a split is a prefix of the text. */
  lemma SplitHead(s: string, sep: char)
    ensures IsPrefix(Split(s, sep)[0], s)
  {
    match FirstIndex(s, sep)
    case None =>
    case Some(i) =>
  }

  lemma KeyValueOf(key: string, value: string)
    requires '=' !in key && '=' !in value
    ensures KeyValue(key + "=" + value) == Some((key, value))
  {
    var part := key + "=" + value;
    assert part[..|key|] == key;
    FirstIndexAt(part, '=', |key|);
    assert part[|key| + 1..] == value;
  }

  /** `toUpperCase` on one character, for the ASCII letters. */
  function UpperChar(c: char): (u: char)
    ensures 'a' <= c <= 'z' ==> u as int == c as int - 32
    ensures !('a' <= c <= 'z') ==> u == c
  {
    if 'a' <= c <= 'z' then (c as int - 32) as char else c
  }

  /** `toUpperCase` on the ASCII letters of `s`. */
  function Upper(s: string): (r: string)
    ensures |r| == |s|
    ensures forall i :: 0 <= i < |s| ==> r[i] == UpperChar(s[i])
  {
    seq(|s|, i requires 0 <= i < |s| => UpperChar(s[i]))
  }

  /** Text without lower-case letters is its own upper case. */
  lemma UpperFixed(s: string)
    requires forall c :: c in s ==> !('a' <= c <= 'z')
    ensures Upper(s) == s
  {
    assert forall i :: 0 <= i < |s| ==> s[i] in s;
  }

  lemma FreqNameUpper(f: RuleFrequency)
    ensures Upper(FreqName(f)) == FreqName(f)
    ensures '=' !in FreqName(f)
  {
    match f
    case Yearly => UpperFixed("YEARLY");
    case Monthly => UpperFixed("MONTHLY");
    case Weekly => UpperFixed("WEEKLY");
    case Daily => UpperFixed("DAILY");
    case Hourly => UpperFixed("HOURLY");
    case Minutely => UpperFixed("MINUTELY");
    case Secondly => UpperFixed("SECONDLY");
  }

  /** The rule parts the library accepts besides FREQ, COUNT and INTERVAL. */
  predicate OtherKnownKey(key: string) {
    key in {"WKST", "BYSETPOS", "BYMONTH", "BYMONTHDAY", "BYYEARDAY", "BYWEEKNO",
            "BYDAY", "BYWEEKDAY", "BYHOUR", "BYMINUTE", "BYSECOND", "BYEASTER",
            "UNTIL", "DTSTART", "TZID"}
  }

  datatype Partial = Partial(
    freq: Option<RuleFrequency>,
    count: Option<nat>,
    interval: Option<nat>,
    rest: seq<(string, string)>)

  const NoParts: Partial := Partial(None, None, None, [])

  /** Reads one rule part into the options read so far: the key is compared
      in upper case, and so is the FREQ value. */
  function ReadPart(part: string, acc: Partial): Result<Partial, string> {
    match KeyValue(part)
    case None => Err("Unknown RRULE property '" + part + "'")
    case Some(kv) =>
      var (key, value) := kv;
      var name := Upper(key);
      if name == "FREQ" then
        match FreqFromName(Upper(value))
        case None => Err("Invalid frequency: " + value)
        case Some(f) => Ok(acc.(freq := Some(f)))
      else if name == "COUNT" then
        match ParseNat(value)
        case None => Err("Invalid COUNT: " + value)
        case Some(n) => Ok(acc.(count := Some(n)))
      else if name == "INTERVAL" then
        match ParseNat(value)
        case None => Err("Invalid INTERVAL: " + value)
        case Some(n) => Ok(acc.(interval := Some(n)))
      else if OtherKnownKey(name) then Ok(acc.(rest := acc.rest + [kv]))
      else Err("Unknown RRULE property '" + key + "'")
  }

  /** Reads the parts left to right; a later part overrides an earlier one. */
  function ReadParts(parts: seq<string>, acc: Partial): Result<Partial, string>
    decreases |parts|
  {
    if parts == [] then Ok(acc)
    else match ReadPart(parts[0], acc)
      case Err(e) => Err(e)
      case Ok(next) => ReadParts(parts[1..], next)
  }

  /** `text` starts with `RRULE:` in any letter case. */
  predicate HasHeader(text: string) {
    |text| >= |Header| && Upper(text[..|Header|]) == Header
  }

  /** `RRule.fromString`: an empty text is the default rule; otherwise an
      optional `RRULE:` header (in any letter case), then the rule parts. A
      rule without FREQ is YEARLY, the library's default frequency. */
  function ParseRule(text: string): (r: Result<RuleOptions, string>)
    ensures text == [] ==> r == Ok(RuleOptions(RuleFrequency.Yearly, None, None, []))
  {
    if text == [] then Ok(RuleOptions(RuleFrequency.Yearly, None, None, []))
    else
      var body := if HasHeader(text) then text[|Header|..] else text;
      match ReadParts(Split(body, ';'), NoParts)
      case Err(e) => Err(e)
      case Ok(p) => Ok(RuleOptions(p.freq.GetOr(RuleFrequency.Yearly), p.count, p.interval, p.rest))
  }

  /** The header is optional and its letter case does not matter: a non-empty
      rule without one parses the same with one in front. */
  lemma HeaderOptional(header: string, body: string)
    requires Upper(header) == Header
    requires body != [] && !HasHeader(body)
    ensures ParseRule(header + body) == ParseRule(body)
  {
    var text := header + body;
    assert text[..|Header|] == header;
    assert text[|Header|..] == body;
  }

  lemma ReadFreqPart(f: RuleFrequency, acc: Partial)
    ensures ReadPart("FREQ=" + FreqName(f), acc) == Ok(acc.(freq := Some(f)))
  {
    assert "FREQ=" == "FREQ" + "=";
    FreqNameUpper(f);
    UpperFixed("FREQ");
    KeyValueOf("FREQ", FreqName(f));
    FreqNameRoundTrip(f);
  }

  lemma ReadCountPart(n: nat, acc: Partial)
    ensures ReadPart("COUNT=" + NatToString(n), acc) == Ok(acc.(count := Some(n)))
  {
    var digits := NatToString(n);
    assert "COUNT=" == "COUNT" + "=";
    assert forall c :: c in digits ==> IsDigit(c);
    KeyValueOf("COUNT", digits);
    NatToStringRoundTrip(n);
    UpperFixed("COUNT");
    assert "COUNT" != "FREQ" by { assert "COUNT"[0] != "FREQ"[0]; }
    assert ParseNat(digits) == Some(n);
  }

  lemma ParseEncoded(f: RuleFrequency, n: nat)
    ensures ParseRule("FREQ=" + FreqName(f) + ";COUNT=" + NatToString(n))
         == Ok(RuleOptions(f, Some(n), None, []))
  {
    var a := "FREQ=" + FreqName(f);
    var b := "COUNT=" + NatToString(n);
    EncodedParts(f, n);
    SemicolonFree(f, n);
    SplitTwo(a, b, ';');
    ReadEncodedParts(f, n);
  }

  /** The encoded rule is its two parts joined by `;`, and has no header. */
  lemma EncodedParts(f: RuleFrequency, n: nat)
    ensures "FREQ=" + FreqName(f) + ";COUNT=" + NatToString(n)
         == ("FREQ=" + FreqName(f)) + [';'] + ("COUNT=" + NatToString(n))
    ensures !IsPrefix(Header, "FREQ=" + FreqName(f) + ";COUNT=" + NatToString(n))
    ensures !HasHeader("FREQ=" + FreqName(f) + ";COUNT=" + NatToString(n))
  {
    var text := "FREQ=" + FreqName(f) + ";COUNT=" + NatToString(n);
    assert ";COUNT=" == [';'] + "COUNT=";
    assert text[0] == 'F';
    assert |text| >= |Header| ==> Upper(text[..|Header|])[0] == 'F';
  }

  lemma SemicolonFree(f: RuleFrequency, n: nat)
    ensures ';' !in "FREQ=" + FreqName(f)
    ensures ';' !in "COUNT=" + NatToString(n)
  {
    var digits := NatToString(n);
    var b := "COUNT=" + digits;
    forall k | 0 <= k < |b| ensures b[k] != ';' {
      if k >= 6 { assert b[k] == digits[k - 6]; }
    }
  }

  lemma ReadEncodedParts(f: RuleFrequency, n: nat)
    ensures ReadParts(["FREQ=" + FreqName(f), "COUNT=" + NatToString(n)], NoParts)
         == Ok(Partial(Some(f), Some(n), None, []))
  {
    var a := "FREQ=" + FreqName(f);
    var b := "COUNT=" + NatToString(n);
    var p1 := NoParts.(freq := Some(f));
    ReadFreqPart(f, NoParts);
    ReadCountPart(n, p1);
    assert ReadParts([b], p1) == Ok(p1.(count := Some(n))) by {
      assert [b][1..] == [];
    }
    assert ReadParts([a, b], NoParts) == ReadParts([b], p1) by {
      assert [a, b][1..] == [b];
    }
  }

  /** Reading back what the encoder produced gives the requested frequency and
      count, the default interval and no other rule part. */
  lemma ConvertParseRoundTrip(frequency: TransactionFrequency, count: Option<int>)
    requires count.GetOr(1) > 0
    ensures ConvertToRRule(frequency, count).Ok?
    ensures ParseRule(ConvertToRRule(frequency, count).value)
         == Ok(RuleOptions(FrequencyMap(frequency), Some(count.GetOr(1)), None, []))
  {
    var n: nat := count.GetOr(1);
    StrippedText(FrequencyMap(frequency), n);
    ParseEncoded(FrequencyMap(frequency), n);
  }

  /** A FREQ part is read whatever the letter case of its key and its value. */
  lemma ReadFreqPartAnyCase(key: string, value: string, f: RuleFrequency, acc: Partial)
    requires '=' !in key && '=' !in value
    requires Upper(key) == "FREQ" && Upper(value) == FreqName(f)
    ensures ReadPart(key + "=" + value, acc) == Ok(acc.(freq := Some(f)))
  {
    KeyValueOf(key, value);
    FreqNameRoundTrip(f);
  }

  /** A rule without a FREQ part is YEARLY. */
  lemma MissingFreqIsYearly(n: nat)
    ensures ParseRule("COUNT=" + NatToString(n)) == Ok(RuleOptions(RuleFrequency.Yearly, Some(n), None, []))
  {
    var b := "COUNT=" + NatToString(n);
    assert !HasHeader(b) by {
      assert b[0] == 'C';
      assert |b| >= |Header| ==> Upper(b[..|Header|])[0] == 'C';
    }
    assert Split(b, ';') == [b] by { SemicolonFree(RuleFrequency.Yearly, n); }
    assert ReadParts([b], NoParts) == Ok(Partial(None, Some(n), None, [])) by {
      ReadCountPart(n, NoParts);
      var none: seq<string> := [];
      assert [b][1..] == none;
    }
  }
}

=== FILE: stable_sort.dfy ===
/** `Array.prototype.sort` with a comparator that orders by one key, ascending
    or descending. Since ECMAScript 2019 the sort must be stable (section
    22.1.3.27 of ECMA-262, 10th edition), so its result is determined: the
    stable sort below, written as an insertion sort. */
module StableSort {
  import opened Common

  /** The value a comparator compares: an instant or an amount, or a string. */
  datatype SortKey = Num(n: int) | Str(s: string)

  /** The UTF-16 code units of one character: the character itself below
      U+10000, a surrogate pair above. */
  function Units(c: char): (r: seq<int>)
    ensures 1 <= |r| <= 2
  {
    var n := c as int;
    if n < 0x1_0000 then [n] else [0xD800 + (n - 0x1_0000) / 0x400, 0xDC00 + (n - 0x1_0000) % 0x400]
  }

  /** The UTF-16 code units of a string, the form JavaScript keeps strings in. */
  function Utf16(s: string): (r: seq<int>)
    ensures |r| >= |s|
  {
    if s == [] then [] else Units(s[0]) + Utf16(s[1..])
  }

  /** `<` on code unit sequences: the first differing unit decides, a
      proper prefix comes first. */
  predicate UnitsLess(a: seq<int>, b: seq<int>)
    decreases |a|
  {
    if a == [] then b != []
    else if b == [] then false
    else if a[0] != b[0] then a[0] < b[0]
    else UnitsLess(a[1..], b[1..])
  }

  /** JavaScript `<` on strings: by UTF-16 code units. */
  predicate StrLess(a: string, b: string): (r: bool)
    ensures r ==> a != b
    ensures a != b && !r ==> UnitsLess(Utf16(b), Utf16(a))
  {
    UnitsLessIrreflexive(Utf16(a));
    if a != b then
      Utf16Injective(a, b);
      UnitsLessTotal(Utf16(a), Utf16(b));
      UnitsLess(Utf16(a), Utf16(b))
    else UnitsLess(Utf16(a), Utf16(b))
  }

  /** `<` on keys. One sort field always yields keys of one kind; numbers are
      put before strings only so that the order is total. */
  predicate KeyLess(a: SortKey, b: SortKey) {
    match (a, b)
    case (Num(x), Num(y)) => x < y
    case (Str(x), Str(y)) => StrLess(x, y)
    case (Num(_), Str(_)) => true
    case (Str(_), Num(_)) => false
  }

  lemma {:induction false} UnitsLessIrreflexive(a: seq<int>)
    ensures !UnitsLess(a, a)
    decreases |a|
  {
    if a != [] { UnitsLessIrreflexive(a[1..]); }
  }

  lemma {:induction false} UnitsLessTransitive(a: seq<int>, b: seq<int>, c: seq<int>)
    requires UnitsLess(a, b) && UnitsLess(b, c)
    ensures UnitsLess(a, c)
    decreases |a|
  {
    if a != [] && a[0] == b[0] && b[0] == c[0] {
      UnitsLessTransitive(a[1..], b[1..], c[1..]);
    }
  }

  lemma {:induction false} UnitsLessTotal(a: seq<int>, b: seq<int>)
    requires a != b
    ensures UnitsLess(a, b) || UnitsLess(b, a)
    decreases |a|
  {
    if a != [] && b != [] && a[0] == b[0] {
      assert a == [a[0]] + a[1..] && b == [b[0]] + b[1..];
      UnitsLessTotal(a[1..], b[1..]);
    }
  }

  /** Different characters start different code unit sequences: a surrogate
      pair never begins like a single unit, since no character is itself a
      surrogate. */
  lemma UnitsDiffer(c: char, d: char, x: seq<int>, y: seq<int>)
    requires c != d
    ensures Units(c) + x != Units(d) + y
  {
    var n, m := c as int, d as int;
    if n >= 0x1_0000 && m >= 0x1_0000 && (n - 0x1_0000) / 0x400 == (m - 0x1_0000) / 0x400 {
      assert (n - 0x1_0000) % 0x400 != (m - 0x1_0000) % 0x400;
      assert (Units(c) + x)[1] != (Units(d) + y)[1];
    } else {
      assert (Units(c) + x)[0] != (Units(d) + y)[0];
    }
  }

  /** Different strings have different code units. */
  lemma {:induction false} Utf16Injective(a: string, b: string)
    requires a != b
    ensures Utf16(a) != Utf16(b)
    decreases |a|
  {
    if a != [] && b != [] {
      if a[0] == b[0] {
        assert a == [a[0]] + a[1..] && b == [b[0]] + b[1..];
        Utf16Injective(a[1..], b[1..]);
        var p := Units(a[0]);
        assert Utf16(a)[|p|..] == Utf16(a[1..]) && Utf16(b)[|p|..] == Utf16(b[1..]);
      } else {
        UnitsDiffer(a[0], b[0], Utf16(a[1..]), Utf16(b[1..]));
      }
    }
  }

  /** `KeyLess` is a strict total order. */
  lemma KeyLessOrder(a: SortKey, b: SortKey, c: SortKey)
    ensures !KeyLess(a, a)
    ensures KeyLess(a, b) && KeyLess(b, c) ==> KeyLess(a, c)
    ensures a != b ==> KeyLess(a, b) || KeyLess(b, a)
  {
    if a.Str? { UnitsLessIrreflexive(Utf16(a.s)); }
    if a.Str? && b.Str? && c.Str? && StrLess(a.s, b.s) && StrLess(b.s, c.s) {
      UnitsLessTransitive(Utf16(a.s), Utf16(b.s), Utf16(c.s));
    }
    if a.Str? && b.Str? && a != b {
      Utf16Injective(a.s, b.s);
      UnitsLessTotal(Utf16(a.s), Utf16(b.s));
    }
  }

  /** `compare(a, b) < 0` for the comparator `(a, b) => key(a) < key(b) ? -1 :
      key(a) > key(b) ? 1 : 0`, with both signs swapped when `desc`. */
  predicate Before<T>(key: T -> SortKey, desc: bool, a: T, b: T) {
    if desc then KeyLess(key(b), key(a)) else KeyLess(key(a), key(b))
  }

  /** No element is strictly after a later one. */
  predicate Ordered<T>(s: seq<T>, key: T -> SortKey, desc: bool) {
    forall i, j :: 0 <= i < j < |s| ==> !Before(key, desc, s[j], s[i])
  }

  lemma BeforeFacts<T>(key: T -> SortKey, desc: bool, a: T, b: T, c: T)
    ensures Before(key, desc, a, b) ==> key(a) != key(b) && !Before(key, desc, b, a)
    ensures !Before(key, desc, b, a) && !Before(key, desc, c, b) ==> !Before(key, desc, c, a)
  {
    KeyLessOrder(key(a), key(b), key(a));
    KeyLessOrder(key(b), key(a), key(b));
    KeyLessOrder(key(a), key(b), key(c));
    KeyLessOrder(key(c), key(b), key(a));
    KeyLessOrder(key(a), key(c), key(b));
    KeyLessOrder(key(c), key(a), key(b));
    KeyLessOrder(key(b), key(c), key(a));
    KeyLessOrder(key(b), key(a), key(c));
  }

  /** Inserts `x` after every element it is not strictly before. */
  function Insert<T>(sorted: seq<T>, x: T, key: T -> SortKey, desc: bool): seq<T>
    decreases |sorted|
  {
    if sorted == [] then [x]
    else
      var last := sorted[|sorted| - 1];
      if Before(key, desc, x, last) then Insert(sorted[..|sorted| - 1], x, key, desc) + [last]
      else sorted + [x]
  }

  /** The stable sort of `s` by `key`, ascending or descending. */
  function Sort<T>(s: seq<T>, key: T -> SortKey, desc: bool): (r: seq<T>)
    ensures multiset(r) == multiset(s)
    ensures Ordered(r, key, desc)
    decreases |s|
  {
    if s == [] then []
    else
      var init := s[..|s| - 1];
      assert s == init + [s[|s| - 1]];
      InsertPermutes(Sort(init, key, desc), s[|s| - 1], key, desc);
      InsertOrdered(Sort(init, key, desc), s[|s| - 1], key, desc);
      Insert(Sort(init, key, desc), s[|s| - 1], key, desc)
  }

  lemma {:induction false} InsertPermutes<T>(sorted: seq<T>, x: T, key: T -> SortKey, desc: bool)
    ensures multiset(Insert(sorted, x, key, desc)) == multiset(sorted) + multiset{x}
    decreases |sorted|
  {
    if sorted != [] {
      var init, last := sorted[..|sorted| - 1], sorted[|sorted| - 1];
      assert sorted == init + [last];
      if Before(key, desc, x, last) {
        InsertPermutes(init, x, key, desc);
      }
    }
  }

  lemma {:induction false} InsertOrdered<T>(sorted: seq<T>, x: T, key: T -> SortKey, desc: bool)
    requires Ordered(sorted, key, desc)
    ensures Ordered(Insert(sorted, x, key, desc), key, desc)
    decreases |sorted|
  {
    if sorted != [] {
      var init, last := sorted[..|sorted| - 1], sorted[|sorted| - 1];
      var r := Insert(sorted, x, key, desc);
      if Before(key, desc, x, last) {
        var mid := Insert(init, x, key, desc);
        InsertOrdered(init, x, key, desc);
        InsertPermutes(init, x, key, desc);
        assert r == mid + [last];
        forall i | 0 <= i < |mid| ensures !Before(key, desc, last, mid[i]) {
          assert mid[i] in multiset(mid);
          if mid[i] == x {
            BeforeFacts(key, desc, x, last, x);
          } else {
            assert mid[i] in multiset(init);
            var k :| 0 <= k < |init| && init[k] == mid[i];
            assert sorted[k] == mid[i];
          }
        }
      } else {
        forall i | 0 <= i < |sorted| ensures !Before(key, desc, x, sorted[i]) {
          BeforeFacts(key, desc, sorted[i], last, x);
        }
      }
    }
  }

  lemma FilterSingleton<T(!new)>(x: T, p: T -> bool)
    ensures Filter([x], p) == if p(x) then [x] else []
  {
    assert [x][..0] == [];
  }

  lemma SwapTail<T>(a: seq<T>, b: seq<T>, c: seq<T>)
    requires b == [] || c == []
    ensures (a + b) + c == (a + c) + b
  {
    if b == [] {
      assert a + b == a && (a + c) + b == a + c;
    } else {
      assert a + c == a && (a + b) + c == a + b;
    }
  }

  lemma InsertStableStep<T(!new)>(init: seq<T>, last: T, x: T, key: T -> SortKey, desc: bool, p: T -> bool)
    requires Before(key, desc, x, last) && !(p(x) && p(last))
    requires Filter(Insert(init, x, key, desc), p) == Filter(init, p) + Filter([x], p)
    ensures Filter(Insert(init + [last], x, key, desc), p) == Filter(init + [last], p) + Filter([x], p)
  {
    InsertBefore(init, last, x, key, desc);
    FilterSwap(init, Insert(init, x, key, desc), last, x, p);
  }

  /** `x` strictly before the last element goes into the rest. */
  lemma InsertBefore<T>(init: seq<T>, last: T, x: T, key: T -> SortKey, desc: bool)
    requires Before(key, desc, x, last)
    ensures Insert(init + [last], x, key, desc) == Insert(init, x, key, desc) + [last]
  {
    var sorted := init + [last];
    assert sorted[..|sorted| - 1] == init && sorted[|sorted| - 1] == last;
  }

  /** Appending `last` on both sides keeps the filter of `x` at the end when
      at most one of the two passes the filter. */
  lemma FilterSwap<T(!new)>(init: seq<T>, mid: seq<T>, last: T, x: T, p: T -> bool)
    requires !(p(x) && p(last))
    requires Filter(mid, p) == Filter(init, p) + Filter([x], p)
    ensures Filter(mid + [last], p) == Filter(init + [last], p) + Filter([x], p)
  {
    FilterAppend(init, [last], p);
    FilterAppend(mid, [last], p);
    FilterSingleton(x, p);
    FilterSingleton(last, p);
    SwapTail(Filter(init, p), Filter([x], p), Filter([last], p));
  }

  lemma {:induction false} InsertStable<T(!new)>(sorted: seq<T>, x: T, key: T -> SortKey, desc: bool, k: SortKey)
    ensures Filter(Insert(sorted, x, key, desc), (y: T) => key(y) == k)
         == Filter(sorted, (y: T) => key(y) == k) + Filter([x], (y: T) => key(y) == k)
    decreases |sorted|
  {
    if sorted == [] {
      assert Insert(sorted, x, key, desc) == [x];
    } else {
      var init, last := sorted[..|sorted| - 1], sorted[|sorted| - 1];
      assert sorted == init + [last];
      if Before(key, desc, x, last) {
        InsertStable(init, x, key, desc, k);
        BeforeFacts(key, desc, x, last, x);
        InsertStableStep(init, last, x, key, desc, (y: T) => key(y) == k);
      } else {
        FilterAppend(sorted, [x], (y: T) => key(y) == k);
      }
    }
  }

  /** Stability: the elements with any one key keep their input order. */
  lemma {:induction false} SortStable<T(!new)>(s: seq<T>, key: T -> SortKey, desc: bool, k: SortKey)
    ensures Filter(Sort(s, key, desc), (y: T) => key(y) == k) == Filter(s, (y: T) => key(y) == k)
    decreases |s|
  {
    if s != [] {
      var init := s[..|s| - 1];
      assert s == init + [s[|s| - 1]];
      SortStable(init, key, desc, k);
      InsertStable(Sort(init, key, desc), s[|s| - 1], key, desc, k);
      FilterAppend(init, [s[|s| - 1]], (y: T) => key(y) == k);
    }
  }
}

=== FILE: store.dfy ===
/** The database the handlers talk to: the four tables as sequences of rows,
    and a record of which calls fail. A call is named by its table, its kind
    and the key it filters on (the row or definition id, or the user id for a
    whole-user read); a call with an entry in `faults` fails with that error
    and changes nothing. */
module Storage {
  import opened Common
  import opened Calendar
  import opened Records

  datatype Table = Transactions | RecurringTransactions | Categories | Tags
  datatype Op = Select | Insert | Update | Delete
  datatype Call = Call(table: Table, op: Op, key: Id)

  /** The error a failing call returns; `isError` tells whether it is an
      instance of `Error` (only then do callers read its message). */
  datatype Fault = Fault(isError: bool, message: string)

  class Store {
    var transactions: seq<Txn>
    var recurring: seq<Definition>
    var categories: seq<Named>
    var tags: seq<Named>
    const faults: map<Call, Fault>

    constructor (transactions: seq<Txn>, recurring: seq<Definition>, categories: seq<Named>,
                 tags: seq<Named>, faults: map<Call, Fault>)
      ensures this.transactions == transactions && this.recurring == recurring
      ensures this.categories == categories && this.tags == tags && this.faults == faults
    {
      this.transactions := transactions;
      this.recurring := recurring;
      this.categories := categories;
      this.tags := tags;
      this.faults := faults;
    }

    function FaultAt(table: Table, op: Op, key: Id): Option<Fault> {
      FaultOf(faults, table, op, key)
    }

    /** `insert(rows)`: all rows or none. */
    method InsertTransactions(rows: seq<Txn>, key: Id) returns (err: Option<Fault>)
      modifies this
      ensures err == FaultAt(Transactions, Insert, key)
      ensures transactions == if err.None? then old(transactions) + rows else old(transactions)
      ensures recurring == old(recurring) && categories == old(categories) && tags == old(tags)
    {
      err := FaultAt(Transactions, Insert, key);
      if err.None? {
        transactions := transactions + rows;
      }
    }

    /** `delete().eq("id", id).eq("user_id", user)` on `transactions`. */
    method DeleteTransaction(id: Id, user: Id) returns (err: Option<Fault>)
      modifies this
      ensures err == FaultAt(Transactions, Delete, id)
      ensures transactions == if err.None? then Filter(old(transactions), (t: Txn) => !(t.id == id && t.userId == user))
                              else old(transactions)
      ensures recurring == old(recurring) && categories == old(categories) && tags == old(tags)
    {
      err := FaultAt(Transactions, Delete, id);
      if err.None? {
        transactions := Filter(transactions, (t: Txn) => !(t.id == id && t.userId == user));
      }
    }

    /** `update({recurrent_transaction_id: null}).eq("recurrent_transaction_id", defId).eq("user_id", user)`. */
    method DetachTransactions(defId: Id, user: Id) returns (err: Option<Fault>)
      modifies this
      ensures err == FaultAt(Transactions, Update, defId)
      ensures transactions == if err.None? then Map(old(transactions), (t: Txn) => Detached(t, defId, user))
                              else old(transactions)
      ensures recurring == old(recurring) && categories == old(categories) && tags == old(tags)
    {
      err := FaultAt(Transactions, Update, defId);
      if err.None? {
        transactions := Map(transactions, (t: Txn) => Detached(t, defId, user));
      }
    }

    /** `update(row ↦ change(row)).eq("id", id).eq("user_id", user)` on
        `recurring_transactions`. */
    method UpdateDefinitions(id: Id, user: Id, change: Definition -> Definition) returns (err: Option<Fault>)
      modifies this
      ensures err == FaultAt(RecurringTransactions, Update, id)
      ensures recurring == if err.None? then Map(old(recurring), (d: Definition) => if d.id == id && d.userId == user then change(d) else d)
                           else old(recurring)
      ensures transactions == old(transactions) && categories == old(categories) && tags == old(tags)
    {
      err := FaultAt(RecurringTransactions, Update, id);
      if err.None? {
        recurring := Map(recurring, (d: Definition) => if d.id == id && d.userId == user then change(d) else d);
      }
    }

    /** `update({last_generated_at: at}).eq("id", id)` on `recurring_transactions`. */
    method MarkGenerated(id: Id, at: Timestamp) returns (err: Option<Fault>)
      modifies this
      ensures err == FaultAt(RecurringTransactions, Update, id)
      ensures recurring == if err.None? then Stamped(old(recurring), id, at) else old(recurring)
      ensures transactions == old(transactions) && categories == old(categories) && tags == old(tags)
    {
      err := FaultAt(RecurringTransactions, Update, id);
      if err.None? {
        recurring := Stamped(recurring, id, at);
      }
    }

    /** `delete().eq("id", id).eq("user_id", user)` on `recurring_transactions`. */
    method DeleteDefinition(id: Id, user: Id) returns (err: Option<Fault>)
      modifies this
      ensures err == FaultAt(RecurringTransactions, Delete, id)
      ensures recurring == if err.None? then Filter(old(recurring), (d: Definition) => !(d.id == id && d.userId == user))
                           else old(recurring)
      ensures transactions == old(transactions) && categories == old(categories) && tags == old(tags)
    {
      err := FaultAt(RecurringTransactions, Delete, id);
      if err.None? {
        recurring := Filter(recurring, (d: Definition) => !(d.id == id && d.userId == user));
      }
    }

    /** `delete().eq("id", id).eq("user_id", user)` on `categories` or `tags`. */
    method DeleteNamed(table: Table, id: Id, user: Id) returns (err: Option<Fault>)
      requires table == Categories || table == Tags
      modifies this
      ensures err == FaultAt(table, Delete, id)
      ensures table == Categories ==> categories == if err.None? then Filter(old(categories), (n: Named) => !(n.id == id && n.userId == user))
                                                   else old(categories)
      ensures table == Categories ==> tags == old(tags)
      ensures table == Tags ==> tags == if err.None? then Filter(old(tags), (n: Named) => !(n.id == id && n.userId == user))
                                       else old(tags)
      ensures table == Tags ==> categories == old(categories)
      ensures transactions == old(transactions) && recurring == old(recurring)
    {
      err := FaultAt(table, Delete, id);
      if err.None? {
        if table == Categories {
          categories := Filter(categories, (n: Named) => !(n.id == id && n.userId == user));
        } else {
          tags := Filter(tags, (n: Named) => !(n.id == id && n.userId == user));
        }
      }
    }
  }

  /** The error of the call named by `table`, `op` and `key`, if it fails. */
  function FaultOf(faults: map<Call, Fault>, table: Table, op: Op, key: Id): (r: Option<Fault>)
    ensures r.Some? <==> Call(table, op, key) in faults
  {
    var c := Call(table, op, key);
    if c in faults then Some(faults[c]) else None
  }

  /** The key of a read of a whole table. */
  const EveryRow: Id := "*"

  function Stamped(defs: seq<Definition>, id: Id, at: Timestamp): (r: seq<Definition>)
    ensures |r| == |defs|
    ensures forall k :: 0 <= k < |defs| ==> r[k].(lastGeneratedAt := defs[k].lastGeneratedAt) == defs[k]
    ensures forall k :: 0 <= k < |defs| ==> r[k].lastGeneratedAt == if defs[k].id == id then Some(at) else defs[k].lastGeneratedAt
  {
    Map(defs, (d: Definition) => if d.id == id then d.(lastGeneratedAt := Some(at)) else d)
  }

  function Detached(t: Txn, defId: Id, user: Id): (r: Txn)
    ensures r.(recurrentId := t.recurrentId) == t
    ensures r.userId == user ==> r.recurrentId != Some(defId)
    ensures r.recurrentId.Some? ==> r == t
    ensures !(t.userId == user && t.recurrentId == Some(defId)) ==> r == t
  {
    if t.recurrentId == Some(defId) && t.userId == user then t.(recurrentId := None) else t
  }

  /** `.single()`: the query succeeds only when exactly one row matches. */
  function Single<T>(rows: seq<T>): (r: Option<T>)
    ensures r.Some? <==> |rows| == 1
    ensures r.Some? ==> r.value == rows[0]
  {
    if |rows| == 1 then Some(rows[0]) else None
  }
}

=== FILE: transaction_service.dfy ===
/** The transaction feed: the user's stored transactions merged with virtual
    records computed from their recurring definitions, de-duplicated, sorted
    by one field and cut into a page. */
module TransactionService {
  import opened Common
  import opened Calendar
  import opened RRuleConverter
  import opened Occurrences
  import opened Records
  import opened StableSort
  import opened Storage

  datatype SortField = ByDescription | ByDate | ByAmount | ByType | ByCategory | ByTag | ByPaymentStatus
  datatype SortOrder = Asc | Desc

  /** The request. `date` is the parsed `filters.date` (RequestedDate reads
      the text); absent fields
      take the defaults page 1, limit 10, sort by date, descending. */
  datatype Filters = Filters(
    page: Option<int>,
    limit: Option<int>,
    kind: Option<Kind>,
    date: Option<Timestamp>,
    status: Option<string>,
    categoryId: Option<Id>,
    tagId: Option<Id>,
    sortBy: Option<SortField>,
    sortOrder: Option<SortOrder>,
    userId: Id)

  /** Why the feed fails: a database error, a rule `RRule.fromString`
      rejects, the RangeError "Invalid time value" of formatting a request
      date that does not parse, or (as written only) the TypeError of calling
      `getTime` on an end date that arrives as a string. */
  datatype Failure = StorageFailure(fault: Fault) | MalformedRule(message: string) | InvalidTimeValue | EndDateNotADate

  /* ---- generateFutureTransactions ---- */

  /** `filters.date` when given, else now. */
  function RequestDate(f: Filters, now: Timestamp): Timestamp {
    if f.date.Some? then f.date.value else now
  }

  datatype Window = Window(start: Timestamp, end: Timestamp)

  predicate InWindow(w: Window, t: Timestamp) {
    w.start <= t <= w.end
  }

  /** The month of `filters.date`, or the twelve months from now. */
  function SearchWindow(f: Filters, env: Env): (w: Window)
    ensures f.date.Some? ==> TimeInDay(w.start, env.offset) == 0 && TimeInDay(w.end, env.offset) == MsPerDay - 1
    ensures f.date.None? ==> w.start == env.now && TimeInDay(w.end, env.offset) == TimeInDay(env.now, env.offset)
  {
    if f.date.Some? then MonthWindow(f.date.value, env.offset)
    else Window(env.now, AddMonths(env.now, 12, env.offset))
  }

  /** The local month of `d`, from its first to its last millisecond. */
  function MonthWindow(d: Timestamp, offset: int): Window {
    Window(StartOfMonth(d, offset), EndOfMonth(d, offset))
  }

  /** The upper bound given to `between`: the definition's end date when it
      is earlier than the window's end. (The branch on the rule's own `until`
      never applies: the rule it reads is rebuilt without one.) */
  function FinalEnd(def: Definition, w: Window): (r: Timestamp)
    ensures r <= w.end
    ensures def.endDate.Some? ==> r <= def.endDate.value
  {
    if def.endDate.Some? && def.endDate.value < w.end then def.endDate.value else w.end
  }

  /** The `dtstart` of the rule re-anchored to the requested month: the
      request instant with its UTC day of month, hours, minutes and seconds
      replaced by those of the definition's start (milliseconds kept; a day
      the month lacks rolls over into the next month). */
  function RequestAnchor(request: Timestamp, start: Timestamp): (r: Timestamp)
    ensures r / MsPerDay == MakeDay(UtcDate(request).year, UtcDate(request).month - 1, UtcPin(start).monthDay)
    ensures r % MsPerDay / MsPerSecond == start % MsPerDay / MsPerSecond
    ensures r % MsPerSecond == request % MsPerSecond
  {
    var c := UtcDate(request);
    var p := UtcPin(start);
    var time := p.hour * 3_600_000 + p.minute * 60_000 + p.second * MsPerSecond + request % MsPerSecond;
    AnchorTime(start, request % MsPerSecond);
    DayAndTime(MakeDay(c.year, c.month - 1, p.monthDay), time)
  }

  /** The instant of UTC day `day` at `time` milliseconds past midnight. */
  function DayAndTime(day: int, time: int): (t: Timestamp)
    requires 0 <= time < MsPerDay
    ensures t / MsPerDay == day && t % MsPerDay == time
    ensures t % MsPerSecond == time % MsPerSecond
  {
    var t := day * 86_400_000 + time;
    var q, m := t / 86_400_000, t % 86_400_000;
    assert t == q * 86_400_000 + m;
    assert (q - day) * 86_400_000 == time - m;
    assert q == day;
    var s, u := t / 1000, t % 1000;
    assert t == s * 1000 + u;
    var s', u' := time / 1000, time % 1000;
    assert time == s' * 1000 + u';
    assert (s - day * 86_400 - s') * 1000 == u' - u;
    t
  }

  /** The UTC hours, minutes and seconds of `start`, with `ms` milliseconds,
      make a time of day in the same second as `start`'s. */
  lemma AnchorTime(start: Timestamp, ms: int)
    requires 0 <= ms < MsPerSecond
    ensures var p := UtcPin(start);
            var x := p.hour * 3_600_000 + p.minute * 60_000 + p.second * MsPerSecond + ms;
            0 <= x < MsPerDay && x / MsPerSecond == start % MsPerDay / MsPerSecond && x % MsPerSecond == ms
  {
    var time := start % MsPerDay;
    assert time == time / 3_600_000 * 3_600_000 + time % 3_600_000;
    assert time % 3_600_000 == time % 3_600_000 / 60_000 * 60_000 + time % 3_600_000 % 60_000;
    assert time % 3_600_000 % 60_000 == time % 60_000;
  }

  /** The occurrences the rule library returns for the rebuilt rule: `all()`
      of the rule re-anchored to the requested month when a date is given
      and the rule has a count, `all()` of the rule from its start when it
      has a count, and `between(start, finalEnd, true)` otherwise. */
  function Candidates(def: Definition, opts: RuleOptions, f: Filters, env: Env): seq<Timestamp> {
    env.expand(CandidateQuery(def, opts, f, env))
  }

  /** The rule is rebuilt from the frequency, count and interval alone and
      pinned to the start's UTC day and time; a rule with a count is expanded
      whole, from the start or, when a date is given, from the start's day and
      time in the requested month; any other rule between the start and the
      earlier of the window's end and the end date. */
  function CandidateQuery(def: Definition, opts: RuleOptions, f: Filters, env: Env): (q: RuleQuery)
    ensures q.options == RuleOptions(opts.freq, opts.count, Some(EffectiveInterval(opts)), [])
    ensures q.pin == Some(UtcPin(def.startDate))
    ensures q.span.All? <==> HasCount(opts)
    ensures f.date.None? || !HasCount(opts) ==> q.dtstart == def.startDate
    ensures f.date.Some? && HasCount(opts) ==> q.dtstart % MsPerDay / MsPerSecond == def.startDate % MsPerDay / MsPerSecond
    ensures q.span.Between? ==>
              (q.span.after == def.startDate && q.span.before <= SearchWindow(f, env).end
               && (def.endDate.Some? ==> q.span.before <= def.endDate.value))
  {
    var rebuilt := RuleOptions(opts.freq, opts.count, Some(EffectiveInterval(opts)), []);
    var pin := Some(UtcPin(def.startDate));
    if f.date.Some? && HasCount(opts) then
      RuleQuery(rebuilt, RequestAnchor(f.date.value, def.startDate), pin, All)
    else if HasCount(opts) then
      RuleQuery(rebuilt, def.startDate, pin, All)
    else
      RuleQuery(rebuilt, def.startDate, pin, Between(def.startDate, FinalEnd(def, SearchWindow(f, env))))
  }

  /** The candidates inside the window, and not before now when no date is
      given. */
  function Eligible(candidates: seq<Timestamp>, f: Filters, env: Env): (r: seq<Timestamp>)
    ensures forall t :: t in r <==> t in candidates && InWindow(SearchWindow(f, env), t) && (f.date.None? ==> t >= env.now)
  {
    var w := SearchWindow(f, env);
    var dates := Filter(candidates, (t: Timestamp) => InWindow(w, t));
    if f.date.Some? then dates else Filter(dates, (t: Timestamp) => t >= env.now)
  }

  /** The day keys of `rows` (the set filled by `forEach`). */
  function DayKeysOf(rows: seq<Txn>, offset: int): (keys: set<int>)
    ensures forall t :: t in rows ==> DayKey(t.date, offset) in keys
    ensures forall k :: k in keys ==> exists t :: t in rows && DayKey(t.date, offset) == k
  {
    if rows == [] then {} else DayKeysOf(rows[..|rows| - 1], offset) + {DayKey(rows[|rows| - 1].date, offset)}
  }

  /** The stored occurrences of `def` (the existence lookup). */
  function StoredOccurrences(rows: seq<Txn>, def: Definition): seq<Txn> {
    Filter(rows, (t: Txn) => LinkedTo(t, def))
  }

  /** The record built for one occurrence, before the feed flags it. */
  function VirtualRecord(def: Definition, date: Timestamp, env: Env): (v: Txn)
    ensures CopiesDefinition(v, def) && v.date == date && v.id == env.mint(def.id, date)
    ensures !v.isVirtual && !v.isRecurringGenerated
  {
    Txn(env.mint(def.id, date), def.description, def.kind, def.amount, date, def.note, def.userId,
        Some(def.id), None, None, None, None, None, None, env.now, env.now, false, false)
  }

  /** `generateFutureTransactions(def, filters)`, given the rows of
      `transactions` and the outcome of the existence lookup. */
  function FutureTransactions(def: Definition, f: Filters, env: Env, rows: seq<Txn>, lookup: Option<Fault>)
    : (r: Result<seq<Txn>, Failure>)
    ensures r.Err? <==> ParseRule(def.recurrenceRule).Err?
    ensures r.Err? ==> r.error == MalformedRule(ParseRule(def.recurrenceRule).error)
    ensures r.Ok? && def.startDate > RequestDate(f, env.now) ==> r.value == []
    ensures r.Ok? ==> forall v :: v in r.value ==> CopiesDefinition(v, def) && !v.isVirtual
  {
    match ParseRule(def.recurrenceRule)
    case Err(m) => Err(MalformedRule(m))
    case Ok(opts) =>
      if def.startDate > RequestDate(f, env.now) then Ok([])
      else
        var dates := Eligible(Candidates(def, opts, f, env), f, env);
        if dates != [] && lookup.Some? then Ok([])
        else
          var existing := if dates == [] then {} else DayKeysOf(StoredOccurrences(rows, def), env.offset);
          Ok(VirtualRecords(def, UnseenDates(dates, existing, env.offset), env))
  }

  /** The dates whose day is not in `existing`, in order. */
  function UnseenDates(dates: seq<Timestamp>, existing: set<int>, offset: int): (r: seq<Timestamp>)
    ensures forall t :: t in r <==> t in dates && DayKey(t, offset) !in existing
  {
    Filter(dates, (t: Timestamp) => DayKey(t, offset) !in existing)
  }

  /** One record per date, in order. */
  function VirtualRecords(def: Definition, dates: seq<Timestamp>, env: Env): (r: seq<Txn>)
    ensures |r| == |dates| && forall i :: 0 <= i < |dates| ==> r[i] == VirtualRecord(def, dates[i], env)
  {
    Map(dates, (t: Timestamp) => VirtualRecord(def, t, env))
  }

  /** What `generateFutureTransactions` promises about its records. */
  lemma FutureTransactionsSound(def: Definition, f: Filters, env: Env, rows: seq<Txn>, lookup: Option<Fault>)
    ensures var r := FutureTransactions(def, f, env, rows, lookup);
      && (r.Err? <==> ParseRule(def.recurrenceRule).Err?)
      && (def.startDate > RequestDate(f, env.now) && r.Ok? ==> r.value == [])
      && (r.Ok? ==> forall v :: v in r.value ==>
            CopiesDefinition(v, def)
            && InWindow(SearchWindow(f, env), v.date)
            && (f.date.None? ==> v.date >= env.now)
            && v.date in Candidates(def, ParseRule(def.recurrenceRule).value, f, env)
            && forall t :: t in rows && LinkedTo(t, def) ==> DayKey(t.date, env.offset) != DayKey(v.date, env.offset))
  {
    var r := FutureTransactions(def, f, env, rows, lookup);
    if ParseRule(def.recurrenceRule).Ok? && def.startDate <= RequestDate(f, env.now) {
      var opts := ParseRule(def.recurrenceRule).value;
      var dates := Eligible(Candidates(def, opts, f, env), f, env);
      if !(dates != [] && lookup.Some?) {
        var existing := if dates == [] then {} else DayKeysOf(StoredOccurrences(rows, def), env.offset);
        var unseen := UnseenDates(dates, existing, env.offset);
        assert r == Ok(VirtualRecords(def, unseen, env));
        RecordsOfUnseen(def, env, rows, dates, unseen);
      }
    }
  }

  /** Each record built from an unseen date copies the definition and has a
      day no stored occurrence of it has. */
  lemma RecordsOfUnseen(def: Definition, env: Env, rows: seq<Txn>, dates: seq<Timestamp>, unseen: seq<Timestamp>)
    requires forall t :: t in unseen ==> t in dates && DayKey(t, env.offset) !in DayKeysOf(StoredOccurrences(rows, def), env.offset)
    ensures forall v :: v in VirtualRecords(def, unseen, env) ==>
              CopiesDefinition(v, def) && v.date in dates
              && forall t :: t in rows && LinkedTo(t, def) ==> DayKey(t.date, env.offset) != DayKey(v.date, env.offset)
  {
    var out := VirtualRecords(def, unseen, env);
    forall v | v in out
      ensures CopiesDefinition(v, def) && v.date in dates
              && forall t :: t in rows && LinkedTo(t, def) ==> DayKey(t.date, env.offset) != DayKey(v.date, env.offset)
    {
      var k :| 0 <= k < |out| && out[k] == v;
      NotStoredDay(rows, def, unseen[k], env.offset);
    }
  }

  /** A date whose day is not among the stored occurrences' days differs in
      day from each of them. */
  lemma NotStoredDay(rows: seq<Txn>, def: Definition, d: Timestamp, offset: int)
    requires DayKey(d, offset) !in DayKeysOf(StoredOccurrences(rows, def), offset)
    ensures forall t :: t in rows && LinkedTo(t, def) ==> DayKey(t.date, offset) != DayKey(d, offset)
  {
    forall t | t in rows && LinkedTo(t, def) ensures DayKey(t.date, offset) != DayKey(d, offset) {
      assert t in StoredOccurrences(rows, def);
    }
  }

  /** The `forEach` that fills the set of existing day keys. */
  method CollectDayKeys(stored: seq<Txn>, offset: int) returns (existing: set<int>)
    ensures existing == DayKeysOf(stored, offset)
  {
    existing := {};
    var i := 0;
    while i < |stored|
      invariant 0 <= i <= |stored|
      invariant existing == DayKeysOf(stored[..i], offset)
    {
      assert stored[..i + 1][..i] == stored[..i];
      existing := existing + {DayKey(stored[i].date, offset)};
      i := i + 1;
    }
    assert stored[..i] == stored;
  }

  /** `generateFutureTransactions`. */
  method GenerateFutureTransactions(db: Store, def: Definition, f: Filters, env: Env)
    returns (r: Result<seq<Txn>, Failure>)
    ensures r == FutureTransactions(def, f, env, db.transactions, db.FaultAt(Transactions, Select, def.id))
  {
    var parsed := ParseRule(def.recurrenceRule);
    if parsed.Err? {
      return Err(MalformedRule(parsed.error));
    }
    if def.startDate > RequestDate(f, env.now) {
      return Ok([]);
    }
    var opts := parsed.value;
    var dates := Eligible(Candidates(def, opts, f, env), f, env);
    var existing: set<int> := {};
    if dates != [] {
      var lookup := db.FaultAt(Transactions, Select, def.id);
      if lookup.Some? {
        return Ok([]);
      }
      existing := CollectDayKeys(StoredOccurrences(db.transactions, def), env.offset);
    }
    var unseen := UnseenDates(dates, existing, env.offset);
    r := Ok(VirtualRecords(def, unseen, env));
  }

  /** Conversely, every eligible occurrence whose day is not yet stored gets
      a virtual record, once the existence lookup has succeeded. */
  lemma FutureTransactionsComplete(def: Definition, f: Filters, env: Env, rows: seq<Txn>, t: Timestamp)
    requires ParseRule(def.recurrenceRule).Ok? && def.startDate <= RequestDate(f, env.now)
    requires t in Candidates(def, ParseRule(def.recurrenceRule).value, f, env)
    requires InWindow(SearchWindow(f, env), t) && (f.date.None? ==> t >= env.now)
    requires forall s :: s in rows && LinkedTo(s, def) ==> DayKey(s.date, env.offset) != DayKey(t, env.offset)
    ensures FutureTransactions(def, f, env, rows, None).Ok?
    ensures exists v :: v in FutureTransactions(def, f, env, rows, None).value && v.date == t
  {
    FutureTransactionsSound(def, f, env, rows, None);
    var opts := ParseRule(def.recurrenceRule).value;
    var dates := Eligible(Candidates(def, opts, f, env), f, env);
    assert t in dates;
    var existing := DayKeysOf(StoredOccurrences(rows, def), env.offset);
    assert FutureTransactions(def, f, env, rows, None) == Ok(VirtualRecords(def, UnseenDates(dates, existing, env.offset), env));
    UnseenGetsRecord(def, env, rows, dates, t);
  }

  /** A date whose day no stored occurrence has gets a record. */
  lemma UnseenGetsRecord(def: Definition, env: Env, rows: seq<Txn>, dates: seq<Timestamp>, t: Timestamp)
    requires t in dates
    requires forall s :: s in rows && LinkedTo(s, def) ==> DayKey(s.date, env.offset) != DayKey(t, env.offset)
    ensures var existing := DayKeysOf(StoredOccurrences(rows, def), env.offset);
            exists v :: v in VirtualRecords(def, UnseenDates(dates, existing, env.offset), env) && v.date == t
  {
    var existing := DayKeysOf(StoredOccurrences(rows, def), env.offset);
    assert DayKey(t, env.offset) !in existing;
    var unseen := UnseenDates(dates, existing, env.offset);
    var out := VirtualRecords(def, unseen, env);
    var k :| 0 <= k < |unseen| && unseen[k] == t;
    assert out[k] in out && out[k].date == t;
  }

  /* ---- get: the stored rows ---- */

  /** The month filter on stored rows compares the date column with the local
      start and end of the month written as `yyyy-MM-dd HH:mm:ss`, text
      without a zone that the database reads as UTC; the end loses its
      milliseconds. */
  function StoredMonthStart(d: Timestamp, offset: int): Timestamp {
    StartOfMonth(d, offset) + offset
  }

  function StoredMonthEnd(d: Timestamp, offset: int): Timestamp {
    EndOfMonth(d, offset) + offset - 999
  }

  /** The filters of the query on `transactions`. */
  predicate StoredMatch(t: Txn, f: Filters, offset: int) {
    t.userId == f.userId
    && (f.kind.Some? ==> t.kind == f.kind.value)
    && (Truthy(f.categoryId) ==> t.categoryId == f.categoryId)
    && (Truthy(f.tagId) ==> t.tagId == f.tagId)
    && (f.date.Some? ==> StoredMonthStart(f.date.value, offset) <= t.date <= StoredMonthEnd(f.date.value, offset))
  }

  /** The status filter is written on the embedded `payment_status`, so it
      narrows the embedding and not the rows: a row with another status stays,
      without its status. */
  function EmbedStatus(t: Txn, f: Filters): (r: Txn)
    ensures r.(paymentStatus := t.paymentStatus) == t
    ensures Truthy(f.status) ==> r.paymentStatus.None? || r.paymentStatus == f.status
    ensures Truthy(f.status) && t.paymentStatus == f.status ==> r == t
    ensures !Truthy(f.status) ==> r == t
  {
    if Truthy(f.status) && t.paymentStatus != f.status then t.(paymentStatus := None) else t
  }

  /** The rows the query on `transactions` returns, in table order. */
  function StoredTransactions(rows: seq<Txn>, f: Filters, offset: int): (r: seq<Txn>)
    ensures |r| <= |rows|
    ensures forall t :: t in r ==> StoredMatch(t, f, offset)
    ensures forall t :: t in r && Truthy(f.status) ==> t.paymentStatus.None? || t.paymentStatus == f.status
    ensures forall t :: t in rows && StoredMatch(t, f, offset) ==> EmbedStatus(t, f) in r
  {
    var matching := Filter(rows, (t: Txn) => StoredMatch(t, f, offset));
    EmbeddedRows(matching, f, offset);
    Map(matching, (t: Txn) => EmbedStatus(t, f))
  }

  /** Narrowing the embedding keeps a row matching and leaves at most the
      requested status on it. */
  lemma EmbeddedRows(matching: seq<Txn>, f: Filters, offset: int)
    requires forall t :: t in matching ==> StoredMatch(t, f, offset)
    ensures var r := Map(matching, (t: Txn) => EmbedStatus(t, f));
      && (forall t :: t in r ==> StoredMatch(t, f, offset))
      && (forall t :: t in r && Truthy(f.status) ==> t.paymentStatus.None? || t.paymentStatus == f.status)
      && (forall t :: t in matching ==> EmbedStatus(t, f) in r)
  {
    var r := Map(matching, (t: Txn) => EmbedStatus(t, f));
    forall t | t in r ensures StoredMatch(t, f, offset) {
      var k :| 0 <= k < |r| && r[k] == t;
      EmbedKeepsMatch(matching[k], f, offset);
    }
    forall t | t in matching ensures EmbedStatus(t, f) in r {
      var k :| 0 <= k < |matching| && matching[k] == t;
      assert r[k] == EmbedStatus(t, f);
    }
  }

  lemma EmbedKeepsMatch(t: Txn, f: Filters, offset: int)
    requires StoredMatch(t, f, offset)
    ensures StoredMatch(EmbedStatus(t, f), f, offset)
  {
    assert EmbedStatus(t, f).(paymentStatus := t.paymentStatus) == t;
  }

  /* ---- get: the virtual records ---- */

  /** The definitions that are expanded: the user's, without an end date or
      ending on or after the request date. */
  function ActiveDefinitions(defs: seq<Definition>, f: Filters, now: Timestamp): (r: seq<Definition>)
    ensures forall d :: d in r <==> (d in defs && d.userId == f.userId
                                    && (d.endDate.Some? ==> d.endDate.value >= RequestDate(f, now)))
  {
    var owned := Filter(defs, (d: Definition) => d.userId == f.userId);
    Filter(owned, (d: Definition) => d.endDate.None? || d.endDate.value >= RequestDate(f, now))
  }

  /** The virtual records of all `defs`, in definition order; the first
      failure fails the whole. */
  function GenerateAll(defs: seq<Definition>, f: Filters, env: Env, rows: seq<Txn>, faults: map<Call, Fault>)
    : (r: Result<seq<Txn>, Failure>)
    ensures r.Ok? ==> forall v :: v in r.value ==>
              exists d :: d in defs && CopiesDefinition(v, d) && InWindow(SearchWindow(f, env), v.date)
    decreases |defs|
  {
    if defs == [] then Ok([])
    else
      var last := defs[|defs| - 1];
      match GenerateAll(defs[..|defs| - 1], f, env, rows, faults)
      case Err(e) => Err(e)
      case Ok(vs) =>
        var lookup := FaultOf(faults, Transactions, Select, last.id);
        FutureTransactionsSound(last, f, env, rows, lookup);
        match FutureTransactions(last, f, env, rows, lookup)
        case Err(e) => Err(e)
        case Ok(v) => Ok(vs + v)
  }

  lemma {:induction false} GenerateAllFailed(defs: seq<Definition>, k: nat, f: Filters, env: Env, rows: seq<Txn>, faults: map<Call, Fault>)
    requires k <= |defs| && GenerateAll(defs[..k], f, env, rows, faults).Err?
    ensures GenerateAll(defs, f, env, rows, faults) == GenerateAll(defs[..k], f, env, rows, faults)
    decreases |defs| - k
  {
    if k < |defs| {
      var init := defs[..|defs| - 1];
      assert init[..k] == defs[..k];
      GenerateAllFailed(init, k, f, env, rows, faults);
      GenerateAllFailedStep(defs, f, env, rows, faults);
    } else {
      assert defs[..k] == defs;
    }
  }

  lemma GenerateAllFailedStep(defs: seq<Definition>, f: Filters, env: Env, rows: seq<Txn>, faults: map<Call, Fault>)
    requires defs != [] && GenerateAll(defs[..|defs| - 1], f, env, rows, faults).Err?
    ensures GenerateAll(defs, f, env, rows, faults) == GenerateAll(defs[..|defs| - 1], f, env, rows, faults)
  {
  }

  lemma GenerateAllNext(defs: seq<Definition>, i: nat, f: Filters, env: Env, rows: seq<Txn>, faults: map<Call, Fault>)
    requires i < |defs| && GenerateAll(defs[..i], f, env, rows, faults).Ok?
    ensures var next := FutureTransactions(defs[i], f, env, rows, FaultOf(faults, Transactions, Select, defs[i].id));
            GenerateAll(defs[..i + 1], f, env, rows, faults)
              == if next.Err? then Err(next.error) else Ok(GenerateAll(defs[..i], f, env, rows, faults).value + next.value)
  {
    assert defs[..i + 1][..i] == defs[..i];
  }

  /** The feed's flags on a virtual record. */
  function Flagged(v: Txn): (r: Txn)
    ensures r.isVirtual && r.isRecurringGenerated
    ensures r.(isVirtual := v.isVirtual, isRecurringGenerated := v.isRecurringGenerated) == v
  {
    v.(isRecurringGenerated := true, isVirtual := true)
  }

  /** The filters applied to virtual records: the type, and the month window
      when a date is given; nothing else. */
  function VisibleVirtual(vs: seq<Txn>, f: Filters, offset: int): (r: seq<Txn>)
    ensures forall t :: t in r <==>
              (exists v :: v in vs && t == Flagged(v))
              && (f.kind.Some? ==> t.kind == f.kind.value)
              && (f.date.Some? ==> InWindow(MonthWindow(f.date.value, offset), t.date))
  {
    var flagged := Map(vs, Flagged);
    FlaggedAll(vs);
    OfMonth(OfKind(flagged, f), f, offset)
  }

  /** The type filter, when a type is given. */
  function OfKind(s: seq<Txn>, f: Filters): (r: seq<Txn>)
    ensures forall t :: t in r <==> t in s && (f.kind.Some? ==> t.kind == f.kind.value)
  {
    if f.kind.Some? then Filter(s, (t: Txn) => t.kind == f.kind.value) else s
  }

  /** The month filter, when a date is given. */
  function OfMonth(s: seq<Txn>, f: Filters, offset: int): (r: seq<Txn>)
    ensures forall t :: t in r <==> t in s && (f.date.Some? ==> InWindow(MonthWindow(f.date.value, offset), t.date))
  {
    if f.date.Some? then
      var month := MonthWindow(f.date.value, offset);
      Filter(s, (t: Txn) => InWindow(month, t.date))
    else s
  }

  /** The flagged copies are exactly the records flagged. */
  lemma FlaggedAll(vs: seq<Txn>)
    ensures forall t :: t in Map(vs, Flagged) <==> exists v :: v in vs && t == Flagged(v)
  {
    var flagged := Map(vs, Flagged);
    forall t | t in flagged ensures exists v :: v in vs && t == Flagged(v) {
      var k :| 0 <= k < |flagged| && flagged[k] == t;
      assert t == Flagged(vs[k]);
    }
    forall t | exists v :: v in vs && t == Flagged(v) ensures t in flagged {
      var v :| v in vs && t == Flagged(v);
      var k :| 0 <= k < |vs| && vs[k] == v;
      assert flagged[k] == t;
    }
  }

  /* ---- get: de-duplication ---- */

  /** Both records stand for the same occurrence: the same recurring id and
      the same day. */
  predicate SameSlot(a: Txn, b: Txn, offset: int) {
    a.recurrentId == b.recurrentId && DayKey(a.date, offset) == DayKey(b.date, offset)
  }

  /** The `isDuplicate` test of `existing` against `current`. */
  predicate DuplicateOf(existing: Txn, current: Txn, offset: int) {
    if Truthy(existing.recurrentId) && Truthy(current.recurrentId) then SameSlot(existing, current, offset)
    else if current.isVirtual && !existing.isVirtual then SameSlot(existing, current, offset)
    else false
  }

  /** `acc.some(existing => isDuplicate(existing, current))` */
  predicate HasDuplicate(acc: seq<Txn>, current: Txn, offset: int) {
    exists e :: e in acc && DuplicateOf(e, current, offset)
  }

  /** The result of the de-duplicating `reduce`: each record is kept unless
      an already kept one duplicates it. */
  function Unique(s: seq<Txn>, offset: int): (r: seq<Txn>)
    ensures |r| <= |s|
    ensures forall t :: t in r ==> t in s
    decreases |s|
  {
    if s == [] then []
    else
      var kept := Unique(s[..|s| - 1], offset);
      if HasDuplicate(kept, s[|s| - 1], offset) then kept else kept + [s[|s| - 1]]
  }

  /** Which positions of `s` the `reduce` keeps. */
  function KeptMask(s: seq<Txn>, offset: int): (m: seq<bool>)
    ensures |m| == |s|
  {
    seq(|s|, j requires 0 <= j < |s| => !HasDuplicate(Unique(s[..j], offset), s[j], offset))
  }

  /** The `reduce` with its accumulator. */
  method Dedup(all: seq<Txn>, offset: int) returns (acc: seq<Txn>)
    ensures acc == Unique(all, offset)
  {
    acc := [];
    var i := 0;
    while i < |all|
      invariant 0 <= i <= |all|
      invariant acc == Unique(all[..i], offset)
    {
      assert all[..i + 1][..i] == all[..i];
      var current := all[i];
      var isDuplicate := exists e :: e in acc && DuplicateOf(e, current, offset);
      if !isDuplicate {
        acc := acc + [current];
      }
      i := i + 1;
    }
    assert all[..i] == all;
  }

  /** The result is the subsequence of kept positions. */
  lemma {:induction false} UniqueIsSubsequence(s: seq<Txn>, offset: int)
    ensures Pick(s, KeptMask(s, offset)) == Unique(s, offset)
    decreases |s|
  {
    if s != [] {
      var n := |s| - 1;
      var init, m := s[..n], KeptMask(s, offset);
      UniqueIsSubsequence(init, offset);
      PickLast(s, m);
      KeptMaskInit(s, offset);
      assert s[..n] == init;
      assert m[n] == !HasDuplicate(Unique(init, offset), s[n], offset);
    }
  }

  /** The positions kept in all but the last record are kept in the whole. */
  lemma KeptMaskInit(s: seq<Txn>, offset: int)
    requires s != []
    ensures KeptMask(s, offset)[..|s| - 1] == KeptMask(s[..|s| - 1], offset)
  {
    var init := s[..|s| - 1];
    forall j | 0 <= j < |init| ensures KeptMask(s, offset)[j] == KeptMask(init, offset)[j] {
      assert s[..j] == init[..j];
    }
  }

  /** No two records that both have a recurring id share a slot. */
  predicate OnePerSlot(r: seq<Txn>, offset: int) {
    forall i, j :: 0 <= i < j < |r| && Truthy(r[i].recurrentId) && Truthy(r[j].recurrentId)
      ==> !SameSlot(r[i], r[j], offset)
  }

  lemma {:induction false} UniqueNoTwoInOneSlot(s: seq<Txn>, offset: int)
    ensures OnePerSlot(Unique(s, offset), offset)
    decreases |s|
  {
    if s != [] {
      var init := s[..|s| - 1];
      UniqueNoTwoInOneSlot(init, offset);
      var kept := Unique(init, offset);
      var r := Unique(s, offset);
      if !HasDuplicate(kept, s[|s| - 1], offset) {
        assert r == kept + [s[|s| - 1]];
        forall i, j | 0 <= i < j < |r| && Truthy(r[i].recurrentId) && Truthy(r[j].recurrentId)
          ensures !SameSlot(r[i], r[j], offset)
        {
          if j == |r| - 1 {
            assert r[i] == kept[i] && r[j] == s[|s| - 1];
            assert r[i] in kept;
            assert !DuplicateOf(r[i], s[|s| - 1], offset);
          } else {
            assert r[i] == kept[i] && r[j] == kept[j];
          }
        }
      } else {
        assert r == kept;
      }
    }
  }

  /** A stored record without a recurring id is never dropped. */
  predicate UnlinkedStored(t: Txn) {
    !Truthy(t.recurrentId) && !t.isVirtual
  }

  lemma {:induction false} UniqueKeepsUnlinked(s: seq<Txn>, offset: int)
    ensures Filter(Unique(s, offset), UnlinkedStored) == Filter(s, UnlinkedStored)
    decreases |s|
  {
    if s != [] {
      var init, last := s[..|s| - 1], s[|s| - 1];
      assert s == init + [last];
      UniqueKeepsUnlinked(init, offset);
      var kept := Unique(init, offset);
      FilterAppend(init, [last], UnlinkedStored);
      if HasDuplicate(kept, last, offset) {
        var e :| e in kept && DuplicateOf(e, last, offset);
        assert !UnlinkedStored(last);
        assert [last][..0] == [];
      } else {
        FilterAppend(kept, [last], UnlinkedStored);
      }
    }
  }

  /** Some record of `r` with a recurring id has the slot of `t`. */
  predicate Covered(r: seq<Txn>, t: Txn, offset: int) {
    exists e :: e in r && Truthy(e.recurrentId) && SameSlot(e, t, offset)
  }

  /** Every record with a recurring id has a kept record in its slot. */
  lemma {:induction false} UniqueCoversSlots(s: seq<Txn>, offset: int)
    ensures forall i :: 0 <= i < |s| && Truthy(s[i].recurrentId) ==> Covered(Unique(s, offset), s[i], offset)
    decreases |s|
  {
    if s != [] {
      var init, last := s[..|s| - 1], s[|s| - 1];
      UniqueCoversSlots(init, offset);
      var kept, r := Unique(init, offset), Unique(s, offset);
      forall i | 0 <= i < |s| && Truthy(s[i].recurrentId) ensures Covered(r, s[i], offset) {
        if i < |s| - 1 {
          assert init[i] == s[i];
          CoveredGrows(kept, last, s[i], offset);
        } else if HasDuplicate(kept, last, offset) {
          var e :| e in kept && DuplicateOf(e, last, offset);
          assert Truthy(e.recurrentId) && e in r;
        } else {
          assert last in r;
        }
      }
    }
  }

  /** Keeping one more record keeps every covered slot covered. */
  lemma CoveredGrows(kept: seq<Txn>, x: Txn, t: Txn, offset: int)
    requires Covered(kept, t, offset)
    ensures Covered(kept + [x], t, offset)
  {
    var e :| e in kept && Truthy(e.recurrentId) && SameSlot(e, t, offset);
    assert e in kept + [x];
  }

  /** First wins: a record with a recurring id is kept exactly when no
      earlier record with a recurring id has its slot. */
  lemma FirstInSlotWins(s: seq<Txn>, offset: int, j: nat)
    requires j < |s| && Truthy(s[j].recurrentId)
    ensures KeptMask(s, offset)[j] <==>
              forall i :: 0 <= i < j && Truthy(s[i].recurrentId) ==> !SameSlot(s[i], s[j], offset)
  {
    var before := s[..j];
    var kept := Unique(before, offset);
    if HasDuplicate(kept, s[j], offset) {
      var e :| e in kept && DuplicateOf(e, s[j], offset);
      assert e in before;
      var i :| 0 <= i < j && before[i] == e;
      assert Truthy(s[i].recurrentId) && SameSlot(s[i], s[j], offset);
    } else {
      UniqueCoversSlots(before, offset);
      forall i | 0 <= i < j && Truthy(s[i].recurrentId) ensures !SameSlot(s[i], s[j], offset) {
        assert before[i] == s[i];
        assert Covered(kept, s[i], offset);
        var e :| e in kept && Truthy(e.recurrentId) && SameSlot(e, s[i], offset);
        assert !DuplicateOf(e, s[j], offset);
      }
    }
  }

  /** A stored record beats a later virtual record of the same slot. */
  lemma StoredBeatsVirtual(s: seq<Txn>, offset: int, i: nat, j: nat)
    requires i < j < |s| && !s[i].isVirtual && s[j].isVirtual
    requires Truthy(s[i].recurrentId) && SameSlot(s[i], s[j], offset)
    ensures !KeptMask(s, offset)[j]
  {
    FirstInSlotWins(s, offset, j);
  }

  /* ---- get: order and page ---- */

  /** The value the comparator reads for each sort field; absent joined
      descriptions read as "". */
  function SortKeyOf(field: SortField): Txn -> SortKey {
    match field
    case ByPaymentStatus => (t: Txn) => Str(t.paymentStatus.GetOr(""))
    case ByCategory => (t: Txn) => Str(t.category.GetOr(""))
    case ByTag => (t: Txn) => Str(t.tag.GetOr(""))
    case ByDate => (t: Txn) => Num(t.date)
    case ByAmount => (t: Txn) => Num(t.amount)
    case ByDescription => (t: Txn) => Str(t.description)
    case ByType => (t: Txn) => Str(KindName(t.kind))
  }

  /** An index argument of `slice`: negative counts from the end. */
  function SliceIndex(i: int, n: nat): (r: nat)
    ensures r <= n
    ensures 0 <= i <= n ==> r == i
  {
    if i < 0 then (if n + i < 0 then 0 else n + i) else if i > n then n else i
  }

  /** `s.slice(start, end)` */
  function JsSlice<T>(s: seq<T>, start: int, end: int): (r: seq<T>)
    ensures |r| <= |s|
    ensures start <= end ==> |r| <= end - start
    ensures forall x :: x in r ==> x in s
  {
    var lo, hi := SliceIndex(start, |s|), SliceIndex(end, |s|);
    if lo < hi then s[lo..hi] else []
  }

  /** `Math.ceil(total / limit)`: a division by zero gives Infinity, or NaN
      for 0 / 0. */
  datatype PageCount = Pages(n: int) | Infinity | NaN

  function TotalPages(total: nat, limit: int): (r: PageCount)
    ensures limit > 0 ==> r.Pages? && r.n >= 0 && (r.n - 1) * limit < total <= r.n * limit
  {
    if limit > 0 then
      CeilDivision(total, limit);
      Pages((total + limit - 1) / limit)
    else if limit < 0 then Pages(-(total / -limit))
    else if total > 0 then Infinity
    else NaN
  }

  lemma CeilDivision(total: nat, limit: int)
    requires limit > 0
    ensures var n := (total + limit - 1) / limit; n >= 0 && (n - 1) * limit < total <= n * limit
  {
    var n := (total + limit - 1) / limit;
    var m := (total + limit - 1) % limit;
    assert total + limit - 1 == n * limit + m;
    assert (n - 1) * limit == n * limit - limit;
  }

  datatype Page = Page(data: seq<Txn>, total: nat, page: int, limit: int, totalPages: PageCount)

  function Paginate(sorted: seq<Txn>, page: int, limit: int): (r: Page)
    ensures r.total == |sorted| && r.page == page && r.limit == limit
    ensures limit > 0 ==> |r.data| <= limit
    ensures page > 0 && limit > 0 ==> Prefix(sorted, (page - 1) * limit) + r.data == Prefix(sorted, page * limit)
  {
    var start := (page - 1) * limit;
    var r := Page(JsSlice(sorted, start, start + limit), |sorted|, page, limit, TotalPages(|sorted|, limit));
    if page > 0 && limit > 0 then
      PageStep(sorted, page, limit);
      r
    else r
  }

  /** The records before page `k`, then page `k`, are the records of the
      first `k` pages. */
  lemma PageStep<T>(s: seq<T>, k: nat, limit: int)
    requires k > 0 && limit > 0
    ensures Prefix(s, (k - 1) * limit) + JsSlice(s, (k - 1) * limit, (k - 1) * limit + limit) == Prefix(s, k * limit)
  {
    PageBounds(k, limit);
    SliceStep(s, (k - 1) * limit, k * limit);
  }

  /** The pages 1..k of `s`, concatenated. */
  function PageRun(s: seq<Txn>, limit: int, k: nat): seq<Txn> {
    if k == 0 then [] else PageRun(s, limit, k - 1) + Paginate(s, k, limit).data
  }

  /** The first `n` records of `s`, or all of them when there are fewer. */
  function Prefix<T>(s: seq<T>, n: nat): (r: seq<T>)
    ensures |r| == if n < |s| then n else |s|
  {
    s[..if n < |s| then n else |s|]
  }

  lemma {:induction false} PageRunPrefix(s: seq<Txn>, limit: int, k: nat)
    requires limit > 0
    ensures PageRun(s, limit, k) == Prefix(s, k * limit)
  {
    if k > 0 {
      PageRunPrefix(s, limit, k - 1);
      PageBounds(k, limit);
      PageRunStep(s, limit, k);
      SliceStep(s, (k - 1) * limit, k * limit);
    }
  }

  /** Page `k` is the slice from `(k - 1) * limit` to `k * limit`. */
  lemma PageRunStep(s: seq<Txn>, limit: int, k: nat)
    requires k > 0 && limit > 0
    ensures PageRun(s, limit, k) == PageRun(s, limit, k - 1) + JsSlice(s, (k - 1) * limit, k * limit)
  {
    PageBounds(k, limit);
  }

  lemma PageBounds(k: nat, limit: int)
    requires k > 0 && limit > 0
    ensures 0 <= (k - 1) * limit <= k * limit == (k - 1) * limit + limit
  {
  }

  /** The records before index `a`, then `slice(a, b)`, are the records
      before index `b`. */
  lemma SliceStep<T>(s: seq<T>, a: nat, b: nat)
    requires a <= b
    ensures Prefix(s, a) + JsSlice(s, a, b) == Prefix(s, b)
  {
  }

  /** With a positive limit the pages 1..totalPages, in order, are exactly the
      sorted list: no record is skipped or shown twice. */
  lemma PagesCoverAll(s: seq<Txn>, limit: int)
    requires limit > 0
    ensures PageRun(s, limit, TotalPages(|s|, limit).n) == s
  {
    var n := TotalPages(|s|, limit).n;
    PageRunPrefix(s, limit, n);
  }

  /* ---- get ---- */

  /** The list before sorting: stored rows first, then the visible virtual
      records. */
  function Merged(rows: seq<Txn>, vs: seq<Txn>, f: Filters, offset: int): seq<Txn> {
    StoredTransactions(rows, f, offset) + VisibleVirtual(vs, f, offset)
  }

  function Feed(rows: seq<Txn>, defs: seq<Definition>, faults: map<Call, Fault>, f: Filters, env: Env)
    : (r: Result<Page, Failure>)
    ensures FaultOf(faults, Transactions, Select, f.userId).Some? ==>
              r == Err(StorageFailure(FaultOf(faults, Transactions, Select, f.userId).value))
    ensures r.Ok? ==> r.value.page == f.page.GetOr(1) && r.value.limit == f.limit.GetOr(10)
                      && |r.value.data| <= r.value.total
    ensures r.Ok? && f.limit.GetOr(10) > 0 ==> |r.value.data| <= f.limit.GetOr(10)
  {
    match FaultOf(faults, Transactions, Select, f.userId)
    case Some(e) => Err(StorageFailure(e))
    case None =>
      match FaultOf(faults, RecurringTransactions, Select, f.userId)
      case Some(e) => Err(StorageFailure(e))
      case None =>
        match GenerateAll(ActiveDefinitions(defs, f, env.now), f, env, rows, faults)
        case Err(e) => Err(e)
        case Ok(vs) =>
          Ok(PageOf(Unique(Merged(rows, vs, f, env.offset), env.offset), f))
  }

  /** The de-duplicated list sorted as the request asks (by date, descending,
      by default) and cut to the requested page (page 1 of 10 by default). */
  function PageOf(unique: seq<Txn>, f: Filters): Page {
    var sorted := Sort(unique, SortKeyOf(f.sortBy.GetOr(ByDate)), f.sortOrder.GetOr(Desc) == Desc);
    Paginate(sorted, f.page.GetOr(1), f.limit.GetOr(10))
  }

  /** `get(filters)`. */
  method Get(db: Store, f: Filters, env: Env) returns (r: Result<Page, Failure>)
    ensures r == Feed(db.transactions, db.recurring, db.faults, f, env)
  {
    var storedFault := db.FaultAt(Transactions, Select, f.userId);
    if storedFault.Some? {
      return Err(StorageFailure(storedFault.value));
    }
    var stored := StoredTransactions(db.transactions, f, env.offset);
    var definitionsFault := db.FaultAt(RecurringTransactions, Select, f.userId);
    if definitionsFault.Some? {
      return Err(StorageFailure(definitionsFault.value));
    }
    var active := ActiveDefinitions(db.recurring, f, env.now);
    var future: seq<Txn> := [];
    var i := 0;
    while i < |active|
      invariant 0 <= i <= |active|
      invariant GenerateAll(active[..i], f, env, db.transactions, db.faults) == Ok(future)
    {
      GenerateAllNext(active, i, f, env, db.transactions, db.faults);
      var generated := GenerateFutureTransactions(db, active[i], f, env);
      if generated.Err? {
        GenerateAllFailed(active, i + 1, f, env, db.transactions, db.faults);
        return Err(generated.error);
      }
      future := future + generated.value;
      i := i + 1;
    }
    assert active[..i] == active;
    var all := stored + VisibleVirtual(future, f, env.offset);
    var unique := Dedup(all, env.offset);
    r := Ok(PageOf(unique, f));
  }

  /** `filters.date` as the request carries it: absent or empty is no date;
      otherwise `new Date(date)`, given as `parseDate`. A string it cannot read
      is an Invalid Date, which is truthy, so `format` throws "Invalid time
      value" before any query runs. */
  function RequestedDate(text: Option<string>, parseDate: string -> Option<Timestamp>)
    : (r: Result<Option<Timestamp>, Failure>)
    ensures r.Err? <==> text.Some? && text.value != [] && parseDate(text.value).None?
    ensures r.Err? ==> r.error == InvalidTimeValue
    ensures r.Ok? && r.value.None? <==> text.None? || text.value == []
    ensures r.Ok? && r.value.Some? ==> text.Some? && r.value == parseDate(text.value)
  {
    match text
    case None => Ok(None)
    case Some(s) =>
      if s == [] then Ok(None)
      else match parseDate(s)
        case None => Err(InvalidTimeValue)
        case Some(t) => Ok(Some(t))
  }

  /** `get` on a request whose date is still text: an unreadable date fails
      whatever the tables hold; otherwise the feed of the parsed date. */
  function FeedOfRequest(rows: seq<Txn>, defs: seq<Definition>, faults: map<Call, Fault>, f: Filters,
                         dateText: Option<string>, parseDate: string -> Option<Timestamp>, env: Env)
    : (r: Result<Page, Failure>)
    ensures RequestedDate(dateText, parseDate).Err? ==> r == Err(InvalidTimeValue)
    ensures RequestedDate(dateText, parseDate).Ok? ==>
              r == Feed(rows, defs, faults, f.(date := RequestedDate(dateText, parseDate).value), env)
    ensures r.Ok? ==> r.value.page == f.page.GetOr(1) && r.value.limit == f.limit.GetOr(10)
  {
    match RequestedDate(dateText, parseDate)
    case Err(e) => Err(e)
    case Ok(date) => Feed(rows, defs, faults, f.(date := date), env)
  }

  /** `get(filters)` with `filters.date` as text; the `date` of `f` is
      replaced by the parsed one. */
  method GetRequest(db: Store, f: Filters, dateText: Option<string>, parseDate: string -> Option<Timestamp>, env: Env)
    returns (r: Result<Page, Failure>)
    ensures r == FeedOfRequest(db.transactions, db.recurring, db.faults, f, dateText, parseDate, env)
  {
    var date := RequestedDate(dateText, parseDate);
    if date.Err? {
      return Err(date.error);
    }
    r := Get(db, f.(date := date.value), env);
  }

  /** Every record on a page belongs to the requesting user: it is one of
      the user's stored rows that passed the query's filters, or a virtual
      record of one of the user's active definitions that passed the type and
      month filters. */
  lemma FeedRecordsBelongToUser(rows: seq<Txn>, defs: seq<Definition>, faults: map<Call, Fault>, f: Filters, env: Env)
    requires Feed(rows, defs, faults, f, env).Ok?
    ensures forall t :: t in Feed(rows, defs, faults, f, env).value.data ==>
              t.userId == f.userId
              && (t in StoredTransactions(rows, f, env.offset)
                  || (t.isVirtual && (f.kind.Some? ==> t.kind == f.kind.value)
                      && exists d :: d in ActiveDefinitions(defs, f, env.now) && CopiesDefinition(t, d)))
  {
    var active := ActiveDefinitions(defs, f, env.now);
    var vs := GenerateAll(active, f, env, rows, faults).value;
    var unique := Unique(Merged(rows, vs, f, env.offset), env.offset);
    var key, desc := SortKeyOf(f.sortBy.GetOr(ByDate)), f.sortOrder.GetOr(Desc) == Desc;
    var sorted := Sort(unique, key, desc);
    assert Feed(rows, defs, faults, f, env) == Ok(PageOf(unique, f));
    forall t | t in Feed(rows, defs, faults, f, env).value.data
      ensures t.userId == f.userId
      ensures t in StoredTransactions(rows, f, env.offset)
              || (t.isVirtual && (f.kind.Some? ==> t.kind == f.kind.value)
                  && exists d :: d in active && CopiesDefinition(t, d))
    {
      assert t in sorted;
      assert t in multiset(unique);
      assert t in Merged(rows, vs, f, env.offset);
      if t !in StoredTransactions(rows, f, env.offset) {
        assert t in VisibleVirtual(vs, f, env.offset);
        var v :| v in vs && t == Flagged(v);
        var d :| d in active && CopiesDefinition(v, d) && InWindow(SearchWindow(f, env), v.date);
        assert CopiesDefinition(t, d);
      }
    }
  }

  /** A page is in the requested order and holds at most one record per
      recurring slot. */
  lemma FeedPageOrdered(rows: seq<Txn>, defs: seq<Definition>, faults: map<Call, Fault>, f: Filters, env: Env)
    requires Feed(rows, defs, faults, f, env).Ok?
    ensures var data := Feed(rows, defs, faults, f, env).value.data;
            && Ordered(data, SortKeyOf(f.sortBy.GetOr(ByDate)), f.sortOrder.GetOr(Desc) == Desc)
            && OnePerSlot(data, env.offset)
  {
    var active := ActiveDefinitions(defs, f, env.now);
    var vs := GenerateAll(active, f, env, rows, faults).value;
    var merged := Merged(rows, vs, f, env.offset);
    assert Feed(rows, defs, faults, f, env) == Ok(PageOf(Unique(merged, env.offset), f));
    UniqueNoTwoInOneSlot(merged, env.offset);
    PageOfOrdered(Unique(merged, env.offset), f, env.offset);
  }

  lemma PageOfOrdered(unique: seq<Txn>, f: Filters, offset: int)
    requires OnePerSlot(unique, offset)
    ensures var data := PageOf(unique, f).data;
            && Ordered(data, SortKeyOf(f.sortBy.GetOr(ByDate)), f.sortOrder.GetOr(Desc) == Desc)
            && OnePerSlot(data, offset)
  {
    var key, desc := SortKeyOf(f.sortBy.GetOr(ByDate)), f.sortOrder.GetOr(Desc) == Desc;
    var sorted := Sort(unique, key, desc);
    PermutedOnePerSlot(unique, sorted, offset);
    var start := (f.page.GetOr(1) - 1) * f.limit.GetOr(10);
    SliceKeeps(sorted, start, start + f.limit.GetOr(10), key, desc, offset);
  }

  /** `slice` keeps the order and the one-per-slot property. */
  lemma SliceKeeps(s: seq<Txn>, start: int, end: int, key: Txn -> SortKey, desc: bool, offset: int)
    requires Ordered(s, key, desc) && OnePerSlot(s, offset)
    ensures Ordered(JsSlice(s, start, end), key, desc) && OnePerSlot(JsSlice(s, start, end), offset)
  {
    var lo, hi := SliceIndex(start, |s|), SliceIndex(end, |s|);
    if lo < hi {
      var r := s[lo..hi];
      assert forall i :: 0 <= i < |r| ==> r[i] == s[lo + i];
    }
  }

  /** A list with one record per slot holds each record with a recurring id
      at most once. */
  lemma {:induction false} OnceEach(a: seq<Txn>, offset: int)
    requires OnePerSlot(a, offset)
    ensures forall x: Txn :: Truthy(x.recurrentId) ==> multiset(a)[x] <= 1
    decreases |a|
  {
    if a != [] {
      var init, last := a[..|a| - 1], a[|a| - 1];
      assert a == init + [last];
      assert forall i :: 0 <= i < |init| ==> init[i] == a[i];
      OnceEach(init, offset);
      forall k | 0 <= k < |init| && Truthy(last.recurrentId) ensures init[k] != last {
        if Truthy(init[k].recurrentId) {
          assert !SameSlot(a[k], a[|a| - 1], offset);
        }
      }
    }
  }

  /** Two positions holding one value make it occur twice. */
  lemma TwoPositions<T>(s: seq<T>, i: nat, j: nat)
    requires i < j < |s|
    ensures s[i] == s[j] ==> multiset(s)[s[i]] >= 2
  {
    assert s == s[..j] + [s[j]] + s[j + 1..];
    assert s[..j][i] == s[i];
  }

  /** One record per slot survives any reordering, the sort's in
      particular. */
  lemma PermutedOnePerSlot(a: seq<Txn>, b: seq<Txn>, offset: int)
    requires multiset(a) == multiset(b) && OnePerSlot(a, offset)
    ensures OnePerSlot(b, offset)
  {
    OnceEach(a, offset);
    forall i, j | 0 <= i < j < |b| && Truthy(b[i].recurrentId) && Truthy(b[j].recurrentId)
      ensures !SameSlot(b[i], b[j], offset)
    {
      TwoPositions(b, i, j);
      assert b[i] != b[j];
      assert b[i] in multiset(a) && b[j] in multiset(a);
      var i' :| 0 <= i' < |a| && a[i'] == b[i];
      var j' :| 0 <= j' < |a| && a[j'] == b[j];
      assert i' != j';
      if i' < j' {
        assert !SameSlot(a[i'], a[j'], offset);
      } else {
        assert !SameSlot(a[j'], a[i'], offset);
      }
    }
  }

  /* ---- as written: `end_date.getTime()` on a row read as JSON ---- */

  /** Whether `generateFutureTransactions`, as written, throws for `def`: the
      rule is rejected, or the definition starts no later than the request
      date and has an end date, which the database hands over as a string,
      so `end_date.getTime` is not a function. */
  predicate ThrowsAsWritten(def: Definition, f: Filters, env: Env) {
    ParseRule(def.recurrenceRule).Err? || (def.startDate <= RequestDate(f, env.now) && def.endDate.Some?)
  }

  /** `generateFutureTransactions` as written: past the parse and the start
      check, an end date throws. */
  function FutureTransactionsAsWritten(def: Definition, f: Filters, env: Env, rows: seq<Txn>, lookup: Option<Fault>)
    : (r: Result<seq<Txn>, Failure>)
    ensures r.Err? <==> ThrowsAsWritten(def, f, env)
    ensures ParseRule(def.recurrenceRule).Ok? && def.startDate <= RequestDate(f, env.now) && def.endDate.Some? ==>
              r == Err(EndDateNotADate)
    ensures def.endDate.None? || r.Ok? ==> r == FutureTransactions(def, f, env, rows, lookup)
  {
    match ParseRule(def.recurrenceRule)
    case Err(m) => Err(MalformedRule(m))
    case Ok(_) =>
      if def.startDate > RequestDate(f, env.now) then Ok([])
      else if def.endDate.Some? then Err(EndDateNotADate)
      else FutureTransactions(def, f, env, rows, lookup)
  }

  /** `Promise.all` over the as-written generator: it fails exactly when one
      of the definitions throws. */
  function GenerateAllAsWritten(defs: seq<Definition>, f: Filters, env: Env, rows: seq<Txn>, faults: map<Call, Fault>)
    : (r: Result<seq<Txn>, Failure>)
    ensures r.Err? <==> exists d :: d in defs && ThrowsAsWritten(d, f, env)
    ensures r.Ok? ==> r == GenerateAll(defs, f, env, rows, faults)
    decreases |defs|
  {
    if defs == [] then Ok([])
    else
      var last := defs[|defs| - 1];
      var init := defs[..|defs| - 1];
      assert defs == init + [last];
      match GenerateAllAsWritten(init, f, env, rows, faults)
      case Err(e) => Err(e)
      case Ok(vs) =>
        match FutureTransactionsAsWritten(last, f, env, rows, FaultOf(faults, Transactions, Select, last.id))
        case Err(e) => Err(e)
        case Ok(v) => Ok(vs + v)
  }

  /** `get` as written. */
  function FeedAsWritten(rows: seq<Txn>, defs: seq<Definition>, faults: map<Call, Fault>, f: Filters, env: Env)
    : (r: Result<Page, Failure>)
    ensures FaultOf(faults, Transactions, Select, f.userId).None? && FaultOf(faults, RecurringTransactions, Select, f.userId).None? ==>
              (r.Err? <==> exists d :: d in ActiveDefinitions(defs, f, env.now) && ThrowsAsWritten(d, f, env))
    ensures r.Ok? ==> r == Feed(rows, defs, faults, f, env)
  {
    match FaultOf(faults, Transactions, Select, f.userId)
    case Some(e) => Err(StorageFailure(e))
    case None =>
      match FaultOf(faults, RecurringTransactions, Select, f.userId)
      case Some(e) => Err(StorageFailure(e))
      case None =>
        match GenerateAllAsWritten(ActiveDefinitions(defs, f, env.now), f, env, rows, faults)
        case Err(e) => Err(e)
        case Ok(vs) =>
          Ok(PageOf(Unique(Merged(rows, vs, f, env.offset), env.offset), f))
  }

  /** A definition of the user that is active, starts no later than the
      request date and has an end date makes `get` fail as written, where the
      corrected feed returns a page whenever every rule parses and the
      database answers. */
  lemma FeedAsWrittenFailsOnEndDate(rows: seq<Txn>, defs: seq<Definition>, faults: map<Call, Fault>, f: Filters, env: Env, d: Definition)
    requires FaultOf(faults, Transactions, Select, f.userId).None? && FaultOf(faults, RecurringTransactions, Select, f.userId).None?
    requires d in defs && d.userId == f.userId && d.endDate.Some?
    requires d.startDate <= RequestDate(f, env.now) <= d.endDate.value
    ensures FeedAsWritten(rows, defs, faults, f, env).Err?
    ensures (forall e :: e in defs ==> ParseRule(e.recurrenceRule).Ok?) ==> Feed(rows, defs, faults, f, env).Ok?
  {
    var active := ActiveDefinitions(defs, f, env.now);
    assert d in active && ThrowsAsWritten(d, f, env);
    if forall e :: e in defs ==> ParseRule(e.recurrenceRule).Ok? {
      GenerateAllOk(active, f, env, rows, faults);
    }
  }

  /** The corrected generator fails only on a rule that does not parse. */
  lemma {:induction false} GenerateAllOk(defs: seq<Definition>, f: Filters, env: Env, rows: seq<Txn>, faults: map<Call, Fault>)
    requires forall e :: e in defs ==> ParseRule(e.recurrenceRule).Ok?
    ensures GenerateAll(defs, f, env, rows, faults).Ok?
    decreases |defs|
  {
    if defs != [] {
      var init := defs[..|defs| - 1];
      assert forall e :: e in init ==> e in defs;
      GenerateAllOk(init, f, env, rows, faults);
      var last := defs[|defs| - 1];
      FutureTransactionsSound(last, f, env, rows, FaultOf(faults, Transactions, Select, last.id));
    }
  }

  /** The intended behaviour of the end date: a rule without a count is
      expanded only up to it, so no record of the corrected generator falls
      after the definition's end date or before its start. */
  lemma EndDateBoundsRecords(def: Definition, f: Filters, env: Env, rows: seq<Txn>, lookup: Option<Fault>)
    requires HonoursBetween(env.expand)
    requires def.endDate.Some? && ParseRule(def.recurrenceRule).Ok? && !HasCount(ParseRule(def.recurrenceRule).value)
    ensures FutureTransactions(def, f, env, rows, lookup).Ok?
    ensures forall v :: v in FutureTransactions(def, f, env, rows, lookup).value ==> def.startDate <= v.date <= def.endDate.value
  {
    FutureTransactionsSound(def, f, env, rows, lookup);
    var opts := ParseRule(def.recurrenceRule).value;
    var q := CandidateQuery(def, opts, f, env);
    forall v | v in FutureTransactions(def, f, env, rows, lookup).value
      ensures def.startDate <= v.date <= def.endDate.value
    {
      assert v.date in env.expand(q);
      var i :| 0 <= i < |env.expand(q)| && env.expand(q)[i] == v.date;
    }
  }
}

=== FILE: update_recurring.dfy ===
/** The update-recurring-transaction handler: it validates a partial body,
    renames its fields to column names and maps the service's outcome to
    400, 404, 500 or 200. */
module UpdateRecurring {
  import opened Common
  import opened Calendar
  import opened Records
  import opened Storage
  import opened Http
  import opened RecurringService

  /** A body the schema accepts: every field optional, `endDate` also
      nullable (`Some(None)` is an explicit `null`). */
  datatype Changes = Changes(
    description: Option<string>,
    kind: Option<Kind>,
    amount: Option<int>,
    recurrenceRule: Option<string>,
    startDate: Option<Timestamp>,
    endDate: Option<Option<Timestamp>>,
    note: Option<string>)

  /** What the schema asks of one optional field. */
  predicate AbsentOrText(j: Option<Json>) {
    j.None? || j.value.Text?
  }

  predicate AbsentOrKind(j: Option<Json>) {
    j.None? || j.value in {Text("income"), Text("outcome")}
  }

  predicate AbsentOrNumber(j: Option<Json>) {
    j.None? || j.value.Number?
  }

  predicate AbsentOrDate(j: Option<Json>, coerceDate: Json -> Option<Timestamp>) {
    j.None? || coerceDate(j.value).Some?
  }

  /** An optional string field: absent, or a string. */
  function OptionalText(j: Option<Json>): (r: Result<Option<string>, string>)
    ensures r.Ok? <==> AbsentOrText(j)
    ensures r.Ok? ==> (r.value.Some? <==> j.Some?)
    ensures r.Ok? && j.Some? ==> j.value == Text(r.value.value)
  {
    match j
    case None => Ok(None)
    case Some(Text(s)) => Ok(Some(s))
    case Some(_) => Err("expected string")
  }

  function OptionalKind(j: Option<Json>): (r: Result<Option<Kind>, string>)
    ensures r.Ok? <==> AbsentOrKind(j)
    ensures r.Ok? ==> (r.value.Some? <==> j.Some?)
    ensures r.Ok? && j.Some? ==> j.value == Text(KindName(r.value.value))
  {
    match j
    case None => Ok(None)
    case Some(Text("income")) => Ok(Some(Income))
    case Some(Text("outcome")) => Ok(Some(Outcome))
    case Some(_) => Err("invalid type")
  }

  function OptionalNumber(j: Option<Json>): (r: Result<Option<int>, string>)
    ensures r.Ok? <==> AbsentOrNumber(j)
    ensures r.Ok? ==> (r.value.Some? <==> j.Some?)
    ensures r.Ok? && j.Some? ==> j.value == Number(r.value.value)
  {
    match j
    case None => Ok(None)
    case Some(Number(n)) => Ok(Some(n))
    case Some(_) => Err("expected number")
  }

  /** `z.coerce.date().optional()` */
  function OptionalDate(j: Option<Json>, coerceDate: Json -> Option<Timestamp>): (r: Result<Option<Timestamp>, string>)
    ensures r.Ok? <==> AbsentOrDate(j, coerceDate)
    ensures r.Ok? ==> (r.value.Some? <==> j.Some?)
    ensures r.Ok? && j.Some? ==> coerceDate(j.value) == r.value
  {
    match j
    case None => Ok(None)
    case Some(v) => if coerceDate(v).Some? then Ok(Some(coerceDate(v).value)) else Err("invalid date")
  }

  /** `z.coerce.date().nullable().optional()`: `null` stays `null`. */
  function NullableDate(j: Option<Json>, coerceDate: Json -> Option<Timestamp>): (r: Result<Option<Option<Timestamp>>, string>)
    ensures r.Ok? <==> j == Some(Null) || AbsentOrDate(j, coerceDate)
    ensures r.Ok? ==> (r.value.Some? <==> j.Some?)
    ensures r.Ok? ==> (r.value == Some(None) <==> j == Some(Null))
    ensures r.Ok? && j.Some? && j.value != Null ==> coerceDate(j.value) == r.value.value
  {
    match j
    case None => Ok(None)
    case Some(Null) => Ok(Some(None))
    case Some(v) => if coerceDate(v).Some? then Ok(Some(Some(coerceDate(v).value))) else Err("invalid date")
  }

  /** A body the schema accepts: an object whose present fields each have
      the field's type. */
  predicate ChangesConform(body: Json, coerceDate: Json -> Option<Timestamp>) {
    && body.Object?
    && AbsentOrText(Member(body, "description"))
    && AbsentOrKind(Member(body, "type"))
    && AbsentOrNumber(Member(body, "amount"))
    && AbsentOrText(Member(body, "recurrenceRule"))
    && AbsentOrDate(Member(body, "startDate"), coerceDate)
    && (Member(body, "endDate") == Some(Null) || AbsentOrDate(Member(body, "endDate"), coerceDate))
    && AbsentOrText(Member(body, "note"))
  }

  /** `schema.safeParse(body)`: the body must be an object, each present
      field of its type; `coerceDate` is `z.coerce.date()`. */
  function ValidateChanges(body: Json, coerceDate: Json -> Option<Timestamp>): (r: Option<Changes>)
    ensures r.Some? <==> ChangesConform(body, coerceDate)
    ensures r.Some? ==> (r.value.description.Some? <==> "description" in body.fields)
    ensures r.Some? ==> (r.value.kind.Some? <==> "type" in body.fields)
    ensures r.Some? ==> (r.value.amount.Some? <==> "amount" in body.fields)
    ensures r.Some? ==> (r.value.recurrenceRule.Some? <==> "recurrenceRule" in body.fields)
    ensures r.Some? ==> (r.value.startDate.Some? <==> "startDate" in body.fields)
    ensures r.Some? ==> (r.value.endDate.Some? <==> "endDate" in body.fields)
    ensures r.Some? ==> (r.value.endDate == Some(None) <==> Member(body, "endDate") == Some(Null))
    ensures r.Some? ==> (r.value.note.Some? <==> "note" in body.fields)
    ensures r.Some? ==> var c := r.value;
              && (c.description.Some? ==> Member(body, "description") == Some(Text(c.description.value)))
              && (c.kind.Some? ==> Member(body, "type") == Some(Text(KindName(c.kind.value))))
              && (c.amount.Some? ==> Member(body, "amount") == Some(Number(c.amount.value)))
              && (c.recurrenceRule.Some? ==> Member(body, "recurrenceRule") == Some(Text(c.recurrenceRule.value)))
              && (c.note.Some? ==> Member(body, "note") == Some(Text(c.note.value)))
    ensures r.Some? && r.value.startDate.Some? ==>
              Member(body, "startDate").Some? && coerceDate(Member(body, "startDate").value) == r.value.startDate
    ensures r.Some? && r.value.endDate.Some? && r.value.endDate.value.Some? ==>
              Member(body, "endDate").Some? && coerceDate(Member(body, "endDate").value) == r.value.endDate.value
  {
    if !body.Object? then None
    else
      var description := OptionalText(Member(body, "description"));
      var kind := OptionalKind(Member(body, "type"));
      var amount := OptionalNumber(Member(body, "amount"));
      var rule := OptionalText(Member(body, "recurrenceRule"));
      var startDate := OptionalDate(Member(body, "startDate"), coerceDate);
      var endDate := NullableDate(Member(body, "endDate"), coerceDate);
      var note := OptionalText(Member(body, "note"));
      if description.Ok? && kind.Ok? && amount.Ok? && rule.Ok? && startDate.Ok? && endDate.Ok? && note.Ok? then
        Some(Changes(description.value, kind.value, amount.value, rule.value, startDate.value, endDate.value, note.value))
      else None
  }

  const AllColumns: set<Column> := {DescriptionColumn, TypeColumn, AmountColumn, RecurrenceRuleColumn,
                                    StartDateColumn, EndDateColumn, NoteColumn}

  /** The change supplies a value for the column. */
  predicate Supplied(c: Changes, column: Column) {
    match column
    case DescriptionColumn => c.description.Some?
    case TypeColumn => c.kind.Some?
    case AmountColumn => c.amount.Some?
    case RecurrenceRuleColumn => c.recurrenceRule.Some?
    case StartDateColumn => c.startDate.Some?
    case EndDateColumn => c.endDate.Some?
    case NoteColumn => c.note.Some?
  }

  /** The value written to a named column. */
  function CellOf(c: Changes, column: Column): Cell
    requires Supplied(c, column)
  {
    match column
    case DescriptionColumn => TextCell(c.description.value)
    case TypeColumn => KindCell(c.kind.value)
    case AmountColumn => IntCell(c.amount.value)
    case RecurrenceRuleColumn => TextCell(c.recurrenceRule.value)
    case StartDateColumn => TimeCell(c.startDate.value)
    case EndDateColumn => if c.endDate.value.Some? then TimeCell(c.endDate.value.value) else NullCell
    case NoteColumn => TextCell(c.note.value)
  }

  /** The update payload: exactly the supplied fields, each under its
      column; an explicit `null` end date stays `null`. */
  function UpdateDataOf(c: Changes): (data: UpdateData)
    ensures WellTyped(data)
    ensures (DescriptionColumn in data <==> c.description.Some?)
            && (c.description.Some? ==> data[DescriptionColumn] == TextCell(c.description.value))
    ensures (TypeColumn in data <==> c.kind.Some?) && (c.kind.Some? ==> data[TypeColumn] == KindCell(c.kind.value))
    ensures (AmountColumn in data <==> c.amount.Some?) && (c.amount.Some? ==> data[AmountColumn] == IntCell(c.amount.value))
    ensures (RecurrenceRuleColumn in data <==> c.recurrenceRule.Some?)
            && (c.recurrenceRule.Some? ==> data[RecurrenceRuleColumn] == TextCell(c.recurrenceRule.value))
    ensures (StartDateColumn in data <==> c.startDate.Some?)
            && (c.startDate.Some? ==> data[StartDateColumn] == TimeCell(c.startDate.value))
    ensures (EndDateColumn in data <==> c.endDate.Some?)
            && (c.endDate == Some(None) ==> data[EndDateColumn] == NullCell)
            && (c.endDate.Some? && c.endDate.value.Some? ==> data[EndDateColumn] == TimeCell(c.endDate.value.value))
    ensures (NoteColumn in data <==> c.note.Some?) && (c.note.Some? ==> data[NoteColumn] == TextCell(c.note.value))
  {
    map column | column in AllColumns && Supplied(c, column) :: CellOf(c, column)
  }

  /** The payload restricted to the columns in `done`. */
  function Partial(c: Changes, done: set<Column>): UpdateData {
    map column | column in done && Supplied(c, column) :: CellOf(c, column)
  }

  /** Checking one more column adds its value when it is supplied. */
  lemma PartialAdd(c: Changes, done: set<Column>, column: Column)
    requires Supplied(c, column)
    ensures Partial(c, done + {column}) == Partial(c, done)[column := CellOf(c, column)]
  {
  }

  /** A column without a value leaves the payload as it was. */
  lemma PartialSkip(c: Changes, done: set<Column>, column: Column)
    requires !Supplied(c, column)
    ensures Partial(c, done + {column}) == Partial(c, done)
  {
  }

  /** Checking every column gives the whole payload. */
  lemma PartialAll(c: Changes, done: set<Column>)
    requires done == AllColumns
    ensures Partial(c, done) == UpdateDataOf(c)
  {
  }

  /** The handler's field-by-field construction of `updateData`. */
  method BuildUpdateData(c: Changes) returns (data: UpdateData)
    ensures data == UpdateDataOf(c)
  {
    data := map[];
    ghost var done: set<Column> := {};
    assert data == Partial(c, done);
    if c.description.Some? {
      PartialAdd(c, done, DescriptionColumn);
      data := data[DescriptionColumn := TextCell(c.description.value)];
    } else {
      PartialSkip(c, done, DescriptionColumn);
    }
    done := done + {DescriptionColumn};
    assert data == Partial(c, done);
    if c.kind.Some? {
      PartialAdd(c, done, TypeColumn);
      data := data[TypeColumn := KindCell(c.kind.value)];
    } else {
      PartialSkip(c, done, TypeColumn);
    }
    done := done + {TypeColumn};
    assert data == Partial(c, done);
    if c.amount.Some? {
      PartialAdd(c, done, AmountColumn);
      data := data[AmountColumn := IntCell(c.amount.value)];
    } else {
      PartialSkip(c, done, AmountColumn);
    }
    done := done + {AmountColumn};
    assert data == Partial(c, done);
    if c.recurrenceRule.Some? {
      PartialAdd(c, done, RecurrenceRuleColumn);
      data := data[RecurrenceRuleColumn := TextCell(c.recurrenceRule.value)];
    } else {
      PartialSkip(c, done, RecurrenceRuleColumn);
    }
    done := done + {RecurrenceRuleColumn};
    assert data == Partial(c, done);
    if c.startDate.Some? {
      PartialAdd(c, done, StartDateColumn);
      data := data[StartDateColumn := TimeCell(c.startDate.value)];
    } else {
      PartialSkip(c, done, StartDateColumn);
    }
    done := done + {StartDateColumn};
    assert data == Partial(c, done);
    if c.endDate.Some? {
      PartialAdd(c, done, EndDateColumn);
      data := data[EndDateColumn := if c.endDate.value.Some? then TimeCell(c.endDate.value.value) else NullCell];
    } else {
      PartialSkip(c, done, EndDateColumn);
    }
    done := done + {EndDateColumn};
    assert data == Partial(c, done);
    if c.note.Some? {
      PartialAdd(c, done, NoteColumn);
      data := data[NoteColumn := TextCell(c.note.value)];
    } else {
      PartialSkip(c, done, NoteColumn);
    }
    done := done + {NoteColumn};
    assert data == Partial(c, done);
    PartialAll(c, done);
  }

  /** The body key that feeds each column: the camelCase name of the
      snake_case column. */
  function BodyKey(column: Column): string {
    match column
    case DescriptionColumn => "description"
    case TypeColumn => "type"
    case AmountColumn => "amount"
    case RecurrenceRuleColumn => "recurrenceRule"
    case StartDateColumn => "startDate"
    case EndDateColumn => "endDate"
    case NoteColumn => "note"
  }

  /** A column is in the update exactly when the body has its field. */
  lemma UpdateDataMirrorsBody(body: Json, coerceDate: Json -> Option<Timestamp>, column: Column)
    requires ValidateChanges(body, coerceDate).Some?
    ensures column in UpdateDataOf(ValidateChanges(body, coerceDate).value) <==> BodyKey(column) in body.fields
  {
  }

  /** The stored definition after the update takes every field the body
      supplies (an explicit `null` end date clears it) and keeps the others. */
  lemma PatchedTakesChanges(d: Definition, c: Changes, now: Timestamp)
    ensures var r := Patched(d, UpdateDataOf(c), now);
      && r.description == c.description.GetOr(d.description)
      && r.kind == c.kind.GetOr(d.kind)
      && r.amount == c.amount.GetOr(d.amount)
      && r.recurrenceRule == c.recurrenceRule.GetOr(d.recurrenceRule)
      && r.startDate == c.startDate.GetOr(d.startDate)
      && r.endDate == c.endDate.GetOr(d.endDate)
      && r.note == (if c.note.Some? then c.note else d.note)
  {
    var data := UpdateDataOf(c);
    if c.endDate.Some? {
      assert data[EndDateColumn].NullCell? <==> c.endDate.value.None?;
    }
  }

  function OptionalInstant(t: Option<Timestamp>): Json {
    if t.Some? then Number(t.value) else Null
  }

  /** A definition row as a response carries it; instants are written as
      milliseconds since the epoch. */
  function DefinitionJson(d: Definition): (j: Json)
    ensures j.Object? && "id" in j.fields && j.fields["id"] == Text(d.id)
  {
    Object(map["id" := Text(d.id), "user_id" := Text(d.userId), "description" := Text(d.description),
               "type" := Text(KindName(d.kind)), "amount" := Number(d.amount),
               "note" := if d.note.Some? then Text(d.note.value) else Null,
               "recurrence_rule" := Text(d.recurrenceRule), "start_date" := Number(d.startDate),
               "end_date" := OptionalInstant(d.endDate), "last_generated_at" := OptionalInstant(d.lastGeneratedAt),
               "created_at" := Number(d.createdAt), "updated_at" := Number(d.updatedAt)])
  }

  const InvalidId := "Invalid recurring transaction id"
  const InvalidData := "Invalid data"
  const UpdateFailed := "Error updating recurring transaction"
  const Updated := "Recurring transaction updated successfully"
  const UpdatedInfo := "Only the recurring transaction was updated. Existing real transactions remain unchanged."

  /** The status selection on the service's result. */
  function UpdateResponse(result: Result<Definition, Fault>): (r: Response)
    ensures r.statusCode == 200 <==> result.Ok?
    ensures r.statusCode == 404 <==> result.Err? && result.error.isError && Contains(result.error.message, "not found")
    ensures r.statusCode == 500 <==> result.Err? && !(result.error.isError && Contains(result.error.message, "not found"))
    ensures result.Err? ==>
              r == MessageResponse(r.statusCode, if result.error.isError then result.error.message else UpdateFailed, map[])
    ensures result.Ok? ==>
              r == MessageResponse(200, Updated, map["info" := Text(UpdatedInfo), "data" := DefinitionJson(result.value)])
  {
    match result
    case Err(f) =>
      var message := if f.isError then f.message else UpdateFailed;
      if f.isError && Contains(f.message, "not found") then MessageResponse(404, message, map[])
      else MessageResponse(500, message, map[])
    case Ok(d) => MessageResponse(200, Updated, map["info" := Text(UpdatedInfo), "data" := DefinitionJson(d)])
  }

  /** The ownership error's message mentions "not found". */
  lemma NotFoundInOwnershipMessage(m: string)
    requires m == "Recurring transaction not found or unauthorized"
    ensures Contains(m, "not found")
  {
    assert m == "Recurring transaction " + "not found" + " or unauthorized";
    ContainsMiddle("Recurring transaction ", "not found", " or unauthorized");
  }

  /** A missing or foreign definition is answered with 404. */
  lemma OwnershipFailureIsNotFound()
    ensures UpdateResponse(Err(NotFoundOrUnauthorized)).statusCode == 404
  {
    NotFoundInOwnershipMessage(NotFoundOrUnauthorized.message);
  }

  /** What the service answers, as a function of the tables before the call. */
  function UpdateOutcome(db: Store, id: Id, userId: Id, data: UpdateData, now: Timestamp): (r: Result<Definition, Fault>)
    requires WellTyped(data)
    reads db
    ensures r.Ok? <==> Owned(db, id, userId).Ok? && db.FaultAt(RecurringTransactions, Update, id).None?
    ensures Owned(db, id, userId).Err? ==> r == Err(NotFoundOrUnauthorized)
    ensures r.Ok? ==> r.value == Patched(Owned(db, id, userId).value, data, now)
                      && r.value.id == id && r.value.userId == userId
  {
    match Owned(db, id, userId)
    case Err(e) => Err(e)
    case Ok(d) =>
      match db.FaultAt(RecurringTransactions, Update, id)
      case Some(f) => Err(f)
      case None => Ok(Patched(d, data, now))
  }

  /** The body of an internal-error answer. */
  function InternalError(message: string, requestId: Option<string>): Response {
    MessageResponse(500, "Internal server error",
                    if requestId.Some? then map["error" := Text(message), "requestId" := Text(requestId.value)]
                    else map["error" := Text(message)])
  }

  /** The handler. A body that is not JSON makes `JSON.parse` throw; the
      handler catches it and answers 500 with the parser's message. */
  method Handler(db: Store, pathId: Option<string>, body: RequestBody, sub: Id, requestId: Option<string>,
                 now: Timestamp, coerceDate: Json -> Option<Timestamp>)
    returns (r: Response)
    modifies db
    ensures !Truthy(pathId) ==> r == MessageResponse(400, InvalidId, map[]) && db.recurring == old(db.recurring)
    ensures Truthy(pathId) && body.Malformed? ==>
              r == InternalError(body.message, requestId) && db.recurring == old(db.recurring)
    ensures Truthy(pathId) && ParseBody(body).Ok? && ValidateChanges(ParseBody(body).value, coerceDate).None? ==>
              r == MessageResponse(400, InvalidData, map[]) && db.recurring == old(db.recurring)
    ensures Truthy(pathId) && ParseBody(body).Ok? && ValidateChanges(ParseBody(body).value, coerceDate).Some? ==>
              var data := UpdateDataOf(ValidateChanges(ParseBody(body).value, coerceDate).value);
              && r == UpdateResponse(old(UpdateOutcome(db, pathId.value, sub, data, now)))
              && db.recurring == if old(UpdateOutcome(db, pathId.value, sub, data, now)).Ok?
                                 then PatchRows(old(db.recurring), pathId.value, sub, data, now)
                                 else old(db.recurring)
    ensures db.transactions == old(db.transactions) && db.categories == old(db.categories) && db.tags == old(db.tags)
  {
    if !Truthy(pathId) {
      return MessageResponse(400, InvalidId, map[]);
    }
    var id := pathId.value;
    var parsed := ParseBody(body);
    if parsed.Err? {
      return InternalError(parsed.error, requestId);
    }
    var changes := ValidateChanges(parsed.value, coerceDate);
    if changes.None? {
      return MessageResponse(400, InvalidData, map[]);
    }
    var data := BuildUpdateData(changes.value);
    var result := UpdateRecurringTransaction(db, id, sub, data, now);
    r := UpdateResponse(result);
  }
}
